=== FILE: README.md ===
# Optical line amplifier and WSS drivers, modelled in Dafny

This project models the deterministic core of the special-hardware drivers in
`osc_python/special-hw/drivers`. That core is everything except the sockets,
Telnet and SSH plumbing:

- the Cisco OMI drivers: the EDFA amplifier cards and the WSS (wavelength
  selective switch) card, reached over a raw socket;
- the Juniper ILA driver, which is reached over an SSH shell.

## How the device is abstracted

An OMI card is a `Device` (module `OmiDevice`) with three parts:

- a register store `map<(int, int), int>`: the value the card reports for
  each (register, sub-field);
- a trace of every wire command sent, oldest first;
- the bytes received but not yet read.

`_omi_read` appends the read command to the trace. It then receives what was
pending followed by the card's echo, and drains the socket. The source
receives once, at most 4096 bytes. `Read` returns the whole reply, and
`ReadTextRecv` limits it to one `recv(4096)`. The two agree whenever the
reply fits (`OmiDevice.RecvAgrees`). The getter lemmas are stated on the
whole reply; see "## Left out". `_omi_write`
appends the write command, stores the value and drains. Every getter and
setter is a pure function from a device to a `Step`, which pairs the device
afterwards with either the value returned or the Python exception raised.
This makes "nothing was sent", write order and set/get round trips into
statements that can be proved.

The Juniper driver is modelled differently. It is a pure function from the
shell's replies to the commands it sends and the value it returns. The
replies are parameters; so is the outcome of the socket peek in
`is_socket_closed`.

## Modules

| module | what it models |
|---|---|
| `Wrappers` | `Option`/`Result`, plus the Python exceptions the drivers can raise |
| `Text` | `str.split`, `str.join`, `str.find`, `str.lower`, `str.replace(c, "")` on `seq<char>` |
| `Numerals` | `str(int)`, `int(str)`, `float(str)` on decimal text, and `int32(x)` / `int(x)` truncation toward zero |
| `Anchors` | `get_string_between` |
| `OmiFraming` | `_omi_read` / `_omi_write` / `_ocm_raw_read` command framing, including the WXC `\n` variant; the card's echo; the start anchors |
| `OmiDevice` | the abstract card, `_omi_read`, `_omi_write`, `clear_buffer` |
| `Modes` | the mode codec 0/1/2 ↔ `constant_current`/`constant_power`/`constant_gain` |
| `OmiAmplifier` | `EDFA17OmiInterface` / `EDFA35OmiInterface`: register map, tenths codec, `get_mode` / `set_mode` |
| `CiscoEdfa35` | `CiscoEDFA35`: the direction-aware register map, `get_mode`, `get` |
| `Liveness` | `is_socket_closed` over an abstract peek outcome |
| `Wss` | `CiscoWSS`: `get_ocm`, `init_channel_WXC` from the integer codes on, `set_ch_on` / `set_ch_off` |
| `AmplifierFacade` | `AmplifierInterface`: tilt negation, insertion loss, `set_mode`, `configure_operational` |
| `Chassis` | `ChassisInterface.add_amplifier` |
| `Keys` | the `STATE_` / `CONFIG_` key constants, as an enumeration |
| `JuniperUnits` | `split_string` (the `-?\d+\.?\d*` + `[a-zA-Z]+` regular expression) |
| `JuniperInfo` | the `show edfa` / `show evoa` text parser |
| `JuniperDriver` | `GET_CONV` / `SET_CONV`, direction normalisation, `get`, `set`, the setters, VOA direction, `edfa_login` |

## Behaviour worth knowing

The model follows the code in each case below, including where a reader
might expect something else.

- **Missing end anchor.** `get_string_between` (cisco/utils.py:22-31) fails
  only when the start anchor is missing. A missing end anchor is not an
  error: the whole piece up to the next start anchor is returned
  (`Anchors.GetStringBetweenSpec`).
- **Unknown mode code.** `CiscoEDFA35.get_mode` (cisco/driver.py:166-180)
  and `EDFA35OmiInterface.get_mode` only log an unknown code and return
  `"null"`. `EDFA17OmiInterface.get_mode` (cisco/omi_interfaces.py:78-91)
  logs it and then raises UnboundLocalError, because `mode` was never
  assigned (`OmiAmplifier.GetModeUnknown`).
- **Conflicting or missing targets.** `configure_operational`
  (cisco/user.py:266-283) only logs when both targets are given, and does
  nothing at all when neither is. It sends nothing in either case
  (`AmplifierFacade.ConfigureCases`).
- **Read framing.** Read commands join their fields with `", "`, taken from
  `str(list)` (cisco/omi_interfaces.py:25-27). Write commands join them
  with `,`.
- **When stale bytes are drained.** `_omi_read` drains the socket after
  receiving, not before sending (cisco/omi_interfaces.py:29-32). So bytes
  left pending before a read are part of that read's reply, and a stale
  echo of the same read shadows the fresh one
  (`OmiFraming.StaleEchoShadows`).
- **Unexpected peek failure.** `is_socket_closed` (cisco/driver.py:118-132)
  returns False, meaning "alive", when the peek fails in an unexpected way.
- **Unknown keys in `get`.** The Cisco `get` (cisco/driver.py:134-148)
  ignores keys it does not know. The Juniper `get` (juniper/driver.py:122-135)
  raises KeyError on them.

## Model

Source paths are relative to the repository root.

| member | source | states |
|---|---|---|
| Anchors.GetStringBetweenSpec | osc_python/special-hw/drivers/cisco/utils.py:22-31 | Extraction fails exactly when an anchor is empty (ValueError) or the start anchor is absent (IndexError). Otherwise the piece runs from just after the first start anchor to the next start anchor or the end of the text. The result is the piece cut right before its first end anchor that lies wholly within the piece, or the whole piece when there is none. No other text meets that description. |
| Anchors.CutUnique | osc_python/special-hw/drivers/cisco/utils.py:31 | A piece has only one cut at its first end anchor: two texts that both qualify are equal. |
| Anchors.GetStringBetweenRoundTrip | osc_python/special-hw/drivers/cisco/utils.py:30-31 | If the start anchor first occurs right before `v` and the end anchor first occurs right after it, extraction returns exactly `v`, whatever follows. |
| Anchors.SecondPiece | osc_python/special-hw/drivers/cisco/utils.py:30 | When the start anchor occurs, `split(start)[1]` exists and is the text from just after its first occurrence to its next occurrence, or to the end. |
| Text.JoinSplit | osc_python/special-hw/drivers/cisco/utils.py:30-31 | Joining the pieces of a split with the same separator gives back the original string. |
| Text.SplitJoin | osc_python/special-hw/drivers/juniper/driver.py:104-105 | Splitting a join of pieces that do not contain the separator's first character gives back exactly those pieces. |
| Text.SplitPiecesClean | osc_python/special-hw/drivers/cisco/utils.py:30-31 | No piece of a split contains the separator. |
| Text.SplitHasSecond | osc_python/special-hw/drivers/cisco/utils.py:30 | A split has a second piece if and only if the separator occurs. |
| Text.Remove | osc_python/special-hw/drivers/juniper/driver.py:106 | `replace(c, "")` leaves no `c` and never lengthens the text. Every other character occurs as often as before, and text without `c` is unchanged. |
| Text.RemoveAppend | osc_python/special-hw/drivers/juniper/driver.py:106 | Removal works piece by piece: the result for `a + b` is the result for `a` followed by the result for `b`. So the kept characters stay in their order. |
| Text.RemoveOne | osc_python/special-hw/drivers/juniper/driver.py:106 | A single character is dropped exactly when it is `c`. With `RemoveAppend`, this determines the result for every text. |
| Numerals.ParseIntToString | osc_python/special-hw/drivers/cisco/omi_interfaces.py:82 | `int(str(n)) == n` for every integer, negative ones included. |
| Numerals.ParseFloatToString | osc_python/special-hw/drivers/cisco/omi_interfaces.py:109 | `float(str(n))` is `n` for every integer. |
| Numerals.ParseFloatTrailingPoint | osc_python/special-hw/drivers/juniper/utils.py:21 | `float("<n>.")` is `n`: a point with no fraction digits is accepted. |
| Numerals.ParseIntPadded | osc_python/special-hw/drivers/cisco/driver.py:335 | `int` ignores a leading space: `int(" " + str(n)) == n`. |
| Numerals.ParseIntPaddedBy | osc_python/special-hw/drivers/cisco/driver.py:335 | `int` ignores any leading white-space character `str.isspace()` accepts, the separators 0x1C to 0x1F included. |
| Numerals.ParseFloatPadded | osc_python/special-hw/drivers/cisco/driver.py:336 | `float` ignores a leading space. |
| Numerals.Trunc | osc_python/special-hw/drivers/cisco/omi_interfaces.py:169 | `int32(x)` truncates toward zero: it is the floor for non-negative `x` and the ceiling for negative `x`. |
| Numerals.TruncNegate | osc_python/special-hw/drivers/cisco/driver.py:278-280 | Truncation commutes with negation, so the wire value of `-t` is minus that of `t`. |
| OmiFraming.ReadCommandRoundTrip | osc_python/special-hw/drivers/cisco/omi_interfaces.py:24-28 | A read command is `omi_read(` + the fields joined by `", "` + `)` + terminator. Parsing it gives back exactly the fields and the terminator. |
| OmiFraming.WriteCommandRoundTrip | osc_python/special-hw/drivers/cisco/omi_interfaces.py:35-38 | A write command is `omi_write(` + five fields joined by `,` with no spaces + `)` + terminator. Parsing it gives back exactly the five fields and the terminator. |
| OmiFraming.CommandsDistinct | osc_python/special-hw/drivers/cisco/omi_interfaces.py:24-38 | Different reads give different commands, and no read command equals a write command. |
| OmiFraming.WxcFraming | osc_python/special-hw/drivers/cisco/omi_interfaces.py:405-414 | The WXC read and write commands equal the amplifier ones except for the last character: `\n` instead of `\r`. |
| OmiFraming.ArgTextOfListRepr | osc_python/special-hw/drivers/cisco/omi_interfaces.py:25 | Cutting `str(list)` between `[` and `]` yields the fields joined by `", "`. |
| OmiFraming.ParseAllRenders | osc_python/special-hw/drivers/cisco/omi_interfaces.py:25 | Parsing each rendered field with `int` gives back the fields. |
| OmiFraming.ArgsRoundTrip | osc_python/special-hw/drivers/cisco/omi_interfaces.py:25-27 | Fields joined by a separator that starts with neither a digit nor `-` split and parse back to the same fields. |
| OmiFraming.StartAnchorOfCommand | osc_python/special-hw/drivers/cisco/omi_interfaces.py:79-81 | A getter's start anchor is its own read command without the terminator, followed by `\n\rI32-Value is:`. |
| OmiFraming.EchoValue | osc_python/special-hw/drivers/cisco/omi_interfaces.py:106-109 | From the card's echo of a read, followed by anything, extraction between the start anchor and `\n\rCompleted` yields `str(value)`. |
| OmiFraming.EchoValueBetween | osc_python/special-hw/drivers/cisco/utils.py:30-31 | Stale bytes in front of the echo do not change the value extracted, as long as they hold no start of the anchor. |
| OmiFraming.StaleEchoShadows | osc_python/special-hw/drivers/cisco/omi_interfaces.py:29-32 | If a stale echo of the same read is still pending, the getter extracts the stale value and not the current one. |
| OmiDevice.DrainedIsClean | osc_python/special-hw/drivers/cisco/utils.py:12-19 | After a drain nothing is pending, so no stale anchor can come before the next reply. |
| OmiDevice.ReadTextValue | osc_python/special-hw/drivers/cisco/omi_interfaces.py:24-33 | A clean read of a reported register yields `str(value)`, appends exactly the read command to the trace and leaves nothing pending. |
| OmiDevice.Recv | osc_python/special-hw/drivers/cisco/omi_interfaces.py:31 | One `recv(4096)` yields the first 4096 characters of what is waiting, or all of it when there is less. |
| OmiDevice.RecvAgrees | osc_python/special-hw/drivers/cisco/omi_interfaces.py:24-33 | When the pending bytes and the card's reply fit in 4096, the single receive sees the whole reply. |
| OmiDevice.RecvOverflow | osc_python/special-hw/drivers/cisco/omi_interfaces.py:24-33 | With 4096 or more pending bytes that hold no start anchor, the read raises IndexError whatever the card reports. It still sends exactly its command and leaves nothing pending. |
| OmiDevice.ReadTextValueRecv | osc_python/special-hw/drivers/cisco/omi_interfaces.py:24-33 | On a clean socket, when the pending bytes and the echo fit in one receive, a read of a reported register yields `str(value)`. |
| OmiDevice.RecvLimitMatters | osc_python/special-hw/drivers/cisco/omi_interfaces.py:24-33 | With 4096 stale bytes and no anchor among them, the whole reply still holds the value, but the single receive raises IndexError. |
| OmiDevice.ReadTextMissing | osc_python/special-hw/drivers/cisco/omi_interfaces.py:24-33 | A read of a register the card does not report, with no anchor pending, fails with IndexError. |
| OmiDevice.ReadTextStale | osc_python/special-hw/drivers/cisco/omi_interfaces.py:29-32 | A pending stale echo of the same read is what the read returns. |
| OmiDevice.ReadAfterWrite | osc_python/special-hw/drivers/cisco/omi_interfaces.py:24-41 | A read after a write returns the written value for the written register and the old value for any other. The trace grows by the write, then the read. |
| OmiDevice.WriteThenRead | osc_python/special-hw/drivers/cisco/omi_interfaces.py:35-41 | A write stores its value under (f0, f1), appends exactly its command and changes no other register. |
| Modes.OfCodeExact | osc_python/special-hw/drivers/cisco/omi_interfaces.py:83-91 | A code decodes to a mode if and only if it is that mode's code. |
| Modes.OfNameExact | osc_python/special-hw/drivers/cisco/omi_interfaces.py:157-165 | A string names a mode if and only if its lower-cased form is that mode's name. |
| Modes.CodecRoundTrip | osc_python/special-hw/drivers/cisco/omi_interfaces.py:157-166 | Encoding then decoding a mode, by code or by name, gives back the same mode. |
| Modes.NameIsLower | osc_python/special-hw/drivers/cisco/omi_interfaces.py:158-163 | Mode names are already lower case. |
| OmiAmplifier.GetQuantityAsWritten | osc_python/special-hw/drivers/cisco/omi_interfaces.py:105-155 | Each getter reads its register's fields, cuts the reply at its own anchor and parses the value in tenths. |
| OmiAmplifier.GetModeAsWritten | osc_python/special-hw/drivers/cisco/omi_interfaces.py:78-91 | `get_mode` reads (21, 1, 1, 1, 0), cuts at its own anchor and decodes the value as a mode. |
| OmiAmplifier.AnchorsAreEchoes | osc_python/special-hw/drivers/cisco/omi_interfaces.py:105-155 | The start anchor spelled out in every getter is the echo of that getter's own read. |
| OmiAmplifier.ReadingIsTenths | osc_python/special-hw/drivers/cisco/omi_interfaces.py:109-110 | The reading of a register value `v` is `v / 10`. |
| OmiAmplifier.GetQuantityValue | osc_python/special-hw/drivers/cisco/omi_interfaces.py:105-155 | On a clean socket, a getter returns its register's value over ten and sends exactly its read command. |
| OmiAmplifier.GetQuantityMissing | osc_python/special-hw/drivers/cisco/omi_interfaces.py:105-155 | A getter whose register the card does not report raises IndexError after sending its read. |
| OmiAmplifier.TenthsRoundTrip | osc_python/special-hw/drivers/cisco/omi_interfaces.py:168-170 | `int32(10x) / 10` lies within 0.1 of `x`, on the side of zero. It equals `x` exactly when `x` has at most one decimal. |
| OmiAmplifier.GetAfterWrite | osc_python/special-hw/drivers/cisco/omi_interfaces.py:35-41 | After any write, a getter reads the written value if the write addressed its register, and the old value otherwise. |
| OmiAmplifier.SetThenGet | osc_python/special-hw/drivers/cisco/omi_interfaces.py:168-189 | Setting the gain, tilt or VOA and then getting it returns `int32(10x) / 10`. The trace is exactly the write then the read. |
| OmiAmplifier.OutputPowerRegisters | osc_python/special-hw/drivers/cisco/omi_interfaces.py:129-144 | `set_output_power` is read back by `get_tot_signal_out_power` (42, 2); `get_output_power` (42, 1) still reads what it read before. |
| OmiAmplifier.SetCurrentWrites | osc_python/special-hw/drivers/cisco/omi_interfaces.py:172-176 | `set_current` writes (24, 1) and then (24, 2) in tenths and changes no other register. |
| OmiAmplifier.SetModeUnknown | osc_python/special-hw/drivers/cisco/omi_interfaces.py:157-166 | An unknown mode raises UnboundLocalError and sends nothing. |
| OmiAmplifier.SetModeThenGet | osc_python/special-hw/drivers/cisco/omi_interfaces.py:78-91 | After a successful `set_mode`, `get_mode` returns the lower-cased mode, on both card variants. |
| OmiAmplifier.GetModeValue | osc_python/special-hw/drivers/cisco/omi_interfaces.py:215-229 | `get_mode` returns the name of the mode whose code the register holds. |
| OmiAmplifier.GetModeUnknown | osc_python/special-hw/drivers/cisco/omi_interfaces.py:83-91 | For a code other than 0, 1 and 2, the EDFA17 card raises UnboundLocalError and the EDFA35 card returns `"null"`. |
| CiscoEdfa35.GetQuantityAsWritten | osc_python/special-hw/drivers/cisco/driver.py:194-232 | Each getter reads the fields chosen by the direction and cuts the reply at the anchor it builds from the direction. |
| CiscoEdfa35.GetModeAsWritten | osc_python/special-hw/drivers/cisco/driver.py:166-180 | `get_mode` reads (21, 1, 1, 1, 0) and decodes the register as a mode, with `"null"` for any other code. |
| CiscoEdfa35.AnchorsAreEchoes | osc_python/special-hw/drivers/cisco/driver.py:194-232 | For every direction, the anchor built from the direction is the echo of the getter's own read. |
| CiscoEdfa35.GetQuantityValue | osc_python/special-hw/drivers/cisco/driver.py:194-232 | On a clean socket, a getter returns the value over ten of register (27, d) for gain, (28, d) for tilt, 41/43 for input power and 42/44 for output power. |
| CiscoEdfa35.GetAfterWrite | osc_python/special-hw/drivers/cisco/driver.py:194-232 | After any write, a getter reads the written value if the write addressed its register, and the old value otherwise. |
| CiscoEdfa35.SetThenGet | osc_python/special-hw/drivers/cisco/driver.py:265-288 | Setting the gain, tilt or VOA in a direction and getting it back returns `int32(10x) / 10`. The trace is the write then the read. |
| CiscoEdfa35.DirectionsSeparate | osc_python/special-hw/drivers/cisco/driver.py:265-280 | Setting the gain or tilt of one direction leaves what the other direction reads unchanged. |
| CiscoEdfa35.OutputPowerRegisters | osc_python/special-hw/drivers/cisco/driver.py:222-241 | The output power written to (42, 2) is read back by `get_tot_signal_out_power`, whatever the direction. `get_output_power` is unaffected. |
| CiscoEdfa35.SetSecurityWrites | osc_python/special-hw/drivers/cisco/driver.py:269-270 | `set_security` writes (55, d) and changes no other register. |
| CiscoEdfa35.GetModeValue | osc_python/special-hw/drivers/cisco/driver.py:166-180 | `get_mode` maps 0/1/2 to the mode names and every other code to `"null"`. |
| CiscoEdfa35.SetModeThenGet | osc_python/special-hw/drivers/cisco/driver.py:166-180 | After a successful `set_mode`, `get_mode` returns the lower-cased mode. |
| CiscoEdfa35.GetKeys | osc_python/special-hw/drivers/cisco/driver.py:134-148 | When `get` succeeds, its result holds STATE_GAIN if it was asked for, and no other new key. |
| CiscoEdfa35.GetTrace | osc_python/special-hw/drivers/cisco/driver.py:134-148 | `get` sends one read per recognised key, in argument order, including the keys whose value it discards. |
| CiscoEdfa35.GetValues | osc_python/special-hw/drivers/cisco/driver.py:134-148 | On a drained socket whose card reports every register asked about, `get` returns the gain reading under STATE_GAIN and nothing else. |
| CiscoEdfa35.GetDrained | osc_python/special-hw/drivers/cisco/driver.py:194-232 | With nothing pending, a getter returns its register's reading, leaves nothing pending and changes no register. |
| Liveness.IsSocketClosed | osc_python/special-hw/drivers/cisco/driver.py:118-132 | The socket counts as closed exactly when the peek returned zero bytes or the connection was reset. So data waiting, a peek that would block, and any unexpected exception all read as open. |
| Wss.OcmRegisters | osc_python/special-hw/drivers/cisco/driver.py:313-314 | Each side has 18 OCM registers: the odd numbers 1..35 for MUX, the even numbers 0..34 otherwise. |
| Wss.OcmRegisterSelection | osc_python/special-hw/drivers/cisco/driver.py:311-326 | `"COM"` selects 35 on MUX and 34 otherwise. Port `p` in 1..18 selects `2p - 1` on MUX and `2(p - 1)` otherwise. Ports -17..0 count from the end. Any other port raises IndexError. |
| Wss.GetOcmSends | osc_python/special-hw/drivers/cisco/driver.py:317-326 | A port with no register sends nothing and raises IndexError. Otherwise exactly one OCM read of the selected register is sent. |
| Wss.ParseChunks | osc_python/special-hw/drivers/cisco/driver.py:333-336 | The slice and power lists have one entry per chunk, each the parse of its chunk. The first chunk that fails ends the parse with its error. |
| Wss.ChunkRoundTrip | osc_python/special-hw/drivers/cisco/driver.py:334-336 | A chunk `" <slice>, power <tenths>"` parses back to the slice and the power over ten. |
| Wss.OcmRoundTrip | osc_python/special-hw/drivers/cisco/driver.py:328-336 | A monitor reply made of a banner and one chunk per channel parses back to the slices and the powers over ten, in order. The banner may hold anything except the separator `ch` itself. |
| Wss.OcmPieces | osc_python/special-hw/drivers/cisco/driver.py:328-333 | The pieces of such a reply after the banner are exactly its chunks, in order. |
| Wss.EchoedBanner | osc_python/special-hw/drivers/cisco/omi_interfaces.py:46 | A reply led by the card's echo of `ocm_raw_read 35` parses back to its channels, although the echo holds a `c`. |
| Wss.InitChannelGuards | osc_python/special-hw/drivers/cisco/driver.py:359-388 | Out-of-range codes return with nothing sent. An unknown side raises ValueError with nothing sent. Otherwise exactly eight writes go out. |
| Wss.InitChannelDmx | osc_python/special-hw/drivers/cisco/driver.py:383-456 | On DMX the eight writes are: off (80), frequency (28), bandwidth (29), port (27), VOA mode (26), attenuation (30), VOA mode (26), on (80), in that order. |
| Wss.InitChannelMux | osc_python/special-hw/drivers/cisco/driver.py:383-456 | On MUX the eight writes are: off (82), frequency (34), bandwidth (35), port (33), VOA mode (32), attenuation (36), VOA mode (32), on (82), in that order. |
| Wss.InitChannelState | osc_python/special-hw/drivers/cisco/driver.py:383-456 | After provisioning, the channel is on, tuned to its codes, routed to its port and in attenuation mode with `int(10 att)`. Every other register, including other channels', is unchanged. |
| Wss.SetChOnWrites | osc_python/special-hw/drivers/cisco/driver.py:476-488 | `set_ch_on` writes the VOA mode and then the on/off register of a known side. For an unknown side it writes only register 82. |
| Wss.OnOffAgree | osc_python/special-hw/drivers/cisco/driver.py:476-497 | `set_ch_on` and `set_ch_off` address the same on/off register that provisioning uses, setting it to 1 and 0 respectively. |
| AmplifierFacade.LossOffsets | osc_python/special-hw/drivers/cisco/user.py:210-216 | The insertion loss is added on set and subtracted on get. A missing or zero loss leaves the value unchanged. |
| AmplifierFacade.LossCancels | osc_python/special-hw/drivers/cisco/user.py:212-256 | Subtracting the loss undoes adding it. |
| AmplifierFacade.SetterWrites | osc_python/special-hw/drivers/cisco/user.py:236-260 | Each facade setter writes its register in tenths of what it sends down: the tilt negated, the output power plus the loss. |
| AmplifierFacade.SetThenGetThroughFacade | osc_python/special-hw/drivers/cisco/user.py:201-257 | Set then get through the facade returns the set point truncated to one decimal. The tilt keeps its sign because both directions negate it. The output power is truncated with the loss added, then the loss is removed. |
| AmplifierFacade.OneDecimalExact | osc_python/special-hw/drivers/cisco/user.py:249-257 | A set point with one decimal comes back exactly. |
| AmplifierFacade.SetModeForwards | osc_python/special-hw/drivers/cisco/user.py:226-234 | The facade forwards every mode string. An invalid one fails in the interface with nothing sent; a valid one writes its code to (21, 1, 1, 1). |
| AmplifierFacade.ConfigureCases | osc_python/special-hw/drivers/cisco/user.py:266-283 | `configure_operational` fails (KeyError, nothing sent) exactly when one target is given without a tilt. It sends nothing when both targets or neither are given. |
| AmplifierFacade.ConfigurePower | osc_python/special-hw/drivers/cisco/user.py:270-276 | With only `pout_target`, the writes are `constant_power` to the mode register, then the output power, then the negated tilt. |
| AmplifierFacade.ConfigureGain | osc_python/special-hw/drivers/cisco/user.py:277-283 | With only `gain_target`, the writes are `constant_gain` to the mode register, then the gain, then the negated tilt. |
| Chassis.AddAmplifier | osc_python/special-hw/drivers/cisco/user.py:315-318 | The amplifier is stored under its uid, replacing any earlier one with that uid; other entries are unchanged. |
| Chassis.AddSameIdTwice | osc_python/special-hw/drivers/cisco/user.py:315-318 | Adding twice under one uid keeps only the later amplifier. |
| Chassis.AddDistinctCommute | osc_python/special-hw/drivers/cisco/user.py:315-318 | Amplifiers with different uids can be added in either order. |
| JuniperUnits.FindMatch | osc_python/special-hw/drivers/juniper/utils.py:17 | `re.findall(...)[0]` is the leftmost position where the pattern matches, and no earlier position matches. |
| JuniperUnits.MatchSound | osc_python/special-hw/drivers/juniper/utils.py:17 | A match is an optional minus, digits, at most one point with digits, then the maximal run of letters that follows. |
| JuniperUnits.MatchComplete | osc_python/special-hw/drivers/juniper/utils.py:17 | Wherever such a numeral is directly followed by a letter, the pattern matches there, with the maximal letter run. |
| JuniperUnits.SplitString | osc_python/special-hw/drivers/juniper/utils.py:11-23 | The input comes back unchanged if and only if the pattern matches nowhere. |
| JuniperUnits.SplitStringAt | osc_python/special-hw/drivers/juniper/utils.py:17-23 | The first match gives the number and the unit; later matches are ignored. |
| JuniperUnits.NumeralParses | osc_python/special-hw/drivers/juniper/utils.py:21 | A matched numeral always parses: with `float` when it holds a point, with `int` otherwise. |
| JuniperUnits.SplitStringRoundTrip | osc_python/special-hw/drivers/juniper/utils.py:11-23 | `str(n)` followed by a unit splits back to the integer `n` and the unit. |
| JuniperUnits.SplitStringTrailingPoint | osc_python/special-hw/drivers/juniper/utils.py:21 | `"<n>.<unit>"` splits to the float `n` and the unit, as `"13.dB"` gives `(13.0, "dB")`. |
| JuniperUnits.SplitStringLeadingPoint | osc_python/special-hw/drivers/juniper/utils.py:17 | A leading point is skipped: `".<n><unit>"` gives the integer `n`, as `".5dB"` gives `(5, "dB")`. |
| JuniperInfo.Clean | osc_python/special-hw/drivers/juniper/driver.py:106 | Removing CR and spaces leaves a field that holds neither unchanged. |
| JuniperInfo.CleanAppend | osc_python/special-hw/drivers/juniper/driver.py:106 | Cleaning works piece by piece, so the characters that remain keep their order. |
| JuniperInfo.CleanOne | osc_python/special-hw/drivers/juniper/driver.py:106 | A single character is dropped exactly when it is a carriage return or a space. |
| JuniperInfo.Fields | osc_python/special-hw/drivers/juniper/driver.py:105-106 | A line's fields are its `:`-separated pieces, each cleaned. |
| JuniperInfo.DropLast | osc_python/special-hw/drivers/juniper/driver.py:98 | `s[:-k]` is a prefix of `s`, `k` shorter, or empty. |
| JuniperInfo.DropFirst | osc_python/special-hw/drivers/juniper/driver.py:100 | `s[k:]` is what follows the first `k` characters, or empty. |
| JuniperInfo.Parse | osc_python/special-hw/drivers/juniper/driver.py:108-116 | Every raw value is passed through `split_string`, under the same keys. |
| JuniperInfo.RawTableOk | osc_python/special-hw/drivers/juniper/driver.py:107-109 | The table is built exactly when every kept line has a second field; otherwise IndexError. |
| JuniperInfo.RawTableKeys | osc_python/special-hw/drivers/juniper/driver.py:107-109 | Every kept line's key is in the table. |
| JuniperInfo.RawTableOnlyKeys | osc_python/special-hw/drivers/juniper/driver.py:107-109 | Every key in the table comes from a kept line. |
| JuniperInfo.RawTableLastWins | osc_python/special-hw/drivers/juniper/driver.py:107-109 | For a duplicated key, the table holds the value of its last line. |
| JuniperInfo.LineFields | osc_python/special-hw/drivers/juniper/driver.py:104-106 | A printed `key:value` line whose key and value hold no `:` parses back to the cleaned key and value. So `Gain Value : 20.5 dB\r` gives `GainValue` and `20.5dB`. |
| JuniperInfo.SectionRoundTrip | osc_python/special-hw/drivers/juniper/driver.py:101-106 | A printed section parses back to its rows, each key and value cleaned of padding and carriage returns, when the trailing lines are as many as the parser drops. This holds whatever the heading and the trailer hold. Rows printed without padding come back unchanged. |
| JuniperInfo.SectionTable | osc_python/special-hw/drivers/juniper/driver.py:101-117 | In the table of a printed section, each cleaned key holds the cleaned value of the last row with that key. |
| JuniperDriver.Direction | osc_python/special-hw/drivers/juniper/driver.py:34-44 | Direction normalisation yields 1 or 2, or raises IOError. |
| JuniperDriver.DirectionCases | osc_python/special-hw/drivers/juniper/driver.py:34-44 | It yields 1 exactly for `"ab"` and 1, and 2 exactly for `"ba"` and 2. |
| JuniperDriver.VoaOpposite | osc_python/special-hw/drivers/juniper/driver.py:137-141 | The VOA direction is the other direction, and flipping it twice gives back the original. |
| JuniperDriver.VoaCommandsAgree | osc_python/special-hw/drivers/juniper/driver.py:141-159 | `show evoa` and the `evoa` command both address direction `3 - d`. The command has the fields `evoa`, that direction and the attenuation. |
| JuniperDriver.LabelsInvert | osc_python/special-hw/drivers/juniper/driver.py:7-18 | The inverse table maps a label back to a key exactly when GET_CONV maps that key to the label. |
| JuniperDriver.TablesInjective | osc_python/special-hw/drivers/juniper/driver.py:7-25 | No two keys share a label in GET_CONV or a verb in SET_CONV. |
| JuniperDriver.RenameInjective | osc_python/special-hw/drivers/juniper/driver.py:126-127 | Renaming labels to keys never merges two labels. |
| JuniperDriver.AllSpec | osc_python/special-hw/drivers/juniper/driver.py:125-127 | `get()` holds every label of either section under its renamed key, with the config value winning, and holds nothing else. |
| JuniperDriver.SelectSpec | osc_python/special-hw/drivers/juniper/driver.py:128-134 | `get(*args)` raises KeyError exactly when some key has no label. Otherwise it holds each key whose label was found, with the config value winning. Keys found in neither section are omitted. |
| JuniperDriver.SelectAgreesWithAll | osc_python/special-hw/drivers/juniper/driver.py:122-134 | Asking for one key gives that key's entry of `get()`, or nothing when its label is absent. |
| JuniperDriver.SetCommands | osc_python/special-hw/drivers/juniper/driver.py:185-195 | `set` sends exactly one `edfa <d> <verb> <value>` per key that has a verb, in argument order. |
| JuniperDriver.SetAppend | osc_python/special-hw/drivers/juniper/driver.py:185-195 | `set` on a concatenation sends what the two parts send, in order. |
| JuniperDriver.SetSkips | osc_python/special-hw/drivers/juniper/driver.py:189-192 | A key with no verb sends nothing. |
| JuniperDriver.EdfaCommandFields | osc_python/special-hw/drivers/juniper/driver.py:194 | The command splits on spaces into `edfa`, the direction, the verb and the value with its newline. |
| JuniperDriver.SettersAgreeWithSet | osc_python/special-hw/drivers/juniper/driver.py:163-183 | `set_gain` and `set_tilt` send what `set` sends for their keys. `set_gainrange` accepts only high/low and `set_output_enable` only enable/disable; anything else raises IOError with nothing sent. Otherwise they send what `set` sends. |
| JuniperDriver.OutputEnableAsWrittenMisroutes | osc_python/special-hw/drivers/juniper/driver.py:178-183 | As written, enabling the output sends the `gainrange` command that `set` sends for CONFIG_RANGE, not the `output` command it sends for CONFIG_OUTPUT_ENABLED. |
| JuniperDriver.OutputEnableCorrected | osc_python/special-hw/drivers/juniper/driver.py:178-183 | The corrected setter accepts and rejects the same values and sends as many commands as the code as written. |
| JuniperDriver.VoaAttAsWrittenRaises | osc_python/special-hw/drivers/juniper/driver.py:154-161 | As written, `set_voa_att` sends its command and then always raises AttributeError. The corrected setter sends the same command and does not raise. |
| JuniperDriver.VoaAttCorrected | osc_python/special-hw/drivers/juniper/driver.py:154-160 | Corrected, `set_voa_att` sends exactly one command, with the fields `evoa`, the opposite direction and the attenuation, and returns normally. |
| JuniperDriver.LoginResult | osc_python/special-hw/drivers/juniper/driver.py:83-94 | `edfa_login` returns 0 when the reply contains `Completed!`, and -1 when it contains no `!` at all. |

## Left out

- OmiDevice: the drain and the reply cut that `_omi_read` and the card
  getters call (`clear_buffer` and `get_string_between`) are imported from
  the external `osi.interface.omi.utils` package
  (cisco/omi_interfaces.py:8-9), which is not part of this model. The
  model assumes they behave like the in-repository helpers in
  cisco/utils.py:12-31, which only `CiscoEDFA35` (cisco/driver.py:8)
  binds.
- OmiDevice.ReadTextValue: stated on the whole reply. It assumes the
  pending bytes and the card's echo fit in the single `recv(4096)` of
  `_omi_read`. Past that the source returns only the first 4096
  characters, and with no anchor among them it raises IndexError
  (`OmiDevice.RecvOverflow`, `OmiDevice.RecvLimitMatters`).
- OmiAmplifier.GetQuantityValue: it rests on `ReadTextValue`, so it assumes
  the reply fits one `recv(4096)`. Past that the source raises IndexError.
- OmiAmplifier.GetModeValue: it assumes the reply fits one `recv(4096)`.
  Past that the source raises IndexError.
- CiscoEdfa35.GetQuantityValue: it assumes the reply fits one `recv(4096)`.
  Past that the source raises IndexError.
- CiscoEdfa35.GetModeValue: it assumes the reply fits one `recv(4096)`.
  Past that the source raises IndexError.
- **Sockets, Telnet, paramiko SSH, `time.sleep`, `select`.** These are I/O.
  - The card is the abstract `Device` described above.
  - The shell's replies are parameters.
  - `clear_buffer` is "nothing stays pending".
  - `read_buf`'s polling is the reply it eventually returns.
- **The `"ch 767"` receive loop of `_ocm_raw_read`.** It is unbounded I/O.
  `Wss.GetOcm` takes the accumulated reply as a parameter.
- **The quote and `b` stripping applied to the raw OCM bytes.** This belongs
  to the byte-to-text conversion, which is not modelled; the reply is
  already text.
- **`WxcOmiInterface.login_CISCO`, `check_connection`, `reconnect`,
  `close_conn` and the retries of `send_command`.** These are network
  plumbing. Only the WXC command framing is modelled.
- **Floating point.**
  - Physical values are `real`. `int32(x * 10)` and `int(att * 10)` are
    truncation toward zero of the exact product; IEEE rounding of `x * 10`
    is not modelled.
  - `float()` yields an exact decimal.
  - The `int32` range (wrap-around of very large set points) is not
    modelled.
- **Frequency and bandwidth unit normalisation in `init_channel_WXC`, and the
  `f_slices` arithmetic of `get_ocm`.** These are float scaling. The model
  starts at the integer codes, and `get_ocm` returns the slice numbers.
- **`bytes.decode('utf-8', 'ignore')`.** Replies are already-decoded text.
- **`get_current`.** It parses the `str(bytes)` repr with escaped anchors,
  which depends on byte-repr formatting.
- **`get_noise_figure`.** It returns None and sends nothing.
- **`CiscoEDFA17.set` and `CiscoEDFA35.set`.** `for k, v in kwargs` unpacks
  each key string into two characters, and the STATE_/CONFIG_ constant
  values (core/constants.py) are not part of this model, so its behaviour
  cannot be stated.
- **Keys.** Keys are an enumeration. In Juniper's `get()`, a key constant
  whose text equals an unknown label is not modelled: the key constant
  values are not visible.
- CiscoEdfa35: only integer directions are modelled. The source stores
  `kwargs.get("direction")` unchecked (cisco/driver.py:94, 113-115), so the
  direction is None when the keyword is omitted. The gain and tilt reads
  then send `omi_read(27, None, 0)` and `omi_read(28, None, 0)`
  (cisco/driver.py:195-207), and the input and output power reads take
  registers 43 and 44, as for direction 2. The model's `dir: int` leaves
  these cases out.
- **Directions.** `JuniperDriver.Direction` models a direction given as a
  string or an integer. Other Python types, which the code stores
  unchecked, are not modelled.
- **`split_string`'s `\d`.** It matches only ASCII digits; Python's
  `re` also accepts other Unicode digits.
- **`JuniperInfo.SectionRoundTrip`.** It covers a single section. The
  `"Edfa"` split of the two concatenated `show edfa` replies and their
  60- and 6-character trims are modelled (`JuniperInfo.EdfaInfo`) but have
  no end-to-end round-trip lemma.
- **`ChassisInterface.login` / `close`, and the socket part of
  `AmplifierInterface.login`.** These are I/O. An added amplifier is
  recorded as not yet logged in.
- **`AmplifierInterfaceParams`.** Its protocol check only logs, so every
  parameter record is accepted. The `__str__` / `__repr__` formatting is
  not modelled.
- **`controller.py`, the database client, the OCM script, packaging and the
  `core` package.** They are outside the driver core.
- JuniperDriver.LoginResult: weaker than the source. For a reply with no
  `Completed!` it states -1 only when the reply contains no `!`. The
  general "not contained" case is not stated.
- AmplifierFacade: the class that `AmplifierInterface.login` binds
  (cisco/user.py:173-177) comes from the external `osi` package
  (cisco/user.py:5), which is not part of this model. The model assumes it
  is the EDFA17 card class (`EDFA17OmiInterface` in
  cisco/omi_interfaces.py), so the facade's conversions are stated on that
  class. What happens with another class, or with no class bound when the
  protocol is not "omi", is not stated.
- Numerals.ParseInt: models `int(s)` on ASCII decimal numerals only.
  Digit groups joined by `_`, non-ASCII digits and non-ASCII white space
  are a ValueError here, though Python accepts them.
- Numerals.ParseFloat: models `float(s)` on plain ASCII decimal numerals
  only. Exponents (`1e3`), `inf`, `infinity` and `nan`, `_` between digits,
  non-ASCII digits and non-ASCII white space are a ValueError here, though
  Python accepts them.

## Findings

| source | as written | input that shows it | evidently intended | confidence | as-written member | corrected member |
|---|---|---|---|---|---|---|
| osc_python/special-hw/drivers/juniper/driver.py:178-183 | `set_output_enable` sends `edfa <d> gainrange <value>` | `set_output_enable("enable")` sends `edfa 1 gainrange enable` | the `output` verb, which `SET_CONV` gives CONFIG_OUTPUT_ENABLED: `edfa 1 output enable` | not executed | JuniperDriver.OutputEnableAsWrittenMisroutes | JuniperDriver.SettersAgreeWithSet |
| osc_python/special-hw/drivers/juniper/driver.py:154-161 | `set_voa_att` assigns `self._status.att`, but `_status` is never set in `__init__` | `set_voa_att(5)` sends `evoa 2 5` and then raises AttributeError | the command is sent and the call returns normally | not executed | JuniperDriver.VoaAttAsWrittenRaises | JuniperDriver.VoaAttCorrected |

=== FILE: amplifier_facade.dfy ===
/** `AmplifierInterface` and `ChassisInterface.add_amplifier`
    (cisco/user.py): the user-facing amplifier. The interface class that
    `login` binds is imported from a package outside this repository; the
    model takes it to be the EDFA17 card interface (`OmiAmplifier`), whose
    getters and setters the facade calls, and states what the facade adds
    on top of it: three conversions: the tilt changes sign both ways, an
    optional insertion loss `il` is added to output power set points and
    subtracted from output power readings, and `configure_operational`
    turns an operational dictionary into an ordered sequence of setter
    calls. */
module AmplifierFacade {
  import opened Wrappers
  import opened Numerals
  import opened OmiFraming
  import opened OmiDevice
  import opened OmiAmplifier
  import Modes

  /** A call of one of the facade's setters. */
  datatype Call =
    | SetModeCall(mode: string)
    | SetGainCall(gain: real)
    | SetCurrentCall(current1: real, current2: real)
    | SetTiltCall(tilt: real)
    | SetOutputPowerCall(power: real, il: Option<real>)
    | SetVoaCall(attenuation: real)

  /** Python's truthiness of an optional number: `None` and `0` are false. */
  predicate Truthy(il: Option<real>) {
    il.Some? && il.value != 0.0
  }

  /** `(power + il) if il else power`. */
  function WithLoss(power: real, il: Option<real>): real {
    if Truthy(il) then power + il.value else power
  }

  /** `(value - il) if il else value`. */
  function WithoutLoss(value: real, il: Option<real>): real {
    if Truthy(il) then value - il.value else value
  }

  /** What a setter call does to the card: the facade's conversion, then
      the interface's setter. `set_mode` forwards any name, so an unknown
      one fails in the interface. */
  function Apply(d: Device, c: Call): Step<()> {
    match c
    case SetModeCall(m) => SetMode(d, m)
    case SetGainCall(g) => Step(SetGain(d, g), Ok(()))
    case SetCurrentCall(c1, c2) => Step(SetCurrent(d, c1, c2), Ok(()))
    case SetTiltCall(t) => Step(SetTilt(d, -t), Ok(()))
    case SetOutputPowerCall(p, il) => Step(SetOutputPower(d, WithLoss(p, il)), Ok(()))
    case SetVoaCall(a) => Step(SetVoa(d, a), Ok(()))
  }

  /** Setter calls in order; the first to raise ends the run. */
  function Run(d: Device, calls: seq<Call>): Step<()>
    decreases |calls|
  {
    if |calls| == 0 then Step(d, Ok(()))
    else
      var st := Apply(d, calls[0]);
      if st.out.Err? then st else Run(st.dev, calls[1..])
  }

  /** The facade's getters: the interface's getter for `q`, then the
      conversion: `get_tilt` negates, `get_output_power(il)` and
      `get_tot_signal_out_power(il)` take the loss off, the others pass the
      reading through. */
  function Get(d: Device, q: Quantity, il: Option<real>): Step<real> {
    Convert(q, GetQuantity(d, q), il)
  }

  function Convert(q: Quantity, st: Step<real>, il: Option<real>): Step<real> {
    match st.out
    case Err(e) => Step(st.dev, Err(e))
    case Ok(x) =>
      Step(st.dev, Ok(if q == Tilt then -x
                      else if q == OutputPower || q == TotSignalOutPower then WithoutLoss(x, il)
                      else x))
  }

  /** The facade setter for what a getter reads: `set_gain`, `set_tilt`,
      `set_output_power(il)` for the total signal output power, `set_voa`.
      The input power has no setter, and the output power getter reads a
      register no setter writes. */
  function SetterOf(q: Quantity, x: real, il: Option<real>): Option<Call> {
    match q
    case Gain => Some(SetGainCall(x))
    case Tilt => Some(SetTiltCall(x))
    case TotSignalOutPower => Some(SetOutputPowerCall(x, il))
    case Voa => Some(SetVoaCall(x))
    case _ => None
  }

  // ---------------------------------------------------------------------
  // Conversions

  /** The truthiness test adds the loss or nothing: a missing or zero
      loss leaves the value as it is. */
  lemma {:induction false} LossOffsets(x: real, il: Option<real>)
    ensures WithLoss(x, il) == x + (if il.Some? then il.value else 0.0)
    ensures WithoutLoss(x, il) == x - (if il.Some? then il.value else 0.0)
    ensures il.None? || il == Some(0.0) ==> WithLoss(x, il) == x && WithoutLoss(x, il) == x
  {
  }

  /** Subtracting the loss undoes adding it. */
  lemma {:induction false} LossCancels(x: real, il: Option<real>)
    ensures WithoutLoss(WithLoss(x, il), il) == x
  {
  }

  /** `x` truncated toward zero to one decimal. */
  function OneDecimal(x: real): real {
    Trunc(10.0 * x) as real / 10.0
  }

  /** What the facade sends to the interface for a set point of `q`. */
  function Sent(q: Quantity, x: real, il: Option<real>): real {
    if q == Tilt then -x else if q == TotSignalOutPower then WithLoss(x, il) else x
  }

  /** Set then get through the facade, on the card: gain, tilt and VOA come
      back truncated toward zero to one decimal, the tilt with its own sign
      because both directions negate; the total signal output power comes
      back as the set point plus the loss, truncated to one decimal, less
      the loss again. */
  lemma {:induction false} SetThenGetThroughFacade(d: Device, q: Quantity, x: real, il: Option<real>)
    requires SetterOf(q, x, il).Some?
    ensures Get(Apply(d, SetterOf(q, x, il).value).dev, q, il).out ==
            Ok(if q == TotSignalOutPower then WithoutLoss(OneDecimal(WithLoss(x, il)), il) else OneDecimal(x))
  {
    var v := ToTenths(Sent(q, x, il));
    var w := Apply(d, SetterOf(q, x, il).value).dev;
    SetterWrites(d, q, x, il);
    GetAfterWrite(d, q, Register(q).0, Register(q).1, 1, 1, v);
    ReadingIsTenths(v);
    ConvertTenths(q, GetQuantity(w, q), x, il, v);
  }

  /** Each facade setter writes the register its getter reads, with the
      converted set point in tenths. */
  lemma {:induction false} SetterWrites(d: Device, q: Quantity, x: real, il: Option<real>)
    requires SetterOf(q, x, il).Some?
    ensures Apply(d, SetterOf(q, x, il).value).dev == Write(d, Register(q).0, Register(q).1, 1, 1, ToTenths(Sent(q, x, il)))
  {
  }

  /** The conversion of a reading in tenths of a converted set point. */
  lemma {:induction false} ConvertTenths(q: Quantity, st: Step<real>, x: real, il: Option<real>, v: int)
    requires SetterOf(q, x, il).Some? && v == ToTenths(Sent(q, x, il)) && st.out == Ok(v as real / 10.0)
    ensures Convert(q, st, il).out ==
            Ok(if q == TotSignalOutPower then WithoutLoss(OneDecimal(WithLoss(x, il)), il) else OneDecimal(x))
  {
    if q == Tilt {
      NegatedTenths(x);
    }
  }

  lemma {:induction false} NegatedTenths(x: real)
    ensures ToTenths(-x) == -Trunc(10.0 * x)
  {
    TruncNegate(10.0 * x);
    assert 10.0 * -x == -(10.0 * x);
  }

  /** A set point on the 0.1 grid comes back exactly; for output power it
      is the set point plus the loss that must be on the grid. */
  lemma {:induction false} OneDecimalExact(x: real, il: Option<real>)
    ensures (10.0 * x).Floor as real == 10.0 * x ==> OneDecimal(x) == x
    ensures (10.0 * WithLoss(x, il)).Floor as real == 10.0 * WithLoss(x, il) ==>
              WithoutLoss(OneDecimal(WithLoss(x, il)), il) == x
  {
    TenthsRoundTrip(x);
    TenthsRoundTrip(WithLoss(x, il));
    LossCancels(x, il);
  }

  /** `set_mode` forwards every name: a recognised one writes its code, and
      an unrecognised one, which the facade only logs, fails in the
      interface with nothing sent. */
  lemma {:induction false} SetModeForwards(d: Device, mode: string)
    ensures Run(d, [SetModeCall(mode)]).out.Ok? <==> Modes.OfName(mode).Some?
    ensures Modes.OfName(mode).None? ==> Run(d, [SetModeCall(mode)]).dev == d
    ensures Modes.OfName(mode).Some? ==>
              Run(d, [SetModeCall(mode)]).dev.trace == d.trace + [WriteCommand(21, 1, 1, 1, Modes.Code(Modes.OfName(mode).value), Cr)]
  {
  }

  // ---------------------------------------------------------------------
  // configure_operational

  /** `configure_operational`: the setter calls an operational dictionary
      asks for, in order. Both targets at once, or neither, is only logged;
      a target without `tilt_target` raises KeyError before any call. */
  function ConfigureOperational(op: map<string, real>): Result<seq<Call>> {
    if "pout_target" in op && "gain_target" in op then Ok([])
    else if "pout_target" in op then
      if "tilt_target" in op then
        Ok([SetModeCall("constant_power"), SetOutputPowerCall(op["pout_target"], None), SetTiltCall(op["tilt_target"])])
      else Err(KeyError)
    else if "gain_target" in op then
      if "tilt_target" in op then
        Ok([SetModeCall("constant_gain"), SetGainCall(op["gain_target"]), SetTiltCall(op["tilt_target"])])
      else Err(KeyError)
    else Ok([])
  }

  /** `configure_operational` on the card. */
  function Configure(d: Device, op: map<string, real>): Step<()> {
    match ConfigureOperational(op)
    case Err(e) => Step(d, Err(e))
    case Ok(calls) => Run(d, calls)
  }

  /** Exactly one target, both or neither: only one target with no tilt
      fails, and only one target with a tilt sends anything. */
  lemma {:induction false} ConfigureCases(d: Device, op: map<string, real>)
    ensures var one := ("pout_target" in op) != ("gain_target" in op);
            (Configure(d, op).out.Err? <==> one && "tilt_target" !in op) &&
            (Configure(d, op).out.Err? ==> Configure(d, op) == Step(d, Err(KeyError))) &&
            (!one ==> Configure(d, op) == Step(d, Ok(())))
  {
    if "tilt_target" in op {
      if "pout_target" in op && "gain_target" !in op {
        ConfigurePower(d, op);
      } else if "gain_target" in op && "pout_target" !in op {
        ConfigureGain(d, op);
      }
    }
  }

  /** Three calls that all succeed run one after the other. */
  lemma {:induction false} RunThree(d: Device, a: Call, b: Call, c: Call, d1: Device, d2: Device, d3: Device)
    requires Apply(d, a) == Step(d1, Ok(())) && Apply(d1, b) == Step(d2, Ok(())) && Apply(d2, c) == Step(d3, Ok(()))
    ensures Run(d, [a, b, c]) == Step(d3, Ok(()))
  {
    assert Run(d2, [c]) == Step(d3, Ok(())) by {
      assert [c][1..] == [];
    }
    assert Run(d1, [b, c]) == Step(d3, Ok(())) by {
      assert [b, c][1..] == [c];
    }
    assert [a, b, c][1..] == [b, c];
  }

  /** Setting a mode by its name writes the mode's code to register 21. */
  lemma {:induction false} ModeStep(d: Device, m: Modes.Mode)
    ensures Apply(d, SetModeCall(Modes.Name(m))) == Step(Write(d, 21, 1, 1, 1, Modes.Code(m)), Ok(()))
  {
    Modes.CodecRoundTrip(m);
  }

  /** An output power target without a loss: that power, written as is. */
  lemma {:induction false} OutputPowerStep(d: Device, p: real)
    ensures Apply(d, SetOutputPowerCall(p, None)) == Step(SetOutputPower(d, p), Ok(()))
  {
  }

  /** The tilt is written negated. */
  lemma {:induction false} TiltStep(d: Device, t: real)
    ensures Apply(d, SetTiltCall(t)) == Step(SetTilt(d, -t), Ok(()))
  {
  }

  /** The three calls for an output power target, on the card. */
  lemma {:induction false} PowerRun(d: Device, p: real, t: real)
    ensures Run(d, [SetModeCall(Modes.Name(Modes.ConstantPower)), SetOutputPowerCall(p, None), SetTiltCall(t)]) ==
            Step(SetTilt(SetOutputPower(Write(d, 21, 1, 1, 1, Modes.Code(Modes.ConstantPower)), p), -t), Ok(()))
  {
    var d1 := Write(d, 21, 1, 1, 1, Modes.Code(Modes.ConstantPower));
    var d2 := SetOutputPower(d1, p);
    ModeStep(d, Modes.ConstantPower);
    OutputPowerStep(d1, p);
    TiltStep(d2, t);
    RunThree(d, SetModeCall(Modes.Name(Modes.ConstantPower)), SetOutputPowerCall(p, None), SetTiltCall(t),
             d1, d2, SetTilt(d2, -t));
  }

  /** The three calls for a gain target, on the card. */
  lemma {:induction false} GainRun(d: Device, g: real, t: real)
    ensures Run(d, [SetModeCall(Modes.Name(Modes.ConstantGain)), SetGainCall(g), SetTiltCall(t)]) ==
            Step(SetTilt(SetGain(Write(d, 21, 1, 1, 1, Modes.Code(Modes.ConstantGain)), g), -t), Ok(()))
  {
    var d1 := Write(d, 21, 1, 1, 1, Modes.Code(Modes.ConstantGain));
    var d2 := SetGain(d1, g);
    ModeStep(d, Modes.ConstantGain);
    TiltStep(d2, t);
    RunThree(d, SetModeCall(Modes.Name(Modes.ConstantGain)), SetGainCall(g), SetTiltCall(t), d1, d2, SetTilt(d2, -t));
  }

  /** An output power target puts the card in constant power mode, then
      writes the target, with no loss, then the negated tilt: three writes
      on the wire in that order. */
  lemma {:induction false} ConfigurePower(d: Device, op: map<string, real>)
    requires "pout_target" in op && "gain_target" !in op && "tilt_target" in op
    ensures Configure(d, op) ==
            Step(SetTilt(SetOutputPower(Write(d, 21, 1, 1, 1, Modes.Code(Modes.ConstantPower)),
                                        op["pout_target"]), -op["tilt_target"]), Ok(()))
  {
    PowerRun(d, op["pout_target"], op["tilt_target"]);
  }

  /** A gain target puts the card in constant gain mode, then writes the
      gain, then the negated tilt: three writes on the wire in that order. */
  lemma {:induction false} ConfigureGain(d: Device, op: map<string, real>)
    requires "gain_target" in op && "pout_target" !in op && "tilt_target" in op
    ensures Configure(d, op) ==
            Step(SetTilt(SetGain(Write(d, 21, 1, 1, 1, Modes.Code(Modes.ConstantGain)),
                                 op["gain_target"]), -op["tilt_target"]), Ok(()))
  {
    GainRun(d, op["gain_target"], op["tilt_target"]);
  }
}

=== FILE: anchors.dfy ===
/** The response parser of the Cisco drivers (`get_string_between` in
    cisco/utils.py): the text after the first start anchor, cut at the next
    start anchor and then at the first end anchor. */
module Anchors {
  import opened Wrappers
  import opened Text

  /** Index just past the first occurrence of `start` in `s`. */
  function ValueStart(s: string, start: string): nat
    requires Contains(s, start)
  {
    ContainsIffFound(s, start);
    Find(s, start, 0).value + |start|
  }

  /** Where the piece after the first start anchor stops: at the next start
      anchor, or at the end of `s`. */
  function PieceEnd(s: string, start: string): (q: nat)
    requires Contains(s, start)
    ensures ValueStart(s, start) <= q <= |s|
  {
    var p := ValueStart(s, start);
    match Find(s, start, p)
    case Some(q) => q
    case None => |s|
  }

  /** `v` is the cut of the piece `s[p..q]` at its first end anchor: the
      text of the piece from its start, containing neither anchor, such
      that no end anchor lying within the piece begins inside `v`, and
      which stops either at the end of the piece or right before an end
      anchor that lies within the piece. */
  predicate IsCut(s: string, start: string, end: string, p: nat, q: nat, v: string) {
    && p + |v| <= q <= |s|
    && v == s[p..p + |v|]
    && !Contains(v, start)
    && !Contains(v, end)
    && (forall k :: p <= k < p + |v| && k + |end| <= q ==> !OccursAt(s, end, k))
    && (p + |v| == q || (p + |v| + |end| <= q && OccursAt(s, end, p + |v|)))
  }

  /** A piece has at most one cut. */
  lemma {:induction false} CutUnique(s: string, start: string, end: string, p: nat, q: nat, v: string, w: string)
    requires IsCut(s, start, end, p, q, v) && IsCut(s, start, end, p, q, w)
    ensures v == w
  {
  }

  /** `get_string_between(s, start, end)`: `s.split(start)[1].split(end)[0]`.
      An empty anchor is a ValueError, an absent start anchor an IndexError;
      an absent end anchor is not an error. */
  function GetStringBetween(s: string, start: string, end: string): Result<string> {
    if start == [] then Err(ValueError)
    else
      var pieces := Split(s, start);
      if |pieces| < 2 then Err(IndexError)
      else if end == [] then Err(ValueError)
      else Ok(Split(pieces[1], end)[0])
  }

  /** When extraction fails and how, and what it yields when it does not.
      The piece is the text from just after the first start anchor up to
      the next start anchor or the end of `s`; the result is the one cut of
      that piece at its first end anchor, the whole piece when no end
      anchor lies within it. */
  lemma {:induction false} GetStringBetweenSpec(s: string, start: string, end: string)
    ensures var r := GetStringBetween(s, start, end);
            && (r.Err? <==> start == [] || end == [] || !Contains(s, start))
            && (r.Err? ==> r.error == (if start != [] && !Contains(s, start) then IndexError else ValueError))
            && (r.Ok? ==>
                  var p, q := ValueStart(s, start), PieceEnd(s, start);
                  && (forall k :: p <= k < q ==> !OccursAt(s, start, k))
                  && (q == |s| || OccursAt(s, start, q))
                  && IsCut(s, start, end, p, q, r.value)
                  && (forall w :: IsCut(s, start, end, p, q, w) ==> w == r.value))
            && (r.Ok? && !Contains(s[ValueStart(s, start)..], end) ==>
                  r.value == s[ValueStart(s, start)..PieceEnd(s, start)])
  {
    if start != [] {
      SplitHasSecond(s, start);
      if Contains(s, start) && end != [] {
        var p, q := ValueStart(s, start), PieceEnd(s, start);
        var v := Split(s[p..q], end)[0];
        SecondPiece(s, start);
        PieceBounds(s, start);
        CutFacts(s, start, end);
        forall w | IsCut(s, start, end, p, q, w) ensures w == v {
          CutUnique(s, start, end, p, q, v, w);
        }
      }
    }
  }

  /** The second piece of `s.split(start)` is `s[ValueStart..PieceEnd]`. */
  lemma {:induction false} SecondPiece(s: string, start: string)
    requires start != [] && Contains(s, start)
    ensures |Split(s, start)| >= 2
    ensures Split(s, start)[1] == s[ValueStart(s, start)..PieceEnd(s, start)]
  {
    ContainsIffFound(s, start);
    var i := Find(s, start, 0).value;
    match Find(s, start, i + |start|)
    case Some(q) => SplitSecondCut(s, start, i, q);
    case None => SplitSecondToEnd(s, start, i);
  }

  /** No start anchor begins inside the piece, and one begins right after it
      unless the piece reaches the end of `s`. */
  lemma {:induction false} PieceBounds(s: string, start: string)
    requires start != [] && Contains(s, start)
    ensures forall k :: ValueStart(s, start) <= k < PieceEnd(s, start) ==> !OccursAt(s, start, k)
    ensures PieceEnd(s, start) == |s| || OccursAt(s, start, PieceEnd(s, start))
  {
  }

  /** What cutting the second piece at the end anchor yields. */
  lemma {:induction false} CutFacts(s: string, start: string, end: string)
    requires start != [] && end != [] && Contains(s, start)
    ensures IsCut(s, start, end, ValueStart(s, start), PieceEnd(s, start),
                  Split(s[ValueStart(s, start)..PieceEnd(s, start)], end)[0])
    ensures !Contains(s[ValueStart(s, start)..], end) ==>
              Split(s[ValueStart(s, start)..PieceEnd(s, start)], end)[0] ==
              s[ValueStart(s, start)..PieceEnd(s, start)]
  {
    PieceBounds(s, start);
    PieceCut(s, start, end, ValueStart(s, start), PieceEnd(s, start));
  }

  /** `CutFacts` for any piece `s[p..q]` bounded as `PieceBounds` says. */
  lemma {:induction false} PieceCut(s: string, start: string, end: string, p: nat, q: nat)
    requires start != [] && end != [] && p <= q <= |s|
    requires forall k :: p <= k < q ==> !OccursAt(s, start, k)
    requires q == |s| || OccursAt(s, start, q)
    ensures IsCut(s, start, end, p, q, Split(s[p..q], end)[0])
    ensures !Contains(s[p..], end) ==> Split(s[p..q], end)[0] == s[p..q]
  {
    match Find(s[p..q], end, 0)
    case Some(e) => PieceCutAt(s, start, end, p, q, e);
    case None =>
      ContainsIffFound(s[p..q], end);
      SplitWhole(s[p..q], end);
      CutWhole(s, start, end, p, q);
  }

  /** `PieceCut` when the first end anchor in the piece is at offset `e`. */
  lemma {:induction false} PieceCutAt(s: string, start: string, end: string, p: nat, q: nat, e: nat)
    requires start != [] && end != [] && p <= q <= |s|
    requires forall k :: p <= k < q ==> !OccursAt(s, start, k)
    requires Find(s[p..q], end, 0) == Some(e)
    ensures IsCut(s, start, end, p, q, Split(s[p..q], end)[0])
    ensures Contains(s[p..], end)
  {
    var piece := s[p..q];
    SplitPiecesClean(piece, end);
    SplitHeadCut(piece, end, e);
    CutInside(s, start, end, p, q, e);
    OccursInSuffix(s, end, p, e);
    OccursInSlice(s, end, p, q, e);
  }

  /** A piece cut at its first end anchor, at offset `e`. */
  lemma {:induction false} CutInside(s: string, start: string, end: string, p: nat, q: nat, e: nat)
    requires start != [] && p <= q <= |s|
    requires forall k :: p <= k < q ==> !OccursAt(s, start, k)
    requires OccursAt(s[p..q], end, e)
    requires forall k :: 0 <= k < e ==> !OccursAt(s[p..q], end, k)
    requires !Contains(s[p..q][..e], end)
    ensures IsCut(s, start, end, p, q, s[p..q][..e])
  {
    var v := s[p..q][..e];
    assert v == s[p..p + e];
    OccursInSlice(s, end, p, q, e);
    forall j ensures !OccursAt(v, start, j) {
      OccursInSlice(s, start, p, p + e, j);
    }
    forall k | p <= k < p + e && k + |end| <= q ensures !OccursAt(s, end, k) {
      OccursInSlice(s, end, p, q, k - p);
    }
  }

  /** A piece without an end anchor is kept whole. */
  lemma {:induction false} CutWhole(s: string, start: string, end: string, p: nat, q: nat)
    requires start != [] && p <= q <= |s|
    requires forall k :: p <= k < q ==> !OccursAt(s, start, k)
    requires q == |s| || OccursAt(s, start, q)
    requires !Contains(s[p..q], end)
    ensures IsCut(s, start, end, p, q, s[p..q])
  {
    forall j ensures !OccursAt(s[p..q], start, j) {
      OccursInSlice(s, start, p, q, j);
    }
    forall k | p <= k < q && k + |end| <= q ensures !OccursAt(s, end, k) {
      OccursInSlice(s, end, p, q, k - p);
    }
  }

  /** Round trip: when the start anchor first occurs right before `v`, no
      start anchor begins again before the end anchor is through, and the
      first end anchor after `v` is the one right after it, the parser
      returns exactly `v`, whatever stale text precedes it and whatever
      follows. */
  lemma {:induction false} GetStringBetweenRoundTrip(pre: string, start: string, v: string, end: string, post: string)
    requires start != [] && end != []
    requires var s := pre + start + v + end + post;
             forall k :: 0 <= k < |pre| + |start| + |v| + |end| && k != |pre| ==> !OccursAt(s, start, k)
    requires forall k :: 0 <= k < |v| ==> !OccursAt(v + end, end, k)
    ensures GetStringBetween(pre + start + v + end + post, start, end) == Ok(v)
  {
    var s := pre + start + v + end + post;
    RoundTripStart(pre, start, v, end, post);
    var p, q := |pre| + |start|, PieceEnd(s, start);
    RoundTripPiece(s, v, end, p, q);
    SplitHeadCut(s[p..q], end, |v|);
    SecondPiece(s, start);
    CutOfSecond(s, start, end, p, q, v);
  }

  /** The parser's result, from the second piece and its first cut. */
  lemma {:induction false} CutOfSecond(s: string, start: string, end: string, p: nat, q: nat, v: string)
    requires start != [] && end != [] && p <= q <= |s|
    requires |Split(s, start)| >= 2 && Split(s, start)[1] == s[p..q]
    requires Split(s[p..q], end)[0] == v
    ensures GetStringBetween(s, start, end) == Ok(v)
  {
  }

  /** Where the round trip's first piece starts and how far it reaches. */
  lemma {:induction false} RoundTripStart(pre: string, start: string, v: string, end: string, post: string)
    requires start != []
    requires var s := pre + start + v + end + post;
             forall k :: 0 <= k < |pre| + |start| + |v| + |end| && k != |pre| ==> !OccursAt(s, start, k)
    ensures var s := pre + start + v + end + post;
            && Contains(s, start)
            && ValueStart(s, start) == |pre| + |start|
            && PieceEnd(s, start) >= |pre| + |start| + |v| + |end|
            && s[|pre| + |start|..|pre| + |start| + |v| + |end|] == v + end
  {
    var s := pre + start + v + end + post;
    var p := |pre| + |start|;
    assert s[|pre|..p] == start;
    assert OccursAt(s, start, |pre|);
    FindUnique(s, start, 0, Some(|pre|));
    assert ValueStart(s, start) == p;
    PieceBounds(s, start);
    assert s == (pre + start) + (v + end) + post;
    assert s[p..p + |v| + |end|] == v + end;
  }

  /** The round trip's first piece, cut at the end anchor, is the value. */
  lemma {:induction false} RoundTripPiece(s: string, v: string, end: string, p: nat, q: nat)
    requires end != [] && p + |v| + |end| <= q <= |s|
    requires s[p..p + |v| + |end|] == v + end
    requires forall k :: 0 <= k < |v| ==> !OccursAt(v + end, end, k)
    ensures Find(s[p..q], end, 0) == Some(|v|)
    ensures s[p..q][..|v|] == v
  {
    var piece := s[p..q];
    assert piece[..|v| + |end|] == s[p..p + |v| + |end|];
    PrefixOfPrefix(piece, v, end);
    PieceFindsEnd(piece, v, end);
  }

  lemma {:induction false} PrefixOfPrefix(x: string, v: string, e: string)
    requires |v| + |e| <= |x| && x[..|v| + |e|] == v + e
    ensures x[..|v|] == v
  {
    assert x[..|v|] == x[..|v| + |e|][..|v|];
  }

  lemma {:induction false} PieceFindsEnd(piece: string, v: string, end: string)
    requires |v| + |end| <= |piece|
    requires piece[..|v| + |end|] == v + end
    requires forall k :: 0 <= k < |v| ==> !OccursAt(v + end, end, k)
    ensures Find(piece, end, 0) == Some(|v|)
  {
    assert piece[|v|..|v| + |end|] == (v + end)[|v|..];
    forall k | 0 <= k < |v| ensures !OccursAt(piece, end, k) {
      OccursInPrefix(piece, end, |v| + |end|, k);
    }
    FindUnique(piece, end, 0, Some(|v|));
  }
}

=== FILE: chassis.dfy ===
/** `ChassisInterface.add_amplifier` (cisco/user.py) and the parameter
    record it stores (cisco/params.py): the chassis keeps its amplifiers in
    a dictionary keyed by their unique id. */
module Chassis {
  /** `AmplifierInterfaceParams`. An unknown protocol is only logged, so
      every string is accepted; the credentials are kept as text. */
  datatype AmplifierParams = AmplifierParams(uid: string, ipAddress: string, port: int,
                                             username: string, password: string, protocol: string)

  /** An `AmplifierInterface` as the chassis creates it: its parameters and
      no low-level interface until it logs in. */
  datatype Amplifier = Amplifier(params: AmplifierParams, loggedIn: bool)

  /** `add_amplifier`: a new, not yet logged in interface under `p.uid`,
      replacing whatever was stored under that id. */
  function AddAmplifier(amps: map<string, Amplifier>, p: AmplifierParams): (r: map<string, Amplifier>)
    ensures r.Keys == amps.Keys + {p.uid}
    ensures r[p.uid] == Amplifier(p, false)
    ensures forall k :: k in amps && k != p.uid ==> r[k] == amps[k]
  {
    amps[p.uid := Amplifier(p, false)]
  }

  /** Adding under the same id twice keeps only the later amplifier. */
  lemma {:induction false} AddSameIdTwice(amps: map<string, Amplifier>, p: AmplifierParams, q: AmplifierParams)
    requires p.uid == q.uid
    ensures AddAmplifier(AddAmplifier(amps, p), q) == AddAmplifier(amps, q)
  {
  }

  /** Amplifiers with different ids can be added in either order. */
  lemma {:induction false} AddDistinctCommute(amps: map<string, Amplifier>, p: AmplifierParams, q: AmplifierParams)
    requires p.uid != q.uid
    ensures AddAmplifier(AddAmplifier(amps, p), q) == AddAmplifier(AddAmplifier(amps, q), p)
  {
  }
}

=== FILE: cisco_edfa35.dfy ===
/** `CiscoEDFA35` (cisco/driver.py): the EDFA35 card driven per direction.
    Gain and tilt live in sub-field `direction` of registers 27 and 28;
    input and output power are read from 41 and 42 for direction 1 and from
    43 and 44 otherwise; total signal output power, the VOA, the mode and
    the pump currents use the same fixed registers as the OMI interface.
    `set_mode`, `set_current`, `set_output_power` and `set_voa` are the
    same code as in the OMI interface and are the `OmiAmplifier` setters. */
module CiscoEdfa35 {
  import opened Wrappers
  import opened Numerals
  import opened Text
  import opened OmiFraming
  import opened OmiDevice
  import opened Keys
  import opened OmiAmplifier

  /** The fields each getter reads, for the configured direction. */
  function Fields(q: Quantity, dir: int): seq<int> {
    match q
    case Gain => [27, dir, 0]
    case Tilt => [28, dir, 0]
    case InputPower => [if dir == 1 then 41 else 43, 1, 0]
    case OutputPower => [if dir == 1 then 42 else 44, 1, 0]
    case TotSignalOutPower => [42, 2, 0]
    case Voa => [29, 1, 0]
  }

  /** The start anchor each getter builds with an f-string. */
  function Anchor(q: Quantity, dir: int): string {
    match q
    case Gain => "omi_read(27, " + IntToString(dir) + ", 0)\n\rI32-Value is:"
    case Tilt => "omi_read(28, " + IntToString(dir) + ", 0)\n\rI32-Value is:"
    case InputPower => "omi_read(" + IntToString(if dir == 1 then 41 else 43) + ", 1, 0)\n\rI32-Value is:"
    case OutputPower => "omi_read(" + IntToString(if dir == 1 then 42 else 44) + ", 1, 0)\n\rI32-Value is:"
    case TotSignalOutPower => "omi_read(42, 2, 0)\n\rI32-Value is:"
    case Voa => "omi_read(29, 1, 0)\n\rI32-Value is:"
  }

  /** The register a getter reads. */
  function Register(q: Quantity, dir: int): (int, int) {
    (Fields(q, dir)[0], Fields(q, dir)[1])
  }

  /** The getters: read, cut after the echo of the read, take tenths. */
  function GetQuantity(d: Device, dir: int, q: Quantity): Step<real> {
    InTenths(ReadText(d, Fields(q, dir), StartAnchor(Fields(q, dir))))
  }

  /** `get_mode`: as on the EDFA35 OMI interface, an unknown code is `'null'`. */
  function GetMode(d: Device, dir: int): Step<string> {
    DecodeMode(Edfa35(dir), ReadText(d, ModeFields, StartAnchor(ModeFields)))
  }

  function SetGain(d: Device, dir: int, gain: real): Device {
    Write(d, 27, dir, 1, 1, ToTenths(gain))
  }

  function SetTilt(d: Device, dir: int, tilt: real): Device {
    Write(d, 28, dir, 1, 1, ToTenths(tilt))
  }

  /** `set_security`: the value goes on the wire as given, not in tenths. */
  function SetSecurity(d: Device, dir: int, security: int): Device {
    Write(d, 55, dir, 1, 1, security)
  }

  /** The getter `get` calls for a key, if any. */
  function GetterOf(k: Key): Option<Quantity> {
    match k
    case StateGain => Some(Gain)
    case StateTilt => Some(Tilt)
    case StateInputPower => Some(InputPower)
    case StateOutputPower => Some(OutputPower)
    case _ => None
  }

  /** `get(*args)`: every recognised state key is read, in argument order,
      but only the gain is kept; the first getter to fail ends the call. */
  function Get(d: Device, dir: int, args: seq<Key>): Step<map<Key, real>> {
    GetFrom(d, dir, args, map[])
  }

  function GetFrom(d: Device, dir: int, args: seq<Key>, data: map<Key, real>): Step<map<Key, real>>
    decreases |args|
  {
    if |args| == 0 then Step(d, Ok(data))
    else
      match GetterOf(args[0])
      case None => GetFrom(d, dir, args[1..], data)
      case Some(q) =>
        var st := GetQuantity(d, dir, q);
        match st.out
        case Err(e) => Step(st.dev, Err(e))
        case Ok(x) => GetFrom(st.dev, dir, args[1..], if args[0] == StateGain then data[StateGain := x] else data)
  }

  /** The read commands `get` sends for `args`, in order. */
  function ReadsOf(dir: int, args: seq<Key>): seq<string>
    decreases |args|
  {
    if |args| == 0 then []
    else
      match GetterOf(args[0])
      case None => ReadsOf(dir, args[1..])
      case Some(q) => [ReadCommand(Fields(q, dir), Cr)] + ReadsOf(dir, args[1..])
  }

  // ---------------------------------------------------------------------
  // Anchors

  /** The getters as written, cutting at their f-string anchors, are the
      getters modelled here, for every direction. */
  lemma {:induction false} GetQuantityAsWritten(d: Device, dir: int, q: Quantity)
    ensures GetQuantity(d, dir, q) == InTenths(ReadText(d, Fields(q, dir), Anchor(q, dir)))
  {
    AnchorsAreEchoes(q, dir);
  }

  lemma {:induction false} GetModeAsWritten(d: Device, dir: int)
    ensures GetMode(d, dir) == DecodeMode(Edfa35(dir), ReadText(d, ModeFields, ModeAnchor))
  {
    ModeAnchorIsEcho();
  }

  lemma {:induction false} AnchorsAreEchoes(q: Quantity, dir: int)
    ensures Anchor(q, dir) == StartAnchor(Fields(q, dir))
  {
    match q
    case Gain => AnchorGain(dir);
    case Tilt => AnchorTilt(dir);
    case InputPower => AnchorInputPower(dir);
    case OutputPower => AnchorOutputPower(dir);
    case TotSignalOutPower => AnchorTotSignalOutPower();
    case Voa => AnchorVoa();
  }

  lemma {:induction false} AnchorGain(dir: int)
    ensures Anchor(Gain, dir) == StartAnchor([27, dir, 0])
  {
    Numeral27();
    Numeral0();
    DirectionAnchor(27, dir, 0, "omi_read(27, ", ", 0)\n\rI32-Value is:");
  }

  lemma {:induction false} AnchorTilt(dir: int)
    ensures Anchor(Tilt, dir) == StartAnchor([28, dir, 0])
  {
    Numeral28();
    Numeral0();
    DirectionAnchor(28, dir, 0, "omi_read(28, ", ", 0)\n\rI32-Value is:");
  }

  lemma {:induction false} AnchorInputPower(dir: int)
    ensures Anchor(InputPower, dir) == StartAnchor([if dir == 1 then 41 else 43, 1, 0])
  {
    Numeral1();
    Numeral0();
    RegisterAnchor(if dir == 1 then 41 else 43, 1, 0, ", 1, 0)\n\rI32-Value is:");
  }

  lemma {:induction false} AnchorOutputPower(dir: int)
    ensures Anchor(OutputPower, dir) == StartAnchor([if dir == 1 then 42 else 44, 1, 0])
  {
    Numeral1();
    Numeral0();
    RegisterAnchor(if dir == 1 then 42 else 44, 1, 0, ", 1, 0)\n\rI32-Value is:");
  }

  /** An anchor with the direction spliced into the middle. */
  lemma {:induction false} DirectionAnchor(a: int, dir: int, c: int, head: string, tail: string)
    requires head == "omi_read(" + IntToString(a) + ", "
    requires tail == ", " + IntToString(c) + ")" + ValueMarker
    ensures head + IntToString(dir) + tail == StartAnchor([a, dir, c])
  {
    ArgText3(a, dir, c);
  }

  /** An anchor with the register spliced in at the front. */
  lemma {:induction false} RegisterAnchor(a: int, b: int, c: int, tail: string)
    requires tail == ", " + IntToString(b) + ", " + IntToString(c) + ")" + ValueMarker
    ensures "omi_read(" + IntToString(a) + tail == StartAnchor([a, b, c])
  {
    ArgText3(a, b, c);
  }

  lemma {:induction false} Numeral27()
    ensures IntToString(27) == "27"
  {
    assert NatToString(2) == "2";
  }

  lemma {:induction false} Numeral28()
    ensures IntToString(28) == "28"
  {
    assert NatToString(2) == "2";
  }

  // ---------------------------------------------------------------------
  // Getters and setters

  /** Whatever a getter returns, it has sent its read and drained the
      socket, and changed no register. */
  lemma {:induction false} GetQuantityDevice(d: Device, dir: int, q: Quantity)
    ensures GetQuantity(d, dir, q).dev == d.(trace := d.trace + [ReadCommand(Fields(q, dir), Cr)], pending := "")
  {
  }

  /** On a clean socket, a getter returns its register's value in tenths. */
  lemma {:induction false} GetQuantityValue(d: Device, dir: int, q: Quantity)
    requires Clean(d, Fields(q, dir)) && Register(q, dir) in d.regs
    ensures GetQuantity(d, dir, q).out == Reading(d.regs[Register(q, dir)])
  {
    ReadInTenths(d, Fields(q, dir), StartAnchor(Fields(q, dir)), Register(q, dir));
  }

  /** A getter right after a write returns the value written when the
      write hit its register, and the value held before otherwise. */
  lemma {:induction false} GetAfterWrite(d: Device, dir: int, q: Quantity, f0: int, f1: int, value: int)
    requires Register(q, dir) == (f0, f1) || Register(q, dir) in d.regs
    ensures GetQuantity(Write(d, f0, f1, 1, 1, value), dir, q).out ==
            Reading(if Register(q, dir) == (f0, f1) then value else d.regs[Register(q, dir)])
    ensures GetQuantity(Write(d, f0, f1, 1, 1, value), dir, q).dev.trace ==
            d.trace + [WriteCommand(f0, f1, 1, 1, value, Cr), ReadCommand(Fields(q, dir), Cr)]
  {
    var fields := Fields(q, dir);
    ReadAfterWrite(d, f0, f1, 1, 1, value, fields, StartAnchor(fields), Register(q, dir));
    InTenthsOfRendering(ReadText(Write(d, f0, f1, 1, 1, value), fields, StartAnchor(fields)),
                        if Register(q, dir) == (f0, f1) then value else d.regs[Register(q, dir)]);
  }

  /** Set then get, in one direction: gain, tilt and VOA read back the
      written tenths, with the write and the read on the wire in order. */
  lemma {:induction false} SetThenGet(d: Device, dir: int, q: Quantity, x: real)
    requires q == Gain || q == Tilt || q == Voa
    ensures var w := if q == Gain then SetGain(d, dir, x) else if q == Tilt then SetTilt(d, dir, x) else SetVoa(d, x);
            && GetQuantity(w, dir, q).out == Reading(ToTenths(x))
            && GetQuantity(w, dir, q).dev.trace ==
               d.trace + [WriteCommand(Register(q, dir).0, Register(q, dir).1, 1, 1, ToTenths(x), Cr),
                          ReadCommand(Fields(q, dir), Cr)]
  {
    GetAfterWrite(d, dir, q, Register(q, dir).0, Register(q, dir).1, ToTenths(x));
  }

  /** The two directions are separate registers: setting gain or tilt in
      one direction leaves what the other direction reads unchanged. */
  lemma {:induction false} DirectionsSeparate(d: Device, dir: int, other: int, q: Quantity, x: real)
    requires q == Gain || q == Tilt
    requires dir != other && Register(q, other) in d.regs
    ensures var w := if q == Gain then SetGain(d, dir, x) else SetTilt(d, dir, x);
            GetQuantity(w, other, q).out == Reading(d.regs[Register(q, other)])
  {
    GetAfterWrite(d, other, q, Register(q, dir).0, dir, ToTenths(x));
  }

  /** Output power is written to (42, 2) whatever the direction, so the
      total-signal getter reads it back and the output power getter, which
      reads (42, 1) or (44, 1), does not. */
  lemma {:induction false} OutputPowerRegisters(d: Device, dir: int, q: Quantity, x: real)
    requires q == TotSignalOutPower || (q == OutputPower && Register(q, dir) in d.regs)
    ensures GetQuantity(SetOutputPower(d, x), dir, q).out ==
            Reading(if q == TotSignalOutPower then ToTenths(x) else d.regs[Register(q, dir)])
  {
    GetAfterWrite(d, dir, q, 42, 2, ToTenths(x));
  }

  /** `set_security` writes its value unscaled into sub-field `direction`
      of register 55, and moves no other register. */
  lemma {:induction false} SetSecurityWrites(d: Device, dir: int, security: int)
    ensures SetSecurity(d, dir, security).trace == d.trace + [WriteCommand(55, dir, 1, 1, security, Cr)]
    ensures SetSecurity(d, dir, security).regs[(55, dir)] == security
    ensures forall key :: key in d.regs && key != (55, dir) ==>
              key in SetSecurity(d, dir, security).regs && SetSecurity(d, dir, security).regs[key] == d.regs[key]
  {
  }

  /** `get_mode` never fails on a reported code: it names the mode, or
      answers `'null'` for a code outside 0..2. */
  lemma {:induction false} GetModeValue(d: Device, dir: int)
    requires Clean(d, ModeFields) && (21, 1) in d.regs
    ensures GetMode(d, dir).out ==
            match Modes.OfCode(d.regs[(21, 1)])
            case Some(m) => Ok(Modes.Name(m))
            case None => Ok("null")
  {
    OmiAmplifier.GetModeValue(Edfa35(dir), d);
  }

  /** A mode set by name reads back as that name, lower-cased. */
  lemma {:induction false} SetModeThenGet(d: Device, dir: int, mode: string)
    requires SetMode(d, mode).out.Ok?
    ensures GetMode(SetMode(d, mode).dev, dir).out == Ok(Lower(mode))
  {
    OmiAmplifier.SetModeThenGet(Edfa35(dir), d, mode);
  }

  // ---------------------------------------------------------------------
  // get

  /** `get` keeps the gain and nothing else: on success its keys are the
      gain exactly when the gain was asked for. */
  lemma {:induction false} GetKeys(d: Device, dir: int, args: seq<Key>, data: map<Key, real>)
    requires GetFrom(d, dir, args, data).out.Ok?
    ensures GetFrom(d, dir, args, data).out.value.Keys ==
            data.Keys + (if StateGain in args then {StateGain} else {})
    decreases |args|
  {
    if |args| > 0 {
      var rest := args[1..];
      assert StateGain in args <==> args[0] == StateGain || StateGain in rest;
      match GetterOf(args[0])
      case None => GetKeys(d, dir, rest, data);
      case Some(q) =>
        var st := GetQuantity(d, dir, q);
        GetKeys(st.dev, dir, rest, if args[0] == StateGain then data[StateGain := st.out.value] else data);
    }
  }

  /** On success `get` has sent one read per recognised key, in argument
      order, and nothing else. */
  lemma {:induction false} GetTrace(d: Device, dir: int, args: seq<Key>, data: map<Key, real>)
    requires GetFrom(d, dir, args, data).out.Ok?
    ensures GetFrom(d, dir, args, data).dev.trace == d.trace + ReadsOf(dir, args)
    decreases |args|
  {
    if |args| > 0 {
      var rest := args[1..];
      match GetterOf(args[0])
      case None => GetTrace(d, dir, rest, data);
      case Some(q) =>
        var st := GetQuantity(d, dir, q);
        GetQuantityDevice(d, dir, q);
        var data' := if args[0] == StateGain then data[StateGain := st.out.value] else data;
        assert st.out.Ok?;
        GetTrace(st.dev, dir, rest, data');
        assert GetFrom(d, dir, args, data) == GetFrom(st.dev, dir, rest, data');
        assert ReadsOf(dir, args) == [ReadCommand(Fields(q, dir), Cr)] + ReadsOf(dir, rest);
        AppendAssoc(d.trace, [ReadCommand(Fields(q, dir), Cr)], ReadsOf(dir, rest));
    }
  }

  /** A getter on a drained socket reading a reported register returns
      its reading and leaves the socket drained. */
  lemma {:induction false} GetDrained(d: Device, dir: int, q: Quantity)
    requires d.pending == "" && Register(q, dir) in d.regs
    ensures GetQuantity(d, dir, q).out == Reading(d.regs[Register(q, dir)])
    ensures GetQuantity(d, dir, q).dev.pending == "" && GetQuantity(d, dir, q).dev.regs == d.regs
  {
    DrainedIsClean(d, Fields(q, dir));
    GetQuantityValue(d, dir, q);
    GetQuantityDevice(d, dir, q);
  }

  /** The registers `get` reads for `args` are all reported. */
  predicate Reported(d: Device, dir: int, args: seq<Key>) {
    forall k :: k in args && GetterOf(k).Some? ==> Register(GetterOf(k).value, dir) in d.regs
  }

  /** On a drained socket whose card reports every register asked about,
      `get` succeeds and returns the gain's reading `g` under the gain key,
      if the gain was asked for, and nothing else (`ReadingIsTenths`: `g`
      is the register's value over ten). */
  lemma {:induction false} GetValues(d: Device, dir: int, args: seq<Key>, data: map<Key, real>, g: real)
    requires d.pending == "" && Reported(d, dir, args)
    requires StateGain in args ==> Register(Gain, dir) in d.regs && Reading(d.regs[Register(Gain, dir)]) == Ok(g)
    ensures GetFrom(d, dir, args, data).out == Ok(if StateGain in args then data[StateGain := g] else data)
    decreases |args|
  {
    if |args| > 0 {
      var rest := args[1..];
      assert StateGain in args <==> args[0] == StateGain || StateGain in rest;
      assert Reported(d, dir, rest) by {
        forall k | k in rest && GetterOf(k).Some? ensures Register(GetterOf(k).value, dir) in d.regs {
          assert k in args;
        }
      }
      match GetterOf(args[0])
      case None => GetValues(d, dir, rest, data, g);
      case Some(q) =>
        var st := GetQuantity(d, dir, q);
        assert Register(q, dir) in d.regs by { assert args[0] in args; }
        GetDrained(d, dir, q);
        ReadingOk(d.regs[Register(q, dir)]);
        var data' := if args[0] == StateGain then data[StateGain := st.out.value] else data;
        GetValues(st.dev, dir, rest, data', g);
        assert GetFrom(d, dir, args, data) == GetFrom(st.dev, dir, rest, data');
        if args[0] == StateGain {
          assert st.out.value == g;
          assert data'[StateGain := g] == data[StateGain := g];
        }
    }
  }
}

=== FILE: juniper_driver.dfy ===
/** `JuniperIla` (juniper/driver.py): an in-line amplifier driven through
    an SSH shell. Each operation is modelled by the commands it sends and
    what it returns; the shell's replies are parameters. The driver keeps
    the amplifier direction as 1 or 2, addresses the VOA of the opposite
    direction, translates the `STATE_`/`CONFIG_` keys through two tables
    (`GET_CONV` to the labels of `show edfa`, `SET_CONV` to the verbs of
    the `edfa` command) and parses replies with `JuniperInfo`. */
module JuniperDriver {
  import opened Wrappers
  import opened Text
  import opened Numerals
  import opened Keys
  import opened JuniperUnits
  import opened JuniperInfo

  /** The `direction` keyword argument: a string or an int. */
  datatype DirectionArg = DirText(text: string) | DirNumber(n: int)

  /** Direction normalisation in `__init__`. */
  function Direction(a: DirectionArg): (r: Result<int>)
    ensures r.Ok? ==> r.value == 1 || r.value == 2
    ensures r.Err? ==> r.error == IOError
  {
    match a
    case DirText(s) => if s == "ab" then Ok(1) else if s == "ba" then Ok(2) else Err(IOError)
    case DirNumber(n) => if n == 1 || n == 2 then Ok(n) else Err(IOError)
  }

  /** The VOA commands address the other direction: 2 for 1, 1 otherwise. */
  function VoaDirection(d: int): int {
    if d == 1 then 2 else 1
  }

  // ---------------------------------------------------------------------
  // The tables

  /** `GET_CONV`: the label `show edfa` prints for a key. */
  function Label(k: Key): Option<string> {
    match k
    case StateGain => Some("GainValue")
    case StateTilt => Some("TiltValue")
    case StateInputPower => Some("InputTotalPower")
    case StateOutputPower => Some("OutputTotalPower")
    case StateService => Some("State")
    case ConfigGain => Some("GainSetPoint")
    case ConfigTilt => Some("TiltSetPoint")
    case ConfigOutputEnabled => Some("OutputEnable")
    case ConfigRange => Some("GainRange")
    case ConfigMode => Some("Mode")
    case _ => None
  }

  /** `SET_CONV`: the verb of the `edfa` command that sets a key. */
  function Verb(k: Key): Option<string> {
    match k
    case ConfigGain => Some("gain")
    case ConfigRange => Some("gainrange")
    case ConfigOutputEnabled => Some("output")
    case ConfigTilt => Some("tilt")
    case _ => None
  }

  /** `{v: k for k, v in GET_CONV.items()}`. */
  function KeyOfLabel(l: string): Option<Key> {
    if l == "GainValue" then Some(StateGain)
    else if l == "TiltValue" then Some(StateTilt)
    else if l == "InputTotalPower" then Some(StateInputPower)
    else if l == "OutputTotalPower" then Some(StateOutputPower)
    else if l == "State" then Some(StateService)
    else if l == "GainSetPoint" then Some(ConfigGain)
    else if l == "TiltSetPoint" then Some(ConfigTilt)
    else if l == "OutputEnable" then Some(ConfigOutputEnabled)
    else if l == "GainRange" then Some(ConfigRange)
    else if l == "Mode" then Some(ConfigMode)
    else None
  }

  /** The keys of `get()`'s result: a key for a known label, the label
      itself otherwise. */
  datatype Name = KeyName(key: Key) | LabelName(text: string)

  /** `inv_map.get(label, label)`. */
  function Rename(l: string): Name {
    match KeyOfLabel(l)
    case Some(k) => KeyName(k)
    case None => LabelName(l)
  }

  /** The inverse table is exactly the inverse of `GET_CONV`: the labels
      are distinct, so no key is lost in the inversion. */
  lemma {:induction false} LabelsInvert(k: Key, l: string)
    ensures KeyOfLabel(l) == Some(k) <==> Label(k) == Some(l)
  {
  }

  /** No two keys share a label or a verb. */
  lemma {:induction false} TablesInjective(k1: Key, k2: Key)
    ensures Label(k1).Some? && Label(k1) == Label(k2) ==> k1 == k2
    ensures Verb(k1).Some? && Verb(k1) == Verb(k2) ==> k1 == k2
  {
    if Label(k1).Some? && Label(k1) == Label(k2) {
      LabelsInvert(k1, Label(k1).value);
      LabelsInvert(k2, Label(k1).value);
    }
  }

  /** Renaming is one-to-one. */
  lemma {:induction false} RenameInjective(l1: string, l2: string)
    ensures Rename(l1) == Rename(l2) ==> l1 == l2
  {
    if Rename(l1) == Rename(l2) && KeyOfLabel(l1).Some? {
      LabelsInvert(KeyOfLabel(l1).value, l1);
      LabelsInvert(KeyOfLabel(l1).value, l2);
    }
  }

  // ---------------------------------------------------------------------
  // Commands

  /** `"edfa " + str(d) + " " + verb + " " + value + "\n"`. */
  function EdfaCommand(d: int, verb: string, value: string): string {
    "edfa " + IntToString(d) + " " + verb + " " + value + "\n"
  }

  function ShowEdfa(d: int): string {
    "show edfa " + IntToString(d) + "\n"
  }

  function ShowEvoa(d: int): string {
    "show evoa " + IntToString(VoaDirection(d)) + "\n"
  }

  /** `set_voa_att`'s command: `att` is `str(att)`. */
  function EvoaCommand(d: int, att: string): string {
    "evoa " + IntToString(VoaDirection(d)) + " " + att + "\n"
  }

  /** What an operation sent and what it returned or raised. */
  datatype Exchange<T> = Exchange(sent: seq<string>, out: Result<T>)

  /** `edfa_login`: three lines sent; 0 when the reply reports
      "Completed!", -1 otherwise. */
  function EdfaLogin(user: string, password: string, reply: string): Exchange<int> {
    Exchange(["login\n", user + "\n", password + "\n"], Ok(if Contains(reply, "Completed!") then 0 else -1))
  }

  /** `set(**kwargs)`: one command per key with a verb, in argument order;
      the other keys are skipped. Values are given as their `str()`. */
  function Set(d: int, kwargs: seq<(Key, string)>): seq<string>
    decreases |kwargs|
  {
    if |kwargs| == 0 then []
    else
      var (k, v) := kwargs[0];
      (if Verb(k).Some? then [EdfaCommand(d, Verb(k).value, v)] else []) + Set(d, kwargs[1..])
  }

  function SetGain(d: int, gain: string): seq<string> {
    [EdfaCommand(d, "gain", gain)]
  }

  function SetTilt(d: int, tilt: string): seq<string> {
    [EdfaCommand(d, "tilt", tilt)]
  }

  /** `set_gainrange`: "high" or "low", else IOError with nothing sent. */
  function SetGainrange(d: int, v: string): Exchange<()> {
    if v != "high" && v != "low" then Exchange([], Err(IOError))
    else Exchange([EdfaCommand(d, "gainrange", v)], Ok(()))
  }

  /** `set_output_enable` as the source has it: the value is checked, then
      sent with the `gainrange` verb. */
  function SetOutputEnableAsWritten(d: int, v: string): Exchange<()> {
    if v != "disable" && v != "enable" then Exchange([], Err(IOError))
    else Exchange([EdfaCommand(d, "gainrange", v)], Ok(()))
  }

  /** `set_output_enable` with the verb `SET_CONV` gives the key. */
  function SetOutputEnable(d: int, v: string): Exchange<()> {
    if v != "disable" && v != "enable" then Exchange([], Err(IOError))
    else Exchange([EdfaCommand(d, "output", v)], Ok(()))
  }

  /** `set_voa_att` as the source has it: the command goes out and then
      the assignment to `self._status.att` raises, `_status` never having
      been set. */
  function SetVoaAttAsWritten(d: int, att: string): Exchange<()> {
    Exchange([EvoaCommand(d, att)], Err(AttributeError))
  }

  /** `set_voa_att` without the assignment to the missing attribute. */
  function SetVoaAtt(d: int, att: string): Exchange<()> {
    Exchange([EvoaCommand(d, att)], Ok(()))
  }

  // ---------------------------------------------------------------------
  // Getters

  /** `get_edfa_info`: the show command, then a space for the next page;
      `first` and `second` are the two replies. */
  function GetEdfaInfo(d: int, first: string, second: string): Exchange<(map<string, Parsed>, map<string, Parsed>)> {
    Exchange([ShowEdfa(d), " "], EdfaInfo(first, second))
  }

  /** `get_voa_info`. */
  function GetVoaInfo(d: int, reply: string): Exchange<map<string, string>> {
    Exchange([ShowEvoa(d)], VoaInfo(reply))
  }

  /** `get(*args)`'s loop: an argument without a label raises KeyError; a
      label in the state section gives its value, one in the configuration
      section overrides it, and one in neither adds nothing. */
  function Select(state: map<string, Parsed>, config: map<string, Parsed>, args: seq<Key>,
                  data: map<Key, Parsed>): Result<map<Key, Parsed>>
    decreases |args|
  {
    if |args| == 0 then Ok(data)
    else
      match Label(args[0])
      case None => Err(KeyError)
      case Some(l) =>
        var d1 := if l in state then data[args[0] := state[l]] else data;
        var d2 := if l in config then d1[args[0] := config[l]] else d1;
        Select(state, config, args[1..], d2)
  }

  /** The keys `GET_CONV` has a label for. */
  const LabelledKeys: set<Key> := {StateGain, StateTilt, StateInputPower, StateOutputPower, StateService,
                                   ConfigGain, ConfigTilt, ConfigOutputEnabled, ConfigRange, ConfigMode}

  /** `get()`: both sections merged, the configuration winning, with the
      labels renamed through the inverse table: a known label under its
      key, any other under itself. */
  function All(state: map<string, Parsed>, config: map<string, Parsed>): map<Name, Parsed> {
    var merged := state + config;
    var known := map k | k in LabelledKeys && Label(k).Some? && Label(k).value in merged :: KeyName(k) := merged[Label(k).value];
    var unknown := map l | l in merged && KeyOfLabel(l).None? :: LabelName(l) := merged[l];
    known + unknown
  }

  /** `get(*args)` on the two replies of `show edfa`. */
  function Get(d: int, args: seq<Key>, first: string, second: string): Exchange<map<Name, Parsed>> {
    var info := GetEdfaInfo(d, first, second);
    match info.out
    case Err(e) => Exchange(info.sent, Err(e))
    case Ok((state, config)) =>
      if |args| == 0 then Exchange(info.sent, Ok(All(state, config)))
      else
        match Select(state, config, args, map[])
        case Err(e) => Exchange(info.sent, Err(e))
        case Ok(data) => Exchange(info.sent, Ok(map k | k in data :: KeyName(k) := data[k]))
  }

  // ---------------------------------------------------------------------
  // Directions

  /** "ab" and 1 name direction 1, "ba" and 2 direction 2, and nothing
      else is accepted. */
  lemma {:induction false} DirectionCases(a: DirectionArg)
    ensures Direction(a) == Ok(1) <==> a == DirText("ab") || a == DirNumber(1)
    ensures Direction(a) == Ok(2) <==> a == DirText("ba") || a == DirNumber(2)
  {
  }

  /** On a valid direction the VOA's is the other one, and flipping twice
      gives the direction back. */
  lemma {:induction false} VoaOpposite(d: int)
    requires d == 1 || d == 2
    ensures VoaDirection(d) != d && (VoaDirection(d) == 1 || VoaDirection(d) == 2)
    ensures VoaDirection(VoaDirection(d)) == d
  {
  }

  // ---------------------------------------------------------------------
  // set

  /** `set` on two argument lists is `set` on each in turn. */
  lemma {:induction false} SetAppend(d: int, a: seq<(Key, string)>, b: seq<(Key, string)>)
    ensures Set(d, a + b) == Set(d, a) + Set(d, b)
    decreases |a|
  {
    if |a| > 0 {
      assert (a + b)[0] == a[0];
      assert (a + b)[1..] == a[1..] + b;
      SetAppend(d, a[1..], b);
    } else {
      assert a + b == b;
    }
  }

  /** `set` sends exactly one command per argument whose key has a verb,
      and that command carries the key's verb and the value. */
  lemma {:induction false} SetCommands(d: int, kwargs: seq<(Key, string)>)
    ensures |Set(d, kwargs)| == |Applicable(kwargs)|
    ensures forall i :: 0 <= i < |Applicable(kwargs)| ==>
              Set(d, kwargs)[i] == EdfaCommand(d, Verb(Applicable(kwargs)[i].0).value, Applicable(kwargs)[i].1)
    decreases |kwargs|
  {
    if |kwargs| > 0 {
      SetCommands(d, kwargs[1..]);
    }
  }

  /** The arguments `set` acts on, in order. */
  function Applicable(kwargs: seq<(Key, string)>): (r: seq<(Key, string)>)
    ensures forall i :: 0 <= i < |r| ==> Verb(r[i].0).Some?
    decreases |kwargs|
  {
    if |kwargs| == 0 then []
    else (if Verb(kwargs[0].0).Some? then [kwargs[0]] else []) + Applicable(kwargs[1..])
  }

  /** A key without a verb, such as the mode, sends nothing. */
  lemma {:induction false} SetSkips(d: int, k: Key, v: string)
    requires Verb(k).None?
    ensures Set(d, [(k, v)]) == []
  {
  }

  /** The dedicated setters send what `set` sends for their key; the
      checked ones reject every other value with nothing sent. */
  lemma {:induction false} SettersAgreeWithSet(d: int, v: string)
    ensures SetGain(d, v) == Set(d, [(ConfigGain, v)])
    ensures SetTilt(d, v) == Set(d, [(ConfigTilt, v)])
    ensures SetGainrange(d, v).out.Ok? <==> v == "high" || v == "low"
    ensures SetGainrange(d, v).out.Ok? ==> SetGainrange(d, v).sent == Set(d, [(ConfigRange, v)])
    ensures SetGainrange(d, v).out.Err? ==> SetGainrange(d, v) == Exchange([], Err(IOError))
    ensures SetOutputEnable(d, v).out.Ok? <==> v == "enable" || v == "disable"
    ensures SetOutputEnable(d, v).out.Ok? ==> SetOutputEnable(d, v).sent == Set(d, [(ConfigOutputEnabled, v)])
    ensures SetOutputEnable(d, v).out.Err? ==> SetOutputEnable(d, v) == Exchange([], Err(IOError))
  {
  }

  /** As written, enabling the output sends what `set` sends for the gain
      range key, and not what it sends for the output key. */
  lemma {:induction false} OutputEnableAsWrittenMisroutes(d: int, v: string)
    requires v == "enable" || v == "disable"
    ensures SetOutputEnableAsWritten(d, v).sent == Set(d, [(ConfigRange, v)])
    ensures SetOutputEnableAsWritten(d, v).sent != Set(d, [(ConfigOutputEnabled, v)])
  {
    SetOne(d, ConfigOutputEnabled, v);
    SetOne(d, ConfigRange, v);
    VerbsApart(d, "gainrange", "output", v);
  }

  /** Commands with different verbs differ, as their split fields show. */
  lemma {:induction false} VerbsApart(d: int, x: string, y: string, v: string)
    requires Avoids(x, ' ') && Avoids(y, ' ') && Avoids(v, ' ') && x != y
    ensures EdfaCommand(d, x, v) != EdfaCommand(d, y, v)
  {
    EdfaCommandFields(d, x, v);
    EdfaCommandFields(d, y, v);
    var a, b := ["edfa", IntToString(d), x, v + "\n"], ["edfa", IntToString(d), y, v + "\n"];
    assert a[2] != b[2];
  }

  /** `set` with one keyword that has a verb sends that one command. */
  lemma {:induction false} SetOne(d: int, k: Key, v: string)
    requires Verb(k).Some?
    ensures Set(d, [(k, v)]) == [EdfaCommand(d, Verb(k).value, v)]
  {
    assert [(k, v)][1..] == [];
  }

  /** The corrected setter changes nothing else: same check, same error. */
  lemma {:induction false} OutputEnableCorrected(d: int, v: string)
    ensures SetOutputEnable(d, v).out == SetOutputEnableAsWritten(d, v).out
    ensures |SetOutputEnable(d, v).sent| == |SetOutputEnableAsWritten(d, v).sent|
  {
  }

  /** A command splits on spaces into "edfa", the direction, the verb and
      the value with its newline, when neither verb nor value holds a
      space. */
  lemma {:induction false} EdfaCommandFields(d: int, verb: string, value: string)
    requires Avoids(verb, ' ') && Avoids(value, ' ')
    ensures Split(EdfaCommand(d, verb, value), " ") == ["edfa", IntToString(d), verb, value + "\n"]
  {
    var parts := ["edfa", IntToString(d), verb, value + "\n"];
    assert Avoids(IntToString(d), ' ');
    assert Avoids(value + "\n", ' ');
    forall i | 0 <= i < |parts| ensures Avoids(parts[i], " "[0]) {
    }
    SplitJoin(parts, " ");
    JoinOf4("edfa", IntToString(d), verb, value + "\n", " ");
    EdfaSpaced(IntToString(d), verb, value);
  }

  /** An amplifier command line, regrouped as `Join` builds it. */
  lemma {:induction false} EdfaSpaced(x: string, y: string, z: string)
    ensures "edfa " + x + " " + y + " " + z + "\n" == "edfa" + " " + (x + " " + (y + " " + (z + "\n")))
  {
    assert "edfa " == "edfa" + " ";
  }

  /** A VOA command line, regrouped as `Join` builds it. */
  lemma {:induction false} EvoaSpaced(x: string, z: string)
    ensures "evoa " + x + " " + z + "\n" == "evoa" + " " + (x + " " + (z + "\n"))
  {
    assert "evoa " == "evoa" + " ";
  }

  /** `set_voa_att` as written always raises, after the command has gone
      out; the corrected setter sends the same command and does not. */
  lemma {:induction false} VoaAttAsWrittenRaises(d: int, att: string)
    ensures SetVoaAttAsWritten(d, att).out == Err(AttributeError)
    ensures SetVoaAttAsWritten(d, att).sent == SetVoaAtt(d, att).sent == [EvoaCommand(d, att)]
    ensures SetVoaAttAsWritten(d, att).out != SetVoaAtt(d, att).out
  {
  }

  /** Corrected, `set_voa_att` returns normally after sending exactly one
      command, `evoa`, the direction opposite the amplifier's and the
      attenuation. */
  lemma {:induction false} VoaAttCorrected(d: int, att: string)
    requires d == 1 || d == 2
    requires !Contains(att, " ")
    ensures SetVoaAtt(d, att).out == Ok(())
    ensures |SetVoaAtt(d, att).sent| == 1
    ensures Split(SetVoaAtt(d, att).sent[0], " ") == ["evoa", IntToString(3 - d), att + "\n"]
  {
    VoaCommandsAgree(d, att);
  }

  /** The VOA command and `show evoa` address the same direction, the one
      opposite the amplifier's. */
  lemma {:induction false} VoaCommandsAgree(d: int, att: string)
    requires d == 1 || d == 2
    ensures !Contains(att, " ") ==> Split(EvoaCommand(d, att), " ") == ["evoa", IntToString(3 - d), att + "\n"]
    ensures ShowEvoa(d) == "show evoa " + IntToString(3 - d) + "\n"
  {
    if !Contains(att, " ") {
      var parts := ["evoa", IntToString(VoaDirection(d)), att + "\n"];
      assert Avoids(att, ' ') by {
        forall i | 0 <= i < |att| ensures att[i] != ' ' {
          assert !OccursAt(att, " ", i);
          assert att[i..i + 1] == [att[i]];
        }
      }
      forall i | 0 <= i < |parts| ensures Avoids(parts[i], " "[0]) {
        assert Avoids(IntToString(VoaDirection(d)), ' ');
      }
      SplitJoin(parts, " ");
      JoinOf3("evoa", IntToString(VoaDirection(d)), att + "\n", " ");
      EvoaSpaced(IntToString(VoaDirection(d)), att);
    }
  }

  // ---------------------------------------------------------------------
  // get

  /** `get(*args)` fails exactly when some argument has no label; otherwise
      it holds the arguments whose label either section has, the
      configuration's value taking precedence, and what `data` held. */
  lemma {:induction false} SelectSpec(state: map<string, Parsed>, config: map<string, Parsed>, args: seq<Key>,
                                      data: map<Key, Parsed>)
    ensures Select(state, config, args, data).Err? <==> exists i :: 0 <= i < |args| && Label(args[i]).None?
    ensures Select(state, config, args, data).Err? ==> Select(state, config, args, data).error == KeyError
    ensures Select(state, config, args, data).Ok? ==>
              forall k :: Found(state, config, args, k) ==>
                k in Select(state, config, args, data).value &&
                Select(state, config, args, data).value[k] == Lookup(state, config, k)
    ensures Select(state, config, args, data).Ok? ==>
              forall k :: k in Select(state, config, args, data).value && !Found(state, config, args, k) ==>
                k in data && Select(state, config, args, data).value[k] == data[k]
    ensures Select(state, config, args, data).Ok? ==>
              forall k :: k in data ==> k in Select(state, config, args, data).value
    decreases |args|
  {
    if |args| > 0 {
      var rest := args[1..];
      assert forall i :: 0 <= i < |rest| ==> rest[i] == args[i + 1];
      match Label(args[0])
      case None =>
      case Some(l) =>
        var d1 := if l in state then data[args[0] := state[l]] else data;
        var d2 := if l in config then d1[args[0] := config[l]] else d1;
        SelectSpec(state, config, rest, d2);
        if Select(state, config, args, data).Ok? {
          forall k | Found(state, config, args, k)
            ensures k in Select(state, config, args, data).value &&
                    Select(state, config, args, data).value[k] == Lookup(state, config, k)
          {
            if k != args[0] {
              var i :| 0 <= i < |args| && args[i] == k;
              assert rest[i - 1] == k;
            }
          }
          forall k | Found(state, config, rest, k) ensures Found(state, config, args, k) {
            var i :| 0 <= i < |rest| && rest[i] == k;
            assert args[i + 1] == k;
          }
          forall k | k in Select(state, config, args, data).value && !Found(state, config, args, k)
            ensures k in data && Select(state, config, args, data).value[k] == data[k]
          {
            if k == args[0] {
              assert args[0] == k;
            }
          }
        }
    }
  }

  /** `k` is among the arguments and its label is in a section. */
  predicate Found(state: map<string, Parsed>, config: map<string, Parsed>, args: seq<Key>, k: Key) {
    (exists i :: 0 <= i < |args| && args[i] == k) &&
    Label(k).Some? && (Label(k).value in state || Label(k).value in config)
  }

  /** The value `get` reports for a found key: the configuration's when it
      has the label, the state's otherwise. */
  function Lookup(state: map<string, Parsed>, config: map<string, Parsed>, k: Key): Parsed
    requires Label(k).Some? && (Label(k).value in state || Label(k).value in config)
  {
    var l := Label(k).value;
    if l in config then config[l] else state[l]
  }

  /** `get()` holds every label of either section, renamed, with the
      configuration's value taking precedence, and nothing else. */
  lemma {:induction false} AllSpec(state: map<string, Parsed>, config: map<string, Parsed>)
    ensures forall l :: l in state || l in config ==>
              Rename(l) in All(state, config) &&
              All(state, config)[Rename(l)] == (if l in config then config[l] else state[l])
    ensures forall n :: n in All(state, config) ==> exists l :: (l in state || l in config) && Rename(l) == n
  {
    forall l | l in state || l in config
      ensures Rename(l) in All(state, config) &&
              All(state, config)[Rename(l)] == (if l in config then config[l] else state[l])
    {
      AllAt(state, config, l);
    }
    forall n | n in All(state, config)
      ensures exists l :: (l in state || l in config) && Rename(l) == n
    {
      AllOnly(state, config, n);
    }
  }

  lemma {:induction false} AllAt(state: map<string, Parsed>, config: map<string, Parsed>, l: string)
    requires l in state || l in config
    ensures Rename(l) in All(state, config) &&
            All(state, config)[Rename(l)] == (if l in config then config[l] else state[l])
  {
    var merged := state + config;
    assert l in merged && merged[l] == (if l in config then config[l] else state[l]);
    match KeyOfLabel(l)
    case Some(k) =>
      LabelsInvert(k, l);
      assert k in LabelledKeys;
    case None =>
  }

  lemma {:induction false} AllOnly(state: map<string, Parsed>, config: map<string, Parsed>, n: Name)
    ensures n in All(state, config) ==> exists l :: (l in state || l in config) && Rename(l) == n
  {
    var merged := state + config;
    if n !in All(state, config) { return; }
    match n
    case KeyName(k) =>
      var l := Label(k).value;
      LabelsInvert(k, l);
      assert l in merged && Rename(l) == n;
    case LabelName(l) =>
      assert l in merged && Rename(l) == n;
  }

  /** Asking for one key with `get(key)` agrees with the entry `get()`
      reports for it. */
  lemma {:induction false} SelectAgreesWithAll(state: map<string, Parsed>, config: map<string, Parsed>, k: Key)
    requires Label(k).Some?
    ensures var l := Label(k).value;
            Select(state, config, [k], map[]) ==
            Ok(if l in state || l in config then map[k := All(state, config)[KeyName(k)]] else map[])
  {
    var l := Label(k).value;
    LabelsInvert(k, l);
    assert Rename(l) == KeyName(k);
    SelectOne(state, config, k);
    if l in state || l in config {
      AllAt(state, config, l);
    }
  }

  /** `get(key)` for one labelled key. */
  lemma {:induction false} SelectOne(state: map<string, Parsed>, config: map<string, Parsed>, k: Key)
    requires Label(k).Some?
    ensures var l := Label(k).value;
            Select(state, config, [k], map[]) ==
            Ok(if l in config then map[k := config[l]] else if l in state then map[k := state[l]] else map[])
  {
    var l := Label(k).value;
    var empty: map<Key, Parsed> := map[];
    var d1 := if l in state then empty[k := state[l]] else empty;
    var d2 := if l in config then d1[k := config[l]] else d1;
    assert [k][1..] == [];
    assert Select(state, config, [k], empty) == Select(state, config, [], d2);
    if l in config {
      assert d2 == map[k := config[l]];
    }
  }

  /** `edfa_login` succeeds on any reply holding "Completed!", and fails on
      one without an exclamation mark. */
  lemma {:induction false} LoginResult(user: string, password: string, before: string, after: string)
    ensures EdfaLogin(user, password, before + "Completed!" + after).out == Ok(0)
    ensures Avoids(before, '!') ==> EdfaLogin(user, password, before).out == Ok(-1)
  {
    var reply := before + "Completed!" + after;
    assert OccursAt(reply, "Completed!", |before|) by {
      assert reply[|before|..|before| + 10] == "Completed!";
    }
    if Avoids(before, '!') {
      forall i | 0 <= i <= |before| ensures !OccursAt(before, "Completed!", i) {
        if i + 10 <= |before| {
          NotOccursAtOffset(before, "Completed!", i, 9);
        }
      }
    }
  }
}

=== FILE: juniper_info.dfy ===
/** The text parsers of the Juniper driver (juniper/driver.py):
    `get_edfa_info` reads the reply to `show edfa <d>`, `get_voa_info` the
    reply to `show evoa <d>`. A section is a run of lines `key : value`;
    each line is split on ':', carriage returns and spaces are removed
    from every piece, the first line and a fixed number of trailing lines
    are dropped, and the rest become a dictionary in which a later line
    overwrites an earlier one with the same key. */
module JuniperInfo {
  import opened Wrappers
  import opened Text
  import opened Numerals
  import opened JuniperUnits

  /** Python's `s[:-k]` for `k > 0`. */
  function DropLast(s: string, k: nat): (r: string)
    requires k > 0
    ensures |r| == if |s| >= k then |s| - k else 0
    ensures r <= s
  {
    if |s| >= k then s[..|s| - k] else ""
  }

  /** Python's `s[k:]`. */
  function DropFirst(s: string, k: nat): (r: string)
    ensures |r| == if |s| >= k then |s| - k else 0
    ensures forall i :: 0 <= i < |r| ==> r[i] == s[i + k]
  {
    if |s| >= k then s[k..] else ""
  }

  /** `e.replace("\r", "").replace(" ", "")`. */
  function Clean(piece: string): (r: string)
    ensures Avoids(piece, '\r') && Avoids(piece, ' ') ==> r == piece
  {
    Remove(Remove(piece, '\r'), ' ')
  }

  /** One line split on ':' and cleaned piece by piece. */
  function Fields(line: string): (r: seq<string>)
    ensures |r| == |Split(line, ":")| && |r| >= 1
    ensures forall i :: 0 <= i < |r| ==> r[i] == Clean(Split(line, ":")[i])
  {
    var pieces := Split(line, ":");
    seq(|pieces|, i requires 0 <= i < |pieces| => Clean(pieces[i]))
  }

  /** The rows of a section: its lines as fields, without the first line
      and the last `drop` lines (Python's `rows[1:-drop]`). */
  function Rows(section: string, drop: nat): seq<seq<string>>
    requires drop > 0
  {
    var lines := Split(section, "\n");
    var rows := seq(|lines|, i requires 0 <= i < |lines| => Fields(lines[i]));
    if |rows| - drop <= 1 then [] else rows[1..|rows| - drop]
  }

  /** `for el in rows: table[el[0]] = el[1]`: a row with no second field
      raises IndexError, and a later row overwrites an earlier one. */
  function RawTable(rows: seq<seq<string>>): Result<map<string, string>>
    decreases |rows|
  {
    if |rows| == 0 then Ok(map[])
    else
      var init := RawTable(rows[..|rows| - 1]);
      var last := rows[|rows| - 1];
      if init.Err? then init
      else if |last| < 2 then Err(IndexError)
      else Ok(init.value[last[0] := last[1]])
  }

  /** Every value read through `split_string`. */
  function Parse(table: map<string, string>): (r: map<string, Parsed>)
    ensures r.Keys == table.Keys
    ensures forall k :: k in table ==> r[k] == SplitString(table[k])
  {
    map k | k in table :: SplitString(table[k])
  }

  /** The text `get_edfa_info` parses: the first read without its last 60
      characters, a newline, and the second read (after a space is sent
      for the next page) without its first 6. */
  function EdfaText(first: string, second: string): string {
    DropLast(first, 60) + "\n" + DropFirst(second, 6)
  }

  /** `get_edfa_info`: the state section follows the first "Edfa", the
      configuration section the second; the state loses its last two
      lines, the configuration its last four. */
  function EdfaInfo(first: string, second: string): Result<(map<string, Parsed>, map<string, Parsed>)> {
    var sections := Split(EdfaText(first, second), "Edfa");
    if |sections| < 3 then Err(IndexError)
    else
      var state := RawTable(Rows(sections[1], 2));
      var config := RawTable(Rows(sections[2], 4));
      if state.Err? then Err(state.error)
      else if config.Err? then Err(config.error)
      else Ok((Parse(state.value), Parse(config.value)))
  }

  /** `get_voa_info`: the section after the first "Info", without its
      last four lines; the values are kept as text. */
  function VoaInfo(reply: string): Result<map<string, string>> {
    var sections := Split(reply, "Info");
    if |sections| < 2 then Err(IndexError) else RawTable(Rows(sections[1], 4))
  }

  // ---------------------------------------------------------------------
  // The table

  /** The table is built exactly when every row has a second field. */
  lemma {:induction false} RawTableOk(rows: seq<seq<string>>)
    ensures RawTable(rows).Ok? <==> forall i :: 0 <= i < |rows| ==> |rows[i]| >= 2
    decreases |rows|
  {
    if |rows| > 0 {
      var init := rows[..|rows| - 1];
      RawTableOk(init);
      assert forall i :: 0 <= i < |init| ==> init[i] == rows[i];
    }
  }

  /** Row `i` is the last row with its key. */
  predicate LastWithKey(rows: seq<seq<string>>, i: int) {
    0 <= i < |rows| && |rows[i]| >= 1 &&
    forall j :: i < j < |rows| ==> |rows[j]| >= 1 && rows[j][0] != rows[i][0]
  }

  /** The table of a row sequence is the table of all rows but the last,
      updated with the last. */
  lemma {:induction false} RawTableStep(rows: seq<seq<string>>)
    requires |rows| > 0 && RawTable(rows).Ok?
    ensures var last := rows[|rows| - 1];
            RawTable(rows[..|rows| - 1]).Ok? && |last| >= 2 &&
            RawTable(rows).value == RawTable(rows[..|rows| - 1]).value[last[0] := last[1]]
  {
  }

  /** Every row's first field is a key of the table. */
  lemma {:induction false} RawTableKeys(rows: seq<seq<string>>)
    requires RawTable(rows).Ok?
    ensures forall i :: 0 <= i < |rows| ==> |rows[i]| >= 2 && rows[i][0] in RawTable(rows).value
    decreases |rows|
  {
    if |rows| > 0 {
      var init := rows[..|rows| - 1];
      RawTableStep(rows);
      RawTableKeys(init);
      assert forall i :: 0 <= i < |init| ==> init[i] == rows[i];
    }
  }

  /** Every key of the table is some row's first field. */
  lemma {:induction false} RawTableOnlyKeys(rows: seq<seq<string>>, k: string)
    requires RawTable(rows).Ok? && k in RawTable(rows).value
    ensures exists i :: 0 <= i < |rows| && |rows[i]| >= 1 && rows[i][0] == k
    decreases |rows|
  {
    var n := |rows| - 1;
    var init := rows[..n];
    RawTableStep(rows);
    if k != rows[n][0] {
      RawTableOnlyKeys(init, k);
      var i :| 0 <= i < |init| && |init[i]| >= 1 && init[i][0] == k;
      assert rows[i] == init[i];
    }
  }

  /** The value of a key is the second field of the last row with it. */
  lemma {:induction false} RawTableLastWins(rows: seq<seq<string>>, i: int)
    requires RawTable(rows).Ok? && LastWithKey(rows, i)
    ensures |rows[i]| >= 2 && rows[i][0] in RawTable(rows).value && RawTable(rows).value[rows[i][0]] == rows[i][1]
    decreases |rows|
  {
    var n := |rows| - 1;
    var init := rows[..n];
    RawTableStep(rows);
    RawTableKeys(rows);
    if i < n {
      assert init[i] == rows[i];
      assert LastWithKey(init, i) by {
        forall j | i < j < n ensures |init[j]| >= 1 && init[j][0] != init[i][0] {
          assert init[j] == rows[j];
        }
      }
      RawTableLastWins(init, i);
    }
  }

  // ---------------------------------------------------------------------
  // Sections round-trip

  /** A row as the shell prints it. */
  function Line(key: string, value: string): string {
    key + ":" + value
  }

  function Lines(rows: seq<(string, string)>): (r: seq<string>)
    ensures |r| == |rows|
    ensures forall i :: 0 <= i < |rows| ==> r[i] == Line(rows[i].0, rows[i].1)
  {
    seq(|rows|, i requires 0 <= i < |rows| => Line(rows[i].0, rows[i].1))
  }

  /** A section: a heading line, the rows, then `trailer` lines. */
  function Section(heading: string, rows: seq<(string, string)>, trailer: seq<string>): string {
    Join([heading] + Lines(rows) + trailer, "\n")
  }

  /** Text that stays within one field of one line: no ':' and no newline. */
  predicate InField(s: string) {
    Avoids(s, ':') && Avoids(s, '\n')
  }

  /** Text the parser keeps as it is: within a field, and without carriage
      return or space. */
  predicate Plain(s: string) {
    InField(s) && Avoids(s, '\r') && Avoids(s, ' ')
  }

  /** Cleaning works piece by piece, keeping the order of what remains. */
  lemma {:induction false} CleanAppend(a: string, b: string)
    ensures Clean(a + b) == Clean(a) + Clean(b)
  {
    RemoveAppend(a, b, '\r');
    RemoveAppend(Remove(a, '\r'), Remove(b, '\r'), ' ');
  }

  /** On one character, cleaning drops carriage returns and spaces and keeps
      everything else. */
  lemma {:induction false} CleanOne(x: char)
    ensures Clean([x]) == if x == '\r' || x == ' ' then "" else [x]
  {
    RemoveOne(x, '\r');
    RemoveOne(x, ' ');
  }

  /** A printed section parses back to its rows, each key and value with its
      padding, carriage returns included, cleaned away, whatever the heading
      and the trailing lines say, as long as there are as many trailing
      lines as the parser drops. Rows printed without padding come back as
      they are. */
  lemma {:induction false} SectionRoundTrip(heading: string, rows: seq<(string, string)>, trailer: seq<string>)
    requires |trailer| > 0 && Avoids(heading, '\n') && forall i :: 0 <= i < |trailer| ==> Avoids(trailer[i], '\n')
    requires forall i :: 0 <= i < |rows| ==> InField(rows[i].0) && InField(rows[i].1)
    ensures var parsed := Rows(Section(heading, rows, trailer), |trailer|);
            |parsed| == |rows| &&
            (forall i :: 0 <= i < |rows| ==> parsed[i] == [Clean(rows[i].0), Clean(rows[i].1)]) &&
            (forall i :: 0 <= i < |rows| && Plain(rows[i].0) && Plain(rows[i].1) ==> parsed[i] == [rows[i].0, rows[i].1])
  {
    var parts := [heading] + Lines(rows) + trailer;
    SectionLines(heading, rows, trailer);
    RowsOfLines(Section(heading, rows, trailer), |trailer|, parts);
    forall i | 0 <= i < |rows| ensures Fields(parts[1 + i]) == [Clean(rows[i].0), Clean(rows[i].1)] {
      assert parts[1 + i] == Line(rows[i].0, rows[i].1);
      LineFields(rows[i].0, rows[i].1);
    }
  }

  /** The lines of a printed section are the ones printed. */
  lemma {:induction false} SectionLines(heading: string, rows: seq<(string, string)>, trailer: seq<string>)
    requires Avoids(heading, '\n') && forall i :: 0 <= i < |trailer| ==> Avoids(trailer[i], '\n')
    requires forall i :: 0 <= i < |rows| ==> InField(rows[i].0) && InField(rows[i].1)
    ensures Split(Section(heading, rows, trailer), "\n") == [heading] + Lines(rows) + trailer
  {
    var parts := [heading] + Lines(rows) + trailer;
    forall i | 0 <= i < |parts| ensures Avoids(parts[i], "\n"[0]) {
      if 1 <= i < 1 + |rows| {
        assert parts[i] == Line(rows[i - 1].0, rows[i - 1].1);
      } else if i >= 1 + |rows| {
        assert parts[i] == trailer[i - 1 - |rows|];
      }
    }
    SplitJoin(parts, "\n");
  }

  /** Rows, read off the lines of a section. */
  lemma {:induction false} RowsOfLines(section: string, drop: nat, lines: seq<string>)
    requires drop > 0 && Split(section, "\n") == lines && |lines| - drop >= 1
    ensures var parsed := Rows(section, drop);
            |parsed| == |lines| - drop - 1 && forall i :: 0 <= i < |parsed| ==> parsed[i] == Fields(lines[1 + i])
  {
  }

  /** A printed row, padded or not, splits back into its cleaned key and
      value: `Gain Value : 20.5 dB\r` gives `["GainValue", "20.5dB"]`. */
  lemma {:induction false} LineFields(key: string, value: string)
    requires Avoids(key, ':') && Avoids(value, ':')
    ensures Fields(Line(key, value)) == [Clean(key), Clean(value)]
  {
    SplitJoin([key, value], ":");
    assert Join([key, value], ":") == Line(key, value);
  }

  /** So a printed section becomes the table of its rows, each cleaned key
      holding the cleaned value of the last row with that key. */
  lemma {:induction false} SectionTable(heading: string, rows: seq<(string, string)>, trailer: seq<string>, i: nat)
    requires |trailer| > 0 && Avoids(heading, '\n') && forall j :: 0 <= j < |trailer| ==> Avoids(trailer[j], '\n')
    requires forall j :: 0 <= j < |rows| ==> InField(rows[j].0) && InField(rows[j].1)
    requires i < |rows| && forall j :: i < j < |rows| ==> Clean(rows[j].0) != Clean(rows[i].0)
    ensures var table := RawTable(Rows(Section(heading, rows, trailer), |trailer|));
            table.Ok? && Clean(rows[i].0) in table.value && table.value[Clean(rows[i].0)] == Clean(rows[i].1)
  {
    var parsed := Rows(Section(heading, rows, trailer), |trailer|);
    SectionRoundTrip(heading, rows, trailer);
    RawTableOk(parsed);
    assert LastWithKey(parsed, i);
    RawTableLastWins(parsed, i);
  }
}

=== FILE: juniper_units.dfy ===
/** `split_string` (juniper/utils.py): the Juniper shell prints readings
    as a number glued to its unit ("20.5dB", "-3dBm"). The function takes
    the leftmost match of the pattern `(-?\d+\.?\d*)([a-zA-Z]+)` and
    returns the number, as an int or a float depending on whether the
    numeral holds a '.', with the unit; a string with no match comes back
    unchanged. */
module JuniperUnits {
  import opened Wrappers
  import opened Text
  import opened Numerals

  datatype Number = IntNum(i: int) | FloatNum(x: real)

  /** `split_string`'s result: the input itself, or a (number, unit) pair. */
  datatype Parsed = Unparsed(text: string) | Measure(num: Number, unit: string)

  /** The character class `[a-zA-Z]`. */
  predicate IsLetter(c: char) {
    'a' <= c <= 'z' || 'A' <= c <= 'Z'
  }

  predicate AllLetters(s: string) {
    forall i :: 0 <= i < |s| ==> IsLetter(s[i])
  }

  /** The numeral without its minus sign. */
  function Unminus(t: string): string {
    if |t| > 0 && t[0] == '-' then t[1..] else t
  }

  /** The strings `-?\d+\.?\d*` matches in full: an optional minus, at
      least one digit, then at most one point followed by digits. */
  predicate IsNumeral(t: string) {
    IsUnsigned(Unminus(t))
  }

  /** The part of a numeral after its sign: `\d+\.?\d*`. */
  predicate IsUnsigned(b: string) {
    |b| > 0 && IsDigit(b[0]) &&
    match Find(b, ".", 0)
    case None => AllDigits(b)
    case Some(p) => AllDigits(b[..p]) && AllDigits(b[p + 1..])
  }

  // ---------------------------------------------------------------------
  // The regular expression

  /** The end of the greedy run `\d*` starting at `i`. */
  function DigitsEnd(s: string, i: nat): (k: nat)
    requires i <= |s|
    ensures i <= k <= |s|
    decreases |s| - i
  {
    if i < |s| && IsDigit(s[i]) then DigitsEnd(s, i + 1) else i
  }

  /** The greedy run is all digits and stops at a non-digit. */
  lemma {:induction false} DigitsEndRun(s: string, i: nat)
    requires i <= |s|
    ensures var k := DigitsEnd(s, i);
            (k == |s| || !IsDigit(s[k])) && forall j :: i <= j < k ==> IsDigit(s[j])
    decreases |s| - i
  {
    if i < |s| && IsDigit(s[i]) {
      DigitsEndRun(s, i + 1);
    }
  }

  /** The end of the greedy run `[a-zA-Z]*` starting at `i`. */
  function LettersEnd(s: string, i: nat): (k: nat)
    requires i <= |s|
    ensures i <= k <= |s|
    decreases |s| - i
  {
    if i < |s| && IsLetter(s[i]) then LettersEnd(s, i + 1) else i
  }

  /** The greedy run is all letters and stops at a non-letter. */
  lemma {:induction false} LettersEndRun(s: string, i: nat)
    requires i <= |s|
    ensures var k := LettersEnd(s, i);
            (k == |s| || !IsLetter(s[k])) && forall j :: i <= j < k ==> IsLetter(s[j])
    decreases |s| - i
  {
    if i < |s| && IsLetter(s[i]) {
      LettersEndRun(s, i + 1);
    }
  }

  /** The pattern's match starting at `i`, as (end of the numeral, end of
      the unit). Each quantifier takes as much as it can; giving anything
      back cannot help, because a letter is neither a digit nor a point. */
  function MatchAt(s: string, i: nat): Option<(nat, nat)>
    requires i <= |s|
  {
    var j := if i < |s| && s[i] == '-' then i + 1 else i;
    var k := DigitsEnd(s, j);
    if k == j then None
    else
      var m := if k < |s| && s[k] == '.' then DigitsEnd(s, k + 1) else k;
      var e := LettersEnd(s, m);
      if e == m then None else Some((m, e))
  }

  /** The leftmost match at or after `from`: (start, end of the numeral,
      end of the unit). */
  function FindMatch(s: string, from: nat): (r: Option<(nat, nat, nat)>)
    requires from <= |s|
    ensures r.None? ==> forall j :: from <= j <= |s| ==> MatchAt(s, j).None?
    ensures r.Some? ==> from <= r.value.0 <= |s| && MatchAt(s, r.value.0) == Some((r.value.1, r.value.2))
    ensures r.Some? ==> forall j :: from <= j < r.value.0 ==> MatchAt(s, j).None?
    decreases |s| - from
  {
    match MatchAt(s, from)
    case Some((m, e)) => Some((from, m, e))
    case None => if from == |s| then None else FindMatch(s, from + 1)
  }

  /** `float(num) if '.' in num else int(num)`. */
  function NumeralValue(t: string): Number
    requires IsNumeral(t)
  {
    NumeralParses(t);
    if Contains(t, ".") then FloatNum(ParseFloat(t).value) else IntNum(ParseInt(t).value)
  }

  /** `split_string`. */
  function SplitString(s: string): (r: Parsed)
    ensures r.Unparsed? <==> forall j :: 0 <= j <= |s| ==> MatchAt(s, j).None?
    ensures r.Unparsed? ==> r.text == s
  {
    match FindMatch(s, 0)
    case None => Unparsed(s)
    case Some((i, m, e)) =>
      MatchSound(s, i);
      Measure(NumeralValue(s[i..m]), s[m..e])
  }

  // ---------------------------------------------------------------------
  // The match is the regular expression's

  /** What `MatchAt` finds is a numeral followed by the longest run of
      letters, and there is at least one letter. */
  lemma {:induction false} MatchSound(s: string, i: nat)
    requires i <= |s| && MatchAt(s, i).Some?
    ensures var (m, e) := MatchAt(s, i).value;
            i < m < e <= |s| && IsNumeral(s[i..m]) && AllLetters(s[m..e]) && (e == |s| || !IsLetter(s[e]))
  {
    var j := if i < |s| && s[i] == '-' then i + 1 else i;
    var k := DigitsEnd(s, j);
    var (m, e) := MatchAt(s, i).value;
    assert j < k && e == LettersEnd(s, m) && m < e;
    NumeralOfMatch(s, i, j, k, m);
    LettersEndRun(s, m);
    LettersOfRun(s, m, e);
  }

  /** The sign and digits (and point and digits) the pattern takes form a
      numeral. */
  lemma {:induction false} NumeralOfMatch(s: string, i: nat, j: nat, k: nat, m: nat)
    requires i <= |s| && j == (if i < |s| && s[i] == '-' then i + 1 else i)
    requires j <= |s| && k == DigitsEnd(s, j) && j < k
    requires m == (if k < |s| && s[k] == '.' then DigitsEnd(s, k + 1) else k)
    ensures i < m <= |s| && IsNumeral(s[i..m])
  {
    UnsignedOfMatch(s, j, k, m);
    UnminusSlice(s, i, j, m);
  }

  /** `NumeralOfMatch` after the sign. */
  lemma {:induction false} UnsignedOfMatch(s: string, j: nat, k: nat, m: nat)
    requires j <= |s| && k == DigitsEnd(s, j) && j < k
    requires m == (if k < |s| && s[k] == '.' then DigitsEnd(s, k + 1) else k)
    ensures j < m <= |s| && IsUnsigned(s[j..m])
  {
    DigitsEndRun(s, j);
    if k < |s| && s[k] == '.' {
      DigitsEndRun(s, k + 1);
      NumeralWithPoint(s, j, k, m);
    } else {
      NumeralWithoutPoint(s, j, m);
    }
  }

  /** The minus sign the pattern skips is the one `Unminus` drops. */
  lemma {:induction false} UnminusSlice(s: string, i: nat, j: nat, m: nat)
    requires i <= j < m <= |s| && j == (if s[i] == '-' then i + 1 else i)
    ensures Unminus(s[i..m]) == s[j..m]
  {
    assert s[i..m][0] == s[i];
  }

  /** Letters at every index of a range are the letters of the slice. */
  lemma {:induction false} LettersOfRun(s: string, a: nat, c: nat)
    requires a <= c <= |s| && forall x :: a <= x < c ==> IsLetter(s[x])
    ensures AllLetters(s[a..c])
  {
    forall y | 0 <= y < c - a ensures IsLetter(s[a..c][y]) {
      assert s[a..c][y] == s[a + y];
    }
  }

  /** A run of digits, a point and a run of digits is a numeral. */
  lemma {:induction false} NumeralWithPoint(s: string, j: nat, k: nat, m: nat)
    requires j < k < m <= |s| && s[k] == '.'
    requires forall x :: j <= x < k ==> IsDigit(s[x])
    requires forall x :: k < x < m ==> IsDigit(s[x])
    ensures Find(s[j..m], ".", 0) == Some(k - j)
    ensures var b := s[j..m]; |b| > 0 && IsDigit(b[0]) && AllDigits(b[..k - j]) && AllDigits(b[k - j + 1..])
  {
    var b := s[j..m];
    assert b[k - j] == s[k];
    assert OccursAt(b, ".", k - j) by {
      assert b[k - j..k - j + 1] == [b[k - j]];
    }
    forall x | 0 <= x < k - j ensures !OccursAt(b, ".", x) {
      NotOccursAt(b, ".", x);
    }
    FindUnique(b, ".", 0, Some(k - j));
    assert b[..k - j] == s[j..k];
    assert b[k - j + 1..] == s[k + 1..m];
    DigitsOfRun(s, j, k);
    DigitsOfRun(s, k + 1, m);
  }

  /** A run of digits alone is a numeral. */
  lemma {:induction false} NumeralWithoutPoint(s: string, j: nat, m: nat)
    requires j < m <= |s|
    requires forall x :: j <= x < m ==> IsDigit(s[x])
    ensures Find(s[j..m], ".", 0).None? && AllDigits(s[j..m])
  {
    var b := s[j..m];
    DigitsOfRun(s, j, m);
    forall x | 0 <= x < |b| ensures !OccursAt(b, ".", x) {
      NotOccursAt(b, ".", x);
    }
    FindUnique(b, ".", 0, None);
  }

  /** Digits at every index of a range are the digits of the slice, and back. */
  lemma {:induction false} DigitsOfRun(s: string, a: nat, c: nat)
    requires a <= c <= |s|
    ensures AllDigits(s[a..c]) <==> forall x :: a <= x < c ==> IsDigit(s[x])
  {
    if forall x :: a <= x < c ==> IsDigit(s[x]) {
      forall y | 0 <= y < c - a ensures IsDigit(s[a..c][y]) {
        assert s[a..c][y] == s[a + y];
      }
    }
    if AllDigits(s[a..c]) {
      forall x | a <= x < c ensures IsDigit(s[x]) {
        assert s[x] == s[a..c][x - a];
      }
    }
  }

  /** Conversely, wherever a numeral is followed by a letter, the pattern
      matches that very numeral and the longest run of letters after it. */
  lemma {:induction false} MatchComplete(s: string, i: nat, m: nat)
    requires i < m < |s| && IsNumeral(s[i..m]) && IsLetter(s[m])
    ensures MatchAt(s, i) == Some((m, LettersEnd(s, m)))
  {
    var t := s[i..m];
    var j := if s[i] == '-' then i + 1 else i;
    assert t[0] == s[i];
    assert Unminus(t) == s[j..m];
    UnsignedComplete(s, i, j, m);
  }

  /** `MatchComplete` once the sign is dealt with. */
  lemma {:induction false} UnsignedComplete(s: string, i: nat, j: nat, m: nat)
    requires i <= j <= m < |s| && j == (if s[i] == '-' then i + 1 else i)
    requires IsUnsigned(s[j..m]) && IsLetter(s[m])
    ensures MatchAt(s, i) == Some((m, LettersEnd(s, m)))
  {
    var b := s[j..m];
    match Find(b, ".", 0)
    case None =>
      DigitsOfRun(s, j, m);
      MatchOfDigits(s, i, j, m);
    case Some(p) =>
      assert s[j] == b[0];
      PointRuns(s, j, m, p);
      MatchOfPoint(s, i, j, j + p, m);
  }

  /** The digits around the point of a numeral, as indices of `s`. */
  lemma {:induction false} PointRuns(s: string, j: nat, m: nat, p: nat)
    requires j <= m <= |s| && Find(s[j..m], ".", 0) == Some(p)
    requires j < m && IsDigit(s[j]) && AllDigits(s[j..m][..p]) && AllDigits(s[j..m][p + 1..])
    ensures 0 < p && j + p < m && s[j + p] == '.'
    ensures forall x :: j <= x < j + p ==> IsDigit(s[x])
    ensures forall x :: j + p < x < m ==> IsDigit(s[x])
  {
    var b := s[j..m];
    assert b[p..p + 1] == ".";
    assert b[p] == s[j + p];
    assert b[0] == s[j];
    assert b[..p] == s[j..j + p];
    assert b[p + 1..] == s[j + p + 1..m];
    DigitsOfRun(s, j, j + p);
    DigitsOfRun(s, j + p + 1, m);
  }

  /** The pattern on sign, digits, letters. */
  lemma {:induction false} MatchOfDigits(s: string, i: nat, j: nat, m: nat)
    requires i < m < |s| && j == (if s[i] == '-' then i + 1 else i) && j < m && IsLetter(s[m])
    requires forall x :: j <= x < m ==> IsDigit(s[x])
    ensures MatchAt(s, i) == Some((m, LettersEnd(s, m)))
  {
    DigitsEndAt(s, j, m);
  }

  /** The pattern on sign, digits, point, digits, letters. */
  lemma {:induction false} MatchOfPoint(s: string, i: nat, j: nat, k: nat, m: nat)
    requires i <= j < k < m < |s| && j == (if s[i] == '-' then i + 1 else i) && s[k] == '.' && IsLetter(s[m])
    requires forall x :: j <= x < k ==> IsDigit(s[x])
    requires forall x :: k < x < m ==> IsDigit(s[x])
    ensures MatchAt(s, i) == Some((m, LettersEnd(s, m)))
  {
    DigitsEndAt(s, j, k);
    DigitsEndAt(s, k + 1, m);
  }

  /** The greedy digit run from `j` stops at the first non-digit. */
  lemma {:induction false} DigitsEndAt(s: string, j: nat, k: nat)
    requires j <= k <= |s| && (k == |s| || !IsDigit(s[k]))
    requires forall x :: j <= x < k ==> IsDigit(s[x])
    ensures DigitsEnd(s, j) == k
    decreases k - j
  {
    if j < k {
      DigitsEndAt(s, j + 1, k);
    }
  }

  /** The leftmost match is the first position that matches. */
  lemma {:induction false} FindMatchAt(s: string, from: nat, i: nat)
    requires from <= i <= |s| && MatchAt(s, i).Some?
    requires forall j :: from <= j < i ==> MatchAt(s, j).None?
    ensures FindMatch(s, from) == Some((i, MatchAt(s, i).value.0, MatchAt(s, i).value.1))
    decreases i - from
  {
    if from < i {
      FindMatchAt(s, from + 1, i);
    }
  }

  // ---------------------------------------------------------------------
  // The number

  /** A numeral has no surrounding white space and no plus sign, so
      `int` and `float` read it whole. */
  lemma {:induction false} NumeralParses(t: string)
    requires IsNumeral(t)
    ensures Contains(t, ".") ==> ParseFloat(t).Ok?
    ensures !Contains(t, ".") ==> ParseInt(t).Ok?
  {
    var b := Unminus(t);
    assert |t| > 0 && !IsSpace(t[0]) && !IsSpace(t[|t| - 1]) by {
      assert t[|t| - 1] == b[|b| - 1];
      match Find(b, ".", 0)
      case None =>
      case Some(p) =>
        if p + 1 < |b| {
          assert b[|b| - 1] == b[p + 1..][|b| - p - 2];
        } else {
          assert b[p..p + 1] == ".";
        }
    }
    StripUnpadded(t);
    assert Unsign(t).1 == b;
    PointInNumeral(t);
  }

  /** `'.' in num` looks at the numeral without its sign. */
  lemma {:induction false} PointInNumeral(t: string)
    ensures Contains(t, ".") <==> Find(Unminus(t), ".", 0).Some?
  {
    var b := Unminus(t);
    ContainsIffFound(b, ".");
    if |t| > 0 && t[0] == '-' {
      assert t == "-" + b;
      if Contains(t, ".") {
        var x :| 0 <= x <= |t| && OccursAt(t, ".", x);
        NotOccursAt(t, ".", 0);
        OccursInSuffix(t, ".", 1, x - 1);
      }
      if Contains(b, ".") {
        var x :| 0 <= x <= |b| && OccursAt(b, ".", x);
        OccursInSuffix(t, ".", 1, x);
      }
    }
  }

  /** `str(n)` is an int numeral and reads back as `n`. */
  lemma {:induction false} IntNumeral(n: int)
    ensures IsNumeral(IntToString(n)) && !Contains(IntToString(n), ".")
    ensures NumeralValue(IntToString(n)) == IntNum(n)
  {
    var t := IntToString(n);
    var b := Unminus(t);
    UnsignRendering(n);
    assert b == NatToString(if n < 0 then -n else n);
    forall x | 0 <= x < |b| ensures !OccursAt(b, ".", x) {
      NotOccursAt(b, ".", x);
    }
    FindUnique(b, ".", 0, None);
    PointInNumeral(t);
    ParseIntToString(n);
  }

  // ---------------------------------------------------------------------
  // split_string

  /** The result is read off the leftmost position where a numeral is
      followed by letters: the numeral's value and the longest run of
      letters after it. */
  lemma {:induction false} SplitStringAt(s: string, i: nat, m: nat, e: nat)
    requires i < m < e <= |s| && IsNumeral(s[i..m]) && AllLetters(s[m..e]) && (e == |s| || !IsLetter(s[e]))
    requires forall j :: 0 <= j < i ==> MatchAt(s, j).None?
    ensures SplitString(s) == Measure(NumeralValue(s[i..m]), s[m..e])
  {
    assert IsLetter(s[m..e][0]);
    MatchComplete(s, i, m);
    LettersEndAt(s, m, e);
    FindMatchAt(s, 0, i);
  }

  /** The greedy letter run from `m` stops at the first non-letter. */
  lemma {:induction false} LettersEndAt(s: string, m: nat, e: nat)
    requires m <= e <= |s| && AllLetters(s[m..e]) && (e == |s| || !IsLetter(s[e]))
    ensures LettersEnd(s, m) == e
    decreases e - m
  {
    if m < e {
      assert IsLetter(s[m..e][0]);
      assert s[m + 1..e] == s[m..e][1..];
      LettersEndAt(s, m + 1, e);
    }
  }

  /** An int rendered in front of its unit splits back into the two. */
  lemma {:induction false} SplitStringRoundTrip(n: int, unit: string)
    requires |unit| > 0 && AllLetters(unit)
    ensures SplitString(IntToString(n) + unit) == Measure(IntNum(n), unit)
  {
    var t := IntToString(n);
    var s := t + unit;
    IntNumeral(n);
    ConcatHalves(t, unit);
    SplitStringAt(s, 0, |t|, |s|);
  }

  /** `str(n) + "."` is a float numeral and reads back as `n`. */
  lemma {:induction false} PointNumeral(n: int)
    ensures IsNumeral(IntToString(n) + ".") && Contains(IntToString(n) + ".", ".")
    ensures NumeralValue(IntToString(n) + ".") == FloatNum(n as real)
  {
    var t := IntToString(n) + ".";
    var body := NatToString(if n < 0 then -n else n);
    UnsignRendering(n);
    assert Unminus(t) == body + "." by {
      assert t[0] == IntToString(n)[0];
      if n < 0 {
        assert t[1..] == IntToString(n)[1..] + ".";
      }
    }
    PointAfterDigits(body);
    assert (body + ".")[..|body|] == body;
    assert (body + ".")[0] == body[0];
    PointInNumeral(t);
    ParseFloatTrailingPoint(n);
  }

  /** A point with no digits after it still makes a float, "13.dB"
      giving 13.0. */
  lemma {:induction false} SplitStringTrailingPoint(n: int, unit: string)
    requires |unit| > 0 && AllLetters(unit)
    ensures SplitString(IntToString(n) + "." + unit) == Measure(FloatNum(n as real), unit)
  {
    var t := IntToString(n) + ".";
    var s := t + unit;
    PointNumeral(n);
    ConcatHalves(t, unit);
    SplitStringAt(s, 0, |t|, |s|);
  }

  /** A numeral needs a digit before its point: the match in ".5dB"
      starts after the point, giving the int 5. */
  lemma {:induction false} SplitStringLeadingPoint(n: nat, unit: string)
    requires |unit| > 0 && AllLetters(unit)
    ensures SplitString("." + IntToString(n) + unit) == Measure(IntNum(n), unit)
  {
    var t := IntToString(n);
    var s := "." + t + unit;
    NoMatchAtPoint(s);
    IntNumeral(n);
    ConcatThirds(".", t, unit);
    SplitStringAt(s, 1, 1 + |t|, |s|);
  }

  /** Nothing matches at a point: the pattern starts with a digit or a minus. */
  lemma {:induction false} NoMatchAtPoint(s: string)
    requires |s| > 0 && s[0] == '.'
    ensures MatchAt(s, 0).None?
  {
    assert DigitsEnd(s, 0) == 0;
  }
}

=== FILE: keys.dfy ===
/** The `STATE_` and `CONFIG_` key constants the drivers dispatch on
    (imported from core/constants.py, which is not part of this model). Only
    their identity matters: the drivers compare keys for equality and use
    them as dictionary keys, so they are modelled as an enumeration. */
module Keys {

  datatype Key =
    | StateGain | StateTilt | StateInputPower | StateOutputPower | StateService
    | ConfigGain | ConfigTilt | ConfigOutputEnabled | ConfigRange | ConfigMode | ConfigPower
    | Other(name: string)  // any other string passed as a key
}

=== FILE: liveness.dfy ===
/** `CiscoEDFA35.is_socket_closed` (cisco/driver.py): a non-blocking peek
    at the socket, classified. The peek itself is I/O; what it can come back
    with is a parameter. */
module Liveness {

  /** What `sock.recv(16, MSG_DONTWAIT | MSG_PEEK)` does: return some bytes
      (possibly none), or raise. */
  datatype PeekOutcome =
    | Received(count: nat)   // the peek returned `count` bytes
    | WouldBlock             // BlockingIOError
    | ConnectionReset        // ConnectionResetError
    | OtherError             // any other exception

  /** The socket counts as closed exactly when the peer has shut the
      connection down in an orderly way (zero bytes) or has reset it; data
      waiting, a peek that would block and any unexpected failure all read
      as open. */
  function IsSocketClosed(p: PeekOutcome): (closed: bool)
    ensures closed <==> p == Received(0) || p == ConnectionReset
  {
    match p
    case Received(n) => n == 0
    case WouldBlock => false
    case ConnectionReset => true
    case OtherError => false
  }
}

=== FILE: modes.dfy ===
/** The operating modes of the Cisco EDFA cards and their codec: register
    (21, 1) holds 0, 1 or 2 for constant current, constant power and
    constant gain; the drivers speak of them by name, case-insensitively
    on the way in. */
module Modes {
  import opened Wrappers
  import opened Text

  datatype Mode = ConstantCurrent | ConstantPower | ConstantGain

  function Name(m: Mode): string {
    match m
    case ConstantCurrent => "constant_current"
    case ConstantPower => "constant_power"
    case ConstantGain => "constant_gain"
  }

  function Code(m: Mode): int {
    match m
    case ConstantCurrent => 0
    case ConstantPower => 1
    case ConstantGain => 2
  }

  /** `get_mode`'s decoding of the register value. */
  function OfCode(c: int): (r: Option<Mode>)
    ensures r.Some? <==> 0 <= c <= 2
  {
    if c == 0 then Some(ConstantCurrent)
    else if c == 1 then Some(ConstantPower)
    else if c == 2 then Some(ConstantGain)
    else None
  }

  /** `set_mode`'s recognition of a name, after `mode.lower()`. */
  function OfName(s: string): Option<Mode> {
    var l := Lower(s);
    if l == "constant_current" then Some(ConstantCurrent)
    else if l == "constant_power" then Some(ConstantPower)
    else if l == "constant_gain" then Some(ConstantGain)
    else None
  }

  /** Mode names are already lower case. */
  lemma {:induction false} NameIsLower(m: Mode)
    ensures Lower(Name(m)) == Name(m)
  {
    assert forall i :: 0 <= i < |Name(m)| ==> !('A' <= Name(m)[i] <= 'Z');
  }

  /** Decoding is exactly the inverse of encoding. */
  lemma {:induction false} OfCodeExact(c: int, m: Mode)
    ensures OfCode(c) == Some(m) <==> Code(m) == c
  {
  }

  /** A name is recognised as `m` exactly when it lower-cases to `m`'s name. */
  lemma {:induction false} OfNameExact(s: string, m: Mode)
    ensures OfName(s) == Some(m) <==> Lower(s) == Name(m)
  {
  }

  /** Names and codes both round-trip. */
  lemma {:induction false} CodecRoundTrip(m: Mode)
    ensures OfCode(Code(m)) == Some(m)
    ensures OfName(Name(m)) == Some(m)
  {
    NameIsLower(m);
  }
}

=== FILE: numerals.dfy ===
/** Decimal numerals as the drivers produce and consume them: Python's
    `str(n)` on an int, `int(s)` and `float(s)` on a str, and the
    truncation toward zero that `numpy.int32(x)` and `int(x)` apply to a
    float. */
module Numerals {
  import opened Wrappers
  import opened Text

  predicate IsDigit(c: char) {
    '0' <= c <= '9'
  }

  predicate AllDigits(s: string) {
    forall i :: 0 <= i < |s| ==> IsDigit(s[i])
  }

  function DigitChar(d: nat): (c: char)
    requires d < 10
    ensures IsDigit(c) && c as int - '0' as int == d
  {
    (d + '0' as int) as char
  }

  function DigitValue(c: char): nat
    requires IsDigit(c)
  {
    c as int - '0' as int
  }

  /** Decimal digits of `n`, most significant first, without leading zeros. */
  function NatToString(n: nat): (r: string)
    ensures |r| >= 1 && AllDigits(r)
    decreases n
  {
    if n < 10 then [DigitChar(n)] else NatToString(n / 10) + [DigitChar(n % 10)]
  }

  /** Python's `str(n)` for an int: an optional minus sign, then digits. */
  function IntToString(n: int): (r: string)
    ensures |r| >= 1
    ensures forall i :: 0 <= i < |r| ==> IsDigit(r[i]) || (i == 0 && r[i] == '-')
  {
    if n < 0 then "-" + NatToString(-n) else NatToString(n)
  }

  /** The value of a string of decimal digits (0 for the empty string). */
  function DigitsValue(s: string): nat
    requires AllDigits(s)
    decreases |s|
  {
    if |s| == 0 then 0 else 10 * DigitsValue(s[..|s| - 1]) + DigitValue(s[|s| - 1])
  }

  lemma {:induction false} DigitsOfNat(n: nat)
    ensures DigitsValue(NatToString(n)) == n
    decreases n
  {
    if n >= 10 {
      var s := NatToString(n);
      assert s[..|s| - 1] == NatToString(n / 10);
      DigitsOfNat(n / 10);
    }
  }

  /** The ASCII characters Python's `str.isspace()` accepts, which
      `str.strip()`, `int()` and `float()` remove from both ends: tab,
      line feed, vertical tab, form feed, carriage return, the four
      information separators 0x1C to 0x1F, and space. */
  predicate IsSpace(c: char) {
    (9 <= c as int <= 13) || (28 <= c as int <= 31) || c == ' '
  }

  function StripLeft(s: string): string
    decreases |s|
  {
    if |s| > 0 && IsSpace(s[0]) then StripLeft(s[1..]) else s
  }

  function StripRight(s: string): string
    decreases |s|
  {
    if |s| > 0 && IsSpace(s[|s| - 1]) then StripRight(s[..|s| - 1]) else s
  }

  /** Python's `s.strip()` over ASCII white space. */
  function Strip(s: string): string {
    StripRight(StripLeft(s))
  }

  /** A string that neither starts nor ends with white space is its own strip. */
  lemma {:induction false} StripUnpadded(s: string)
    requires |s| > 0 && !IsSpace(s[0]) && !IsSpace(s[|s| - 1])
    ensures Strip(s) == s
  {
  }

  /** One leading space does not change what `strip()` leaves of an
      unpadded string. */
  lemma {:induction false} StripLeadingSpace(s: string)
    requires |s| > 0 && !IsSpace(s[0]) && !IsSpace(s[|s| - 1])
    ensures Strip(" " + s) == s
  {
    assert (" " + s)[1..] == s;
    assert StripLeft(" " + s) == StripLeft(s) == s;
    StripUnpadded(s);
  }

  /** Splits an optional leading sign off a numeral: (negative?, rest). */
  function Unsign(t: string): (bool, string) {
    if |t| > 0 && (t[0] == '-' || t[0] == '+') then (t[0] == '-', t[1..]) else (false, t)
  }

  /** Python's `int(s)` on a str, restricted to ASCII decimal numerals:
      surrounding ASCII white space, an optional sign, then one or more
      ASCII digits. Every other text is a ValueError here, including forms
      Python accepts: digit groups joined by '_', non-ASCII digits and
      non-ASCII white space. */
  function ParseInt(s: string): Result<int> {
    var (neg, body) := Unsign(Strip(s));
    if |body| == 0 || !AllDigits(body) then Err(ValueError)
    else
      var magnitude: int := DigitsValue(body);
      Ok(if neg then -magnitude else magnitude)
  }

  function Pow10(k: nat): (r: nat)
    ensures r >= 1
  {
    if k == 0 then 1 else 10 * Pow10(k - 1)
  }

  /** Python's `float(s)` on a str, restricted to plain decimal numerals:
      ASCII white space, an optional sign, ASCII digits with at most one
      decimal point and at least one digit. Every other text is a
      ValueError here, including forms Python accepts: an exponent
      (`1e3`), `inf`, `infinity` and `nan` in any case, '_' between
      digits, non-ASCII digits and non-ASCII white space. */
  function ParseFloat(s: string): Result<real> {
    var (neg, body) := Unsign(Strip(s));
    var magnitude: Result<real> :=
      match Find(body, ".", 0)
      case None =>
        if |body| == 0 || !AllDigits(body) then Err(ValueError)
        else Ok(DigitsValue(body) as real)
      case Some(i) =>
        var whole := body[..i];
        var frac := body[i + 1..];
        if |whole| + |frac| == 0 || !AllDigits(whole) || !AllDigits(frac) then Err(ValueError)
        else Ok(DigitsValue(whole) as real + DigitsValue(frac) as real / Pow10(|frac|) as real);
    if magnitude.Err? then magnitude
    else Ok(if neg then -magnitude.value else magnitude.value)
  }

  /** `str(n)` splits into its sign and the digits of `abs(n)`. */
  lemma {:induction false} UnsignRendering(n: int)
    ensures Unsign(IntToString(n)) == (n < 0, NatToString(if n < 0 then -n else n))
  {
    if n < 0 {
      assert IntToString(n)[1..] == NatToString(-n);
    }
  }

  /** `int(str(n)) == n`. */
  lemma {:induction false} ParseIntToString(n: int)
    ensures ParseInt(IntToString(n)) == Ok(n)
  {
    StripUnpadded(IntToString(n));
    UnsignRendering(n);
    DigitsOfNat(if n < 0 then -n else n);
  }

  /** `float(str(n)) == n`. */
  lemma {:induction false} ParseFloatToString(n: int)
    ensures ParseFloat(IntToString(n)) == Ok(n as real)
  {
    StripUnpadded(IntToString(n));
    UnsignRendering(n);
    var body := NatToString(if n < 0 then -n else n);
    DigitsOfNat(if n < 0 then -n else n);
    AvoidsNoOccurrence(body, '.');
    ContainsIffFound(body, ".");
  }

  /** `float(str(n) + ".") == n`: a point with no digits after it. */
  lemma {:induction false} ParseFloatTrailingPoint(n: int)
    ensures ParseFloat(IntToString(n) + ".") == Ok(n as real)
  {
    var t := IntToString(n) + ".";
    var m: nat := if n < 0 then -n else n;
    var body := NatToString(m);
    assert t[0] == IntToString(n)[0] && t[|t| - 1] == '.';
    StripUnpadded(t);
    UnsignRendering(n);
    assert Unsign(t).1 == body + "." by {
      if n < 0 {
        assert t[1..] == IntToString(n)[1..] + ".";
      }
    }
    DigitsOfNat(m);
    ParseFloatOfPoint(t, n < 0, body);
  }

  /** A float whose text, stripped and unsigned, is digits and a point. */
  lemma {:induction false} ParseFloatOfPoint(s: string, neg: bool, body: string)
    requires Unsign(Strip(s)) == (neg, body + ".") && |body| > 0 && AllDigits(body)
    ensures ParseFloat(s) == Ok(if neg then -(DigitsValue(body) as real) else DigitsValue(body) as real)
  {
    PointAfterDigits(body);
    assert (body + ".")[..|body|] == body;
    assert (body + ".")[|body| + 1..] == "";
  }

  /** The only point of `digits + "."` is the last character. */
  lemma {:induction false} PointAfterDigits(body: string)
    requires AllDigits(body)
    ensures Find(body + ".", ".", 0) == Some(|body|)
  {
    var b := body + ".";
    assert b[|body|..|body| + 1] == ".";
    forall k | 0 <= k < |body| ensures !OccursAt(b, ".", k) {
      assert b[k] == body[k];
      NotOccursAt(b, ".", k);
    }
    FindUnique(b, ".", 0, Some(|body|));
  }

  /** `int(" " + str(n)) == n`: the padding is stripped. */
  lemma {:induction false} ParseIntPadded(n: int)
    ensures ParseInt(" " + IntToString(n)) == Ok(n)
  {
    StripLeadingSpace(IntToString(n));
    StripUnpadded(IntToString(n));
    ParseIntToString(n);
  }

  /** `int(c + str(n)) == n` for any white-space character `c`, the
      information separators included: `int("\x1c5") == 5`. */
  lemma {:induction false} ParseIntPaddedBy(c: char, n: int)
    requires IsSpace(c)
    ensures ParseInt([c] + IntToString(n)) == Ok(n)
  {
    var t := IntToString(n);
    ParseIntPadded(n);
    assert ([c] + t)[1..] == t == (" " + t)[1..];
    assert StripLeft([c] + t) == StripLeft(" " + t);
  }

  /** `float(" " + str(n)) == n`. */
  lemma {:induction false} ParseFloatPadded(n: int)
    ensures ParseFloat(" " + IntToString(n)) == Ok(n as real)
  {
    StripLeadingSpace(IntToString(n));
    StripUnpadded(IntToString(n));
    ParseFloatToString(n);
  }

  /** Truncation toward zero: numpy's `int32(x)` and Python's `int(x)` on a
      float, before any range limit. */
  function Trunc(x: real): (r: int)
    ensures x >= 0.0 ==> r as real <= x < r as real + 1.0
    ensures x < 0.0 ==> r as real - 1.0 < x <= r as real
  {
    if x >= 0.0 then x.Floor else -((-x).Floor)
  }

  /** Truncation commutes with negation. */
  lemma {:induction false} TruncNegate(x: real)
    ensures Trunc(-x) == -Trunc(x)
  {
  }

  /** Truncation leaves whole numbers alone. */
  lemma {:induction false} TruncWhole(n: int)
    ensures Trunc(n as real) == n
  {
  }
}

=== FILE: omi_amplifier.dfy ===
/** `EDFA17OmiInterface` and `EDFA35OmiInterface` (cisco/omi_interfaces.py):
    one fixed register per quantity, values on the wire in tenths, and the
    mode codec. The two classes differ only in what `get_mode` does with
    an unknown code; the EDFA35 one stores a direction and never uses it. */
module OmiAmplifier {
  import opened Wrappers
  import opened Text
  import opened Numerals
  import opened Anchors
  import opened OmiFraming
  import opened OmiDevice
  import Modes

  datatype Card = Edfa17 | Edfa35(direction: int)

  /** What the getters read. */
  datatype Quantity = Gain | Tilt | InputPower | OutputPower | TotSignalOutPower | Voa

  /** The fields each getter reads. */
  function Fields(q: Quantity): seq<int> {
    match q
    case Gain => [30, 1, 0]
    case Tilt => [33, 1, 0]
    case InputPower => [41, 1, 0]
    case OutputPower => [42, 1, 0]
    case TotSignalOutPower => [42, 2, 0]
    case Voa => [29, 1, 0]
  }

  /** The start anchor each getter spells out. */
  function Anchor(q: Quantity): string {
    match q
    case Gain => "omi_read(30, 1, 0)\n\rI32-Value is:"
    case Tilt => "omi_read(33, 1, 0)\n\rI32-Value is:"
    case InputPower => "omi_read(41, 1, 0)\n\rI32-Value is:"
    case OutputPower => "omi_read(42, 1, 0)\n\rI32-Value is:"
    case TotSignalOutPower => "omi_read(42, 2, 0)\n\rI32-Value is:"
    case Voa => "omi_read(29, 1, 0)\n\rI32-Value is:"
  }

  const ModeFields: seq<int> := [21, 1, 1, 1, 0]
  const ModeAnchor: string := "omi_read(21, 1, 1, 1, 0)\n\rI32-Value is:"

  /** `float(text) / 10`: a value on the wire in tenths. */
  function Tenths(text: string): Result<real> {
    match ParseFloat(text)
    case Err(e) => Err(e)
    case Ok(x) => Ok(x / 10.0)
  }

  /** `int32(x * 10)`: a physical value as tenths, truncated toward zero. */
  function ToTenths(x: real): int {
    Trunc(10.0 * x)
  }

  /** `get_gain`, `get_tilt`, `get_input_power`, `get_output_power`,
      `get_tot_signal_out_power`, `get_voa`: read, cut after the echo of
      the read, take the text as tenths. The getters spell their anchors
      out (`Anchor`); `GetQuantityAsWritten` shows that is the same cut. */
  function GetQuantity(d: Device, q: Quantity): Step<real> {
    InTenths(ReadText(d, Fields(q), StartAnchor(Fields(q))))
  }

  /** The text a read cut out, taken as tenths. */
  function InTenths(st: Step<string>): Step<real> {
    match st.out
    case Err(e) => Step(st.dev, Err(e))
    case Ok(text) => Step(st.dev, Tenths(text))
  }

  /** What a getter makes of a register holding `v`: `float(str(v)) / 10`.
      `ReadingIsTenths` shows it is `v` tenths. */
  function Reading(v: int): Result<real> {
    Tenths(IntToString(v))
  }

  /** A read that cut out a rendered value, taken as tenths. */
  lemma {:induction false} InTenthsOfRendering(st: Step<string>, v: int)
    requires st.out == Ok(IntToString(v))
    ensures InTenths(st) == Step(st.dev, Reading(v))
  {
  }

  /** A read of a reported register, taken as tenths, is its value over ten. */
  lemma {:induction false} ReadInTenths(d: Device, fields: seq<int>, anchor: string, key: (int, int))
    requires anchor == StartAnchor(fields) && Clean(d, fields)
    requires RegisterOf(fields) == Some(key) && key in d.regs
    ensures InTenths(ReadText(d, fields, anchor)).out == Reading(d.regs[key])
    ensures InTenths(ReadText(d, fields, anchor)).dev ==
            d.(trace := d.trace + [ReadCommand(fields, Cr)], pending := "")
  {
    ReadTextValue(d, fields, anchor, key);
    InTenthsOfRendering(ReadText(d, fields, anchor), d.regs[key]);
  }

  /** `get_mode`: the code read back, decoded; an unknown code is an
      unbound local on the EDFA17 card and `'null'` on the EDFA35 card. */
  function GetMode(card: Card, d: Device): Step<string> {
    DecodeMode(card, ReadText(d, ModeFields, StartAnchor(ModeFields)))
  }

  /** The text a mode read cut out, as `int()` and the mode table take it. */
  function DecodeMode(card: Card, st: Step<string>): Step<string> {
    match st.out
    case Err(e) => Step(st.dev, Err(e))
    case Ok(text) =>
      match ParseInt(text)
      case Err(e) => Step(st.dev, Err(e))
      case Ok(c) =>
        match Modes.OfCode(c)
        case Some(m) => Step(st.dev, Ok(Modes.Name(m)))
        case None => Step(st.dev, if card.Edfa17? then Err(UnboundLocalError) else Ok("null"))
  }

  /** A mode read that cut out a rendered code decodes it. */
  lemma {:induction false} DecodeModeOfRendering(card: Card, st: Step<string>, c: int)
    requires st.out == Ok(IntToString(c))
    ensures DecodeMode(card, st).out ==
            match Modes.OfCode(c)
            case Some(m) => Ok(Modes.Name(m))
            case None => if card.Edfa17? then Err(UnboundLocalError) else Ok("null")
  {
    ParseIntToString(c);
  }

  /** On a clean socket, `get_mode` decodes what register (21, 1) holds. */
  lemma {:induction false} GetModeValue(card: Card, d: Device)
    requires Clean(d, ModeFields) && (21, 1) in d.regs
    ensures GetMode(card, d).out ==
            match Modes.OfCode(d.regs[(21, 1)])
            case Some(m) => Ok(Modes.Name(m))
            case None => if card.Edfa17? then Err(UnboundLocalError) else Ok("null")
  {
    ReadTextValue(d, ModeFields, StartAnchor(ModeFields), (21, 1));
    DecodeModeOfRendering(card, ReadText(d, ModeFields, StartAnchor(ModeFields)), d.regs[(21, 1)]);
  }

  /** `set_mode`: a recognised name writes its code to (21, 1, 1, 1); any
      other leaves `mode_field` unbound before anything is sent. */
  function SetMode(d: Device, mode: string): Step<()> {
    match Modes.OfName(mode)
    case Some(m) => Step(Write(d, 21, 1, 1, 1, Modes.Code(m)), Ok(()))
    case None => Step(d, Err(UnboundLocalError))
  }

  function SetGain(d: Device, gain: real): Device {
    Write(d, 30, 1, 1, 1, ToTenths(gain))
  }

  function SetTilt(d: Device, tilt: real): Device {
    Write(d, 33, 1, 1, 1, ToTenths(tilt))
  }

  function SetOutputPower(d: Device, power: real): Device {
    Write(d, 42, 2, 1, 1, ToTenths(power))
  }

  function SetVoa(d: Device, attenuation: real): Device {
    Write(d, 29, 1, 1, 1, ToTenths(attenuation))
  }

  /** `set_current`: the first stage, then the second. */
  function SetCurrent(d: Device, current1: real, current2: real): Device {
    Write(Write(d, 24, 1, 1, 1, ToTenths(current1)), 24, 2, 1, 1, ToTenths(current2))
  }

  /** The getters as written, cutting at their spelled-out anchors, are
      the getters modelled here. */
  lemma {:induction false} GetQuantityAsWritten(d: Device, q: Quantity)
    ensures GetQuantity(d, q) == InTenths(ReadText(d, Fields(q), Anchor(q)))
  {
    AnchorsAreEchoes(q);
  }

  lemma {:induction false} GetModeAsWritten(card: Card, d: Device)
    ensures GetMode(card, d) == DecodeMode(card, ReadText(d, ModeFields, ModeAnchor))
  {
    ModeAnchorIsEcho();
  }

  /** The argument text of a three-field read, spelled out. */
  lemma {:induction false} ArgText3(a: int, b: int, c: int)
    ensures ArgText([a, b, c]) == IntToString(a) + ", " + (IntToString(b) + ", " + IntToString(c))
  {
    var r := Renders([a, b, c]);
    assert r == [IntToString(a), IntToString(b), IntToString(c)];
    JoinOf3(IntToString(a), IntToString(b), IntToString(c), ", ");
  }

  /** Every getter's spelled-out anchor is the echo of its own read
      followed by the value marker. */
  lemma {:induction false} AnchorsAreEchoes(q: Quantity)
    ensures Anchor(q) == StartAnchor(Fields(q))
  {
    match q
    case Gain => AnchorGain();
    case Tilt => AnchorTilt();
    case InputPower => AnchorInputPower();
    case OutputPower => AnchorOutputPower();
    case TotSignalOutPower => AnchorTotSignalOutPower();
    case Voa => AnchorVoa();
  }

  lemma {:induction false} AnchorGain()
    ensures Anchor(Gain) == StartAnchor([30, 1, 0])
  {
    EchoGain();
    SpelledStartAnchor([30, 1, 0], Anchor(Gain), 18);
  }

  lemma {:induction false} EchoGain()
    ensures ReadEcho([30, 1, 0]) == "omi_read(30, 1, 0)"
  {
    ArgsGain();
  }

  lemma {:induction false} ArgsGain()
    ensures ArgText([30, 1, 0]) == "30, 1, 0"
  {
    Numeral30();
    Numeral1();
    Numeral0();
    ArgText3(30, 1, 0);
  }

  lemma {:induction false} AnchorTilt()
    ensures Anchor(Tilt) == StartAnchor([33, 1, 0])
  {
    EchoTilt();
    SpelledStartAnchor([33, 1, 0], Anchor(Tilt), 18);
  }

  lemma {:induction false} EchoTilt()
    ensures ReadEcho([33, 1, 0]) == "omi_read(33, 1, 0)"
  {
    ArgsTilt();
  }

  lemma {:induction false} ArgsTilt()
    ensures ArgText([33, 1, 0]) == "33, 1, 0"
  {
    Numeral33();
    Numeral1();
    Numeral0();
    ArgText3(33, 1, 0);
  }

  lemma {:induction false} AnchorInputPower()
    ensures Anchor(InputPower) == StartAnchor([41, 1, 0])
  {
    EchoInputPower();
    SpelledStartAnchor([41, 1, 0], Anchor(InputPower), 18);
  }

  lemma {:induction false} EchoInputPower()
    ensures ReadEcho([41, 1, 0]) == "omi_read(41, 1, 0)"
  {
    ArgsInputPower();
  }

  lemma {:induction false} ArgsInputPower()
    ensures ArgText([41, 1, 0]) == "41, 1, 0"
  {
    Numeral41();
    Numeral1();
    Numeral0();
    ArgText3(41, 1, 0);
  }

  lemma {:induction false} AnchorOutputPower()
    ensures Anchor(OutputPower) == StartAnchor([42, 1, 0])
  {
    EchoOutputPower();
    SpelledStartAnchor([42, 1, 0], Anchor(OutputPower), 18);
  }

  lemma {:induction false} EchoOutputPower()
    ensures ReadEcho([42, 1, 0]) == "omi_read(42, 1, 0)"
  {
    ArgsOutputPower();
  }

  lemma {:induction false} ArgsOutputPower()
    ensures ArgText([42, 1, 0]) == "42, 1, 0"
  {
    Numeral42();
    Numeral1();
    Numeral0();
    ArgText3(42, 1, 0);
  }

  lemma {:induction false} AnchorTotSignalOutPower()
    ensures Anchor(TotSignalOutPower) == StartAnchor([42, 2, 0])
  {
    EchoTotSignalOutPower();
    SpelledStartAnchor([42, 2, 0], Anchor(TotSignalOutPower), 18);
  }

  lemma {:induction false} EchoTotSignalOutPower()
    ensures ReadEcho([42, 2, 0]) == "omi_read(42, 2, 0)"
  {
    ArgsTotSignalOutPower();
  }

  lemma {:induction false} ArgsTotSignalOutPower()
    ensures ArgText([42, 2, 0]) == "42, 2, 0"
  {
    Numeral42();
    Numeral2();
    Numeral0();
    ArgText3(42, 2, 0);
  }

  lemma {:induction false} AnchorVoa()
    ensures Anchor(Voa) == StartAnchor([29, 1, 0])
  {
    EchoVoa();
    SpelledStartAnchor([29, 1, 0], Anchor(Voa), 18);
  }

  lemma {:induction false} EchoVoa()
    ensures ReadEcho([29, 1, 0]) == "omi_read(29, 1, 0)"
  {
    ArgsVoa();
  }

  lemma {:induction false} ArgsVoa()
    ensures ArgText([29, 1, 0]) == "29, 1, 0"
  {
    Numeral29();
    Numeral1();
    Numeral0();
    ArgText3(29, 1, 0);
  }

  lemma {:induction false} Numeral0()
    ensures IntToString(0) == "0"
  {
  }

  lemma {:induction false} Numeral1()
    ensures IntToString(1) == "1"
  {
  }

  lemma {:induction false} Numeral2()
    ensures IntToString(2) == "2"
  {
  }

  lemma {:induction false} Numeral21()
    ensures IntToString(21) == "21"
  {
    assert NatToString(2) == "2";
  }

  lemma {:induction false} Numeral29()
    ensures IntToString(29) == "29"
  {
    assert NatToString(2) == "2";
  }

  lemma {:induction false} Numeral30()
    ensures IntToString(30) == "30"
  {
    assert NatToString(3) == "3";
  }

  lemma {:induction false} Numeral33()
    ensures IntToString(33) == "33"
  {
    assert NatToString(3) == "3";
  }

  lemma {:induction false} Numeral41()
    ensures IntToString(41) == "41"
  {
    assert NatToString(4) == "4";
  }

  lemma {:induction false} Numeral42()
    ensures IntToString(42) == "42"
  {
    assert NatToString(4) == "4";
  }

  /** The mode getter's anchor is the echo of its read as well. */
  lemma {:induction false} ModeAnchorIsEcho()
    ensures ModeAnchor == StartAnchor(ModeFields)
  {
    ModeEcho();
    SpelledStartAnchor(ModeFields, ModeAnchor, 24);
  }

  lemma {:induction false} ModeEcho()
    ensures ReadEcho(ModeFields) == "omi_read(21, 1, 1, 1, 0)"
  {
    ModeArgs();
  }

  lemma {:induction false} ModeArgs()
    ensures ArgText(ModeFields) == "21, 1, 1, 1, 0"
  {
    ModeRenders();
    JoinOf5("21", "1", "1", "1", "0", ", ");
  }

  lemma {:induction false} ModeRenders()
    ensures Renders(ModeFields) == ["21", "1", "1", "1", "0"]
  {
    Numeral21();
    Numeral1();
    Numeral0();
  }

  lemma {:induction false} JoinOf5(x: string, y: string, z: string, u: string, v: string, sep: string)
    ensures Join([x, y, z, u, v], sep) == x + sep + (y + sep + (z + sep + (u + sep + v)))
  {
    assert [x, y, z, u, v][1..] == [y, z, u, v];
    assert [y, z, u, v][1..] == [z, u, v];
    JoinOf3(z, u, v, sep);
  }

  /** A spelled-out anchor is a start anchor when it is the echo of the
      read followed by the value marker. */
  lemma {:induction false} SpelledStartAnchor(fields: seq<int>, lit: string, n: nat)
    requires n <= |lit| && lit[..n] == ReadEcho(fields) && lit[n..] == ValueMarker
    ensures lit == StartAnchor(fields)
  {
    assert lit == lit[..n] + lit[n..];
  }

  /** The register each setter writes and each getter reads. */
  function Register(q: Quantity): (int, int) {
    (Fields(q)[0], Fields(q)[1])
  }

  /** A register value reads back as that many tenths. */
  lemma {:induction false} ReadingIsTenths(v: int)
    ensures Reading(v) == Ok(v as real / 10.0)
  {
    ParseFloatToString(v);
  }

  /** Every register value reads back without error. */
  lemma {:induction false} ReadingOk(v: int)
    ensures Reading(v).Ok?
  {
    ReadingIsTenths(v);
  }

  /** On a clean socket, a getter returns its register's value in tenths,
      sends exactly its read command and changes no register. */
  lemma {:induction false} GetQuantityValue(d: Device, q: Quantity)
    requires Clean(d, Fields(q)) && Register(q) in d.regs
    ensures GetQuantity(d, q).out == Reading(d.regs[Register(q)])
    ensures GetQuantity(d, q).dev == d.(trace := d.trace + [ReadCommand(Fields(q), Cr)], pending := "")
  {
    ReadInTenths(d, Fields(q), StartAnchor(Fields(q)), Register(q));
  }

  /** A getter fails with IndexError, having sent its read, when the card
      does not report its register. */
  lemma {:induction false} GetQuantityMissing(d: Device, q: Quantity)
    requires d.pending == "" && Register(q) !in d.regs
    ensures GetQuantity(d, q).out == Err(IndexError)
    ensures GetQuantity(d, q).dev.trace == d.trace + [ReadCommand(Fields(q), Cr)]
  {
    ReadTextMissing(d, Fields(q));
  }

  /** Tenths keep a value to within a tenth, rounding toward zero, and
      keep a value exactly if and only if it has at most one decimal. */
  lemma {:induction false} TenthsRoundTrip(x: real)
    ensures x >= 0.0 ==> ToTenths(x) as real / 10.0 <= x < ToTenths(x) as real / 10.0 + 0.1
    ensures x < 0.0 ==> ToTenths(x) as real / 10.0 - 0.1 < x <= ToTenths(x) as real / 10.0
    ensures (10.0 * x).Floor as real == 10.0 * x ==> ToTenths(x) as real / 10.0 == x
    ensures ToTenths(x) as real / 10.0 == x ==> (10.0 * x).Floor as real == 10.0 * x
  {
    if (10.0 * x).Floor as real == 10.0 * x {
      TruncWhole((10.0 * x).Floor);
    }
  }

  /** A getter right after a write returns the value written when the
      write hit its register, and the value held before otherwise. */
  lemma {:induction false} GetAfterWrite(d: Device, q: Quantity, f0: int, f1: int, f2: int, f3: int, value: int)
    requires Register(q) == (f0, f1) || Register(q) in d.regs
    ensures GetQuantity(Write(d, f0, f1, f2, f3, value), q).out ==
            Reading(if Register(q) == (f0, f1) then value else d.regs[Register(q)])
    ensures GetQuantity(Write(d, f0, f1, f2, f3, value), q).dev.trace ==
            d.trace + [WriteCommand(f0, f1, f2, f3, value, Cr), ReadCommand(Fields(q), Cr)]
  {
    var fields := Fields(q);
    ReadAfterWrite(d, f0, f1, f2, f3, value, fields, StartAnchor(fields), Register(q));
    InTenthsOfRendering(ReadText(Write(d, f0, f1, f2, f3, value), fields, StartAnchor(fields)),
                        if Register(q) == (f0, f1) then value else d.regs[Register(q)]);
  }

  /** Set then get: the gain, tilt and VOA getters read back the written
      tenths, with the write and the read, in that order, on the wire. */
  lemma {:induction false} SetThenGet(d: Device, q: Quantity, x: real)
    requires q == Gain || q == Tilt || q == Voa
    ensures var w := if q == Gain then SetGain(d, x) else if q == Tilt then SetTilt(d, x) else SetVoa(d, x);
            && GetQuantity(w, q).out == Reading(ToTenths(x))
            && GetQuantity(w, q).dev.trace ==
               d.trace + [WriteCommand(Register(q).0, Register(q).1, 1, 1, ToTenths(x), Cr), ReadCommand(Fields(q), Cr)]
  {
    GetAfterWrite(d, q, Register(q).0, Register(q).1, 1, 1, ToTenths(x));
  }

  /** The output power setter writes (42, 2), the register the
      total-signal getter reads, so that getter reads it back; the output
      power getter reads (42, 1), which the setter leaves as it was. */
  lemma {:induction false} OutputPowerRegisters(d: Device, q: Quantity, x: real)
    requires q == TotSignalOutPower || (q == OutputPower && Register(q) in d.regs)
    ensures GetQuantity(SetOutputPower(d, x), q).out ==
            Reading(if q == TotSignalOutPower then ToTenths(x) else d.regs[Register(q)])
  {
    GetAfterWrite(d, q, 42, 2, 1, 1, ToTenths(x));
  }

  /** `set_current` writes the first stage and then the second, and
      touches no other register. */
  lemma {:induction false} SetCurrentWrites(d: Device, c1: real, c2: real)
    ensures SetCurrent(d, c1, c2).trace ==
            d.trace + [WriteCommand(24, 1, 1, 1, ToTenths(c1), Cr), WriteCommand(24, 2, 1, 1, ToTenths(c2), Cr)]
    ensures SetCurrent(d, c1, c2).regs[(24, 1)] == ToTenths(c1)
    ensures SetCurrent(d, c1, c2).regs[(24, 2)] == ToTenths(c2)
    ensures forall key :: key in d.regs && key != (24, 1) && key != (24, 2) ==>
              key in SetCurrent(d, c1, c2).regs && SetCurrent(d, c1, c2).regs[key] == d.regs[key]
  {
  }

  /** An unrecognised mode name sends nothing and fails. */
  lemma {:induction false} SetModeUnknown(d: Device, mode: string)
    requires forall m: Modes.Mode :: Lower(mode) != Modes.Name(m)
    ensures SetMode(d, mode) == Step(d, Err(UnboundLocalError))
  {
    if Modes.OfName(mode).Some? {
      Modes.OfNameExact(mode, Modes.OfName(mode).value);
    }
  }

  /** Set then get mode: a recognised name comes back lower-cased, on
      either card. */
  lemma {:induction false} SetModeThenGet(card: Card, d: Device, mode: string)
    requires SetMode(d, mode).out.Ok?
    ensures GetMode(card, SetMode(d, mode).dev).out == Ok(Lower(mode))
  {
    var m := Modes.OfName(mode).value;
    Modes.OfNameExact(mode, m);
    var w := SetMode(d, mode).dev;
    assert w == Write(d, 21, 1, 1, 1, Modes.Code(m));
    DrainedIsClean(w, ModeFields);
    GetModeValue(card, w);
    Modes.CodecRoundTrip(m);
  }

  /** An unknown code read back: the EDFA17 card fails, the EDFA35 card
      answers `'null'`. */
  lemma {:induction false} GetModeUnknown(card: Card, d: Device)
    requires Clean(d, ModeFields) && (21, 1) in d.regs && !(0 <= d.regs[(21, 1)] <= 2)
    ensures GetMode(card, d).out == (if card.Edfa17? then Err(UnboundLocalError) else Ok("null"))
  {
    GetModeValue(card, d);
  }
}

=== FILE: omi_device.dfy ===
/** The socket side of an OMI card, abstracted: the values its registers
    report, the commands sent to it, and the bytes received but not yet
    read. `_omi_read` and `_omi_write` (cisco/omi_interfaces.py) are the
    only two ways the drivers touch it; both end by draining the socket, so
    nothing is left pending. The drain and the reply cut are helpers
    imported from a package outside this repository; they are taken to
    behave like `clear_buffer` and `get_string_between` in cisco/utils.py.
    `Read` returns the whole reply; `ReadTextRecv` adds the source's single
    `recv(4096)`, and the two agree whenever the reply fits in it. */
module OmiDevice {
  import opened Wrappers
  import opened Text
  import opened Numerals
  import opened Anchors
  import opened OmiFraming

  /** `regs` maps (register, sub-field) to the value the card reports for
      it; `trace` is every command sent, oldest first; `pending` is what
      the next receive returns before the card's own reply. */
  datatype Device = Device(regs: map<(int, int), int>, trace: seq<string>, pending: string)

  /** What an operation leaves the device as, and what it returns or raises. */
  datatype Step<T> = Step(dev: Device, out: Result<T>)

  /** The register a read or a write addresses: its first two fields. */
  function RegisterOf(fields: seq<int>): Option<(int, int)> {
    if |fields| >= 2 then Some((fields[0], fields[1])) else None
  }

  /** The card's answer to a read: the echo carrying the register's value,
      or nothing for a register it does not report. */
  function Reply(d: Device, fields: seq<int>): string {
    match RegisterOf(fields)
    case Some(key) => if key in d.regs then EchoReply(fields, d.regs[key]) else ""
    case None => ""
  }

  /** `_omi_read`: send the read, receive, drain the socket. */
  function Read(d: Device, fields: seq<int>): (Device, string) {
    (d.(trace := d.trace + [ReadCommand(fields, Cr)], pending := ""), d.pending + Reply(d, fields))
  }

  /** `_omi_write`: send the write, drain the socket; the addressed
      register now reports the value written. */
  function Write(d: Device, f0: int, f1: int, f2: int, f3: int, value: int): Device {
    d.(regs := d.regs[(f0, f1) := value],
       trace := d.trace + [WriteCommand(f0, f1, f2, f3, value, Cr)],
       pending := "")
  }

  /** A getter's first half: read, then cut the reply between `anchor` and
      the end marker. */
  function ReadText(d: Device, fields: seq<int>, anchor: string): Step<string> {
    var (d', reply) := Read(d, fields);
    Step(d', GetStringBetween(reply, anchor, CompletedMarker))
  }

  /** The buffer size every getter passes to `_omi_read`. */
  const RecvSize: nat := 4096

  /** One `recv(RecvSize)`: at most the first `RecvSize` characters of what
      is waiting; the drain that follows discards the rest. */
  function Recv(waiting: string): (r: string)
    ensures |r| == if |waiting| <= RecvSize then |waiting| else RecvSize
    ensures r == waiting[..|r|]
  {
    if |waiting| <= RecvSize then waiting else waiting[..RecvSize]
  }

  /** `ReadText` with the reply limited to one `recv(RecvSize)`, as
      `_omi_read` receives it. */
  function ReadTextRecv(d: Device, fields: seq<int>, anchor: string): Step<string> {
    var (d', reply) := Read(d, fields);
    Step(d', GetStringBetween(Recv(reply), anchor, CompletedMarker))
  }

  /** When the pending bytes and the card's reply fit in one receive, the
      limited read is the whole read. */
  lemma {:induction false} RecvAgrees(d: Device, fields: seq<int>, anchor: string)
    requires |d.pending| + |Reply(d, fields)| <= RecvSize
    ensures ReadTextRecv(d, fields, anchor) == ReadText(d, fields, anchor)
  {
  }

  /** When `RecvSize` or more stale bytes without the read's start anchor are
      pending, the one receive holds nothing else and the cut raises
      IndexError, whatever the card reports; the drain still discards the
      card's reply. */
  lemma {:induction false} RecvOverflow(d: Device, fields: seq<int>)
    requires |d.pending| >= RecvSize && !Contains(d.pending, StartAnchor(fields))
    ensures ReadTextRecv(d, fields, StartAnchor(fields)).out == Err(IndexError)
    ensures ReadTextRecv(d, fields, StartAnchor(fields)).dev == d.(trace := d.trace + [ReadCommand(fields, Cr)], pending := "")
  {
    var got := Recv(d.pending + Reply(d, fields));
    assert got == d.pending[..RecvSize];
    forall k | 0 <= k <= |got| ensures !OccursAt(got, StartAnchor(fields), k) {
      OccursInPrefix(d.pending, StartAnchor(fields), RecvSize, k);
    }
    assert StartAnchor(fields) != [] by {
      assert |ValueMarker| > 0;
    }
    SplitHasSecond(got, StartAnchor(fields));
  }

  /** No start anchor of this read begins inside the pending bytes. */
  predicate Clean(d: Device, fields: seq<int>) {
    forall k :: 0 <= k < |d.pending| ==> !OccursAt(d.pending + StartAnchor(fields), StartAnchor(fields), k)
  }

  /** Every read and write leaves the socket drained, so the next read is clean. */
  lemma {:induction false} DrainedIsClean(d: Device, fields: seq<int>)
    requires d.pending == ""
    ensures Clean(d, fields)
  {
  }

  /** A read of a register the card reports, cut at the read's own start
      anchor, yields that value's text, sends exactly the read command and
      changes no register. */
  lemma {:induction false} ReadTextValue(d: Device, fields: seq<int>, anchor: string, key: (int, int))
    requires anchor == StartAnchor(fields) && Clean(d, fields)
    requires RegisterOf(fields) == Some(key) && key in d.regs
    ensures ReadText(d, fields, anchor).out == Ok(IntToString(d.regs[key]))
    ensures ReadText(d, fields, anchor).dev == d.(trace := d.trace + [ReadCommand(fields, Cr)], pending := "")
  {
    EchoValueAfter(d.pending, fields, d.regs[key]);
  }

  /** The one receive of a read of a reported register, when what is
      waiting fits, yields the value's text. */
  lemma {:induction false} ReadTextValueRecv(d: Device, fields: seq<int>, key: (int, int))
    requires Clean(d, fields) && RegisterOf(fields) == Some(key) && key in d.regs
    requires |d.pending| + |EchoReply(fields, d.regs[key])| <= RecvSize
    ensures ReadTextRecv(d, fields, StartAnchor(fields)).out == Ok(IntToString(d.regs[key]))
  {
    RecvAgrees(d, fields, StartAnchor(fields));
    ReadTextValue(d, fields, StartAnchor(fields), key);
  }

  /** Where the two reads part: with `RecvSize` stale bytes and no anchor
      among them, the whole reply still holds the value, but the one
      receive of `_omi_read` does not. */
  lemma {:induction false} RecvLimitMatters(d: Device, fields: seq<int>, key: (int, int))
    requires Clean(d, fields) && !Contains(d.pending, StartAnchor(fields)) && |d.pending| >= RecvSize
    requires RegisterOf(fields) == Some(key) && key in d.regs
    ensures ReadText(d, fields, StartAnchor(fields)).out == Ok(IntToString(d.regs[key]))
    ensures ReadTextRecv(d, fields, StartAnchor(fields)).out == Err(IndexError)
  {
    ReadTextValue(d, fields, StartAnchor(fields), key);
    RecvOverflow(d, fields);
  }

  /** A read of a register the card does not report fails with IndexError. */
  lemma {:induction false} ReadTextMissing(d: Device, fields: seq<int>)
    requires !Contains(d.pending, StartAnchor(fields))
    requires RegisterOf(fields).None? || RegisterOf(fields).value !in d.regs
    ensures ReadText(d, fields, StartAnchor(fields)).out == Err(IndexError)
  {
    assert d.pending + Reply(d, fields) == d.pending;
  }

  /** A complete stale echo left pending is read instead of the register. */
  lemma {:induction false} ReadTextStale(d: Device, fields: seq<int>, stale: int)
    requires d.pending == EchoReply(fields, stale)
    requires RegisterOf(fields).Some? && RegisterOf(fields).value in d.regs
    ensures ReadText(d, fields, StartAnchor(fields)).out == Ok(IntToString(stale))
  {
    StaleEchoShadows(fields, stale, d.regs[RegisterOf(fields).value]);
  }

  /** A read right after a write returns the value written when it reads
      the written register, and the value held before otherwise; the wire
      carries the write and then the read. */
  lemma {:induction false} ReadAfterWrite(d: Device, f0: int, f1: int, f2: int, f3: int, value: int,
                       fields: seq<int>, anchor: string, key: (int, int))
    requires anchor == StartAnchor(fields) && RegisterOf(fields) == Some(key)
    requires key == (f0, f1) || key in d.regs
    ensures ReadText(Write(d, f0, f1, f2, f3, value), fields, anchor).out ==
            Ok(IntToString(if key == (f0, f1) then value else d.regs[key]))
    ensures ReadText(Write(d, f0, f1, f2, f3, value), fields, anchor).dev.trace ==
            d.trace + [WriteCommand(f0, f1, f2, f3, value, Cr), ReadCommand(fields, Cr)]
  {
    var w := Write(d, f0, f1, f2, f3, value);
    DrainedIsClean(w, fields);
    ReadTextValue(w, fields, anchor, key);
  }

  /** A write is read back by any read of the same register, and moves no
      other register. */
  lemma {:induction false} WriteThenRead(d: Device, f0: int, f1: int, f2: int, f3: int, value: int, fields: seq<int>)
    requires |fields| >= 2
    ensures var w := Write(d, f0, f1, f2, f3, value);
            (fields[0], fields[1]) == (f0, f1) ==>
              ReadText(w, fields, StartAnchor(fields)).out == Ok(IntToString(value))
    ensures forall key :: key != (f0, f1) && key in d.regs ==>
              key in Write(d, f0, f1, f2, f3, value).regs && Write(d, f0, f1, f2, f3, value).regs[key] == d.regs[key]
  {
    var w := Write(d, f0, f1, f2, f3, value);
    if (fields[0], fields[1]) == (f0, f1) {
      ReadTextValue(w, fields, StartAnchor(fields), (f0, f1));
    }
  }
}

=== FILE: omi_framing.dfy ===
/** The OMI wire format of the Cisco cards (`_omi_read`, `_omi_write` and
    `_ocm_raw_read` in cisco/omi_interfaces.py): the text of the commands,
    the device's echo around a value, and the start and end anchors the
    getters cut a value out with. */
module OmiFraming {
  import opened Wrappers
  import opened Text
  import opened Numerals
  import opened Anchors

  /** What ends a command: a carriage return on the amplifier's socket, a
      line feed on the WXC Telnet session. */
  datatype Terminator = Cr | Lf

  function TerminatorChar(t: Terminator): char {
    match t
    case Cr => '\r'
    case Lf => '\n'
  }

  /** `str(f)` of every field, in order. */
  function Renders(fields: seq<int>): (r: seq<string>)
    ensures |r| == |fields|
    ensures forall i :: 0 <= i < |r| ==> r[i] == IntToString(fields[i])
  {
    seq(|fields|, i requires 0 <= i < |fields| => IntToString(fields[i]))
  }

  /** Python's `str(list)` of a list of ints. */
  function ListRepr(fields: seq<int>): string {
    "[" + Join(Renders(fields), ", ") + "]"
  }

  /** The argument text of a read: the fields joined by a comma and a space. */
  function ArgText(fields: seq<int>): string {
    Join(Renders(fields), ", ")
  }

  /** The device's echo of a read command, without its terminator. */
  function ReadEcho(fields: seq<int>): string {
    "omi_read(" + ArgText(fields) + ")"
  }

  /** The command `_omi_read` sends. */
  function ReadCommand(fields: seq<int>, t: Terminator): string {
    ReadEcho(fields) + [TerminatorChar(t)]
  }

  /** The command `_omi_write` sends: five fields, commas, no spaces. */
  function WriteCommand(f0: int, f1: int, f2: int, f3: int, value: int, t: Terminator): string {
    "omi_write(" + Join(Renders([f0, f1, f2, f3, value]), ",") + ")" + [TerminatorChar(t)]
  }

  /** The command `_ocm_raw_read` sends. */
  function OcmReadCommand(fields: seq<int>): string {
    "ocm_raw_read " + ArgText(fields) + "\r"
  }

  const ValueMarker: string := "\n\rI32-Value is:"
  const CompletedMarker: string := "\n\rCompleted"

  /** A getter's start anchor: the echo of its own read, then the value marker. */
  function StartAnchor(fields: seq<int>): string {
    ReadEcho(fields) + ValueMarker
  }

  /** The device's reply to a read of a register holding `value`. */
  function EchoReply(fields: seq<int>, value: int): string {
    StartAnchor(fields) + IntToString(value) + CompletedMarker
  }

  /** The argument text is what `get_string_between(str(fields), '[', ']')`
      computes. */
  lemma {:induction false} ArgTextOfListRepr(fields: seq<int>)
    ensures GetStringBetween(ListRepr(fields), "[", "]") == Ok(ArgText(fields))
  {
    var v := ArgText(fields);
    var s := "" + "[" + v + "]" + "";
    assert s == ListRepr(fields);
    RendersAvoid(fields, '[');
    JoinAvoids(Renders(fields), ", ", '[');
    RendersAvoid(fields, ']');
    JoinAvoids(Renders(fields), ", ", ']');
    forall k | 0 <= k < 1 + |v| + 1 && k != 0 ensures !OccursAt(s, "[", k) {
      NotOccursAt(s, "[", k);
    }
    forall k | 0 <= k < |v| ensures !OccursAt(v + "]", "]", k) {
      NotOccursAt(v + "]", "]", k);
    }
    GetStringBetweenRoundTrip("", "[", v, "]", "");
  }

  /** The rendering of an int holds only digits and a leading minus sign. */
  lemma {:induction false} RendersAvoid(fields: seq<int>, c: char)
    requires !IsDigit(c) && c != '-'
    ensures forall i :: 0 <= i < |fields| ==> Avoids(Renders(fields)[i], c)
  {
  }

  /** Python's `int()` of every piece, failing if any piece fails. */
  function ParseAll(pieces: seq<string>): (r: Option<seq<int>>)
    ensures r.Some? ==> |r.value| == |pieces|
    ensures r.Some? ==> forall i :: 0 <= i < |pieces| ==> ParseInt(pieces[i]) == Ok(r.value[i])
    ensures r.None? ==> exists i :: 0 <= i < |pieces| && ParseInt(pieces[i]).Err?
    decreases |pieces|
  {
    if |pieces| == 0 then Some([])
    else
      match ParseInt(pieces[0])
      case Err(_) => None
      case Ok(n) =>
        match ParseAll(pieces[1..])
        case None => None
        case Some(rest) => Some([n] + rest)
  }

  lemma {:induction false} ParseAllRenders(fields: seq<int>)
    ensures ParseAll(Renders(fields)) == Some(fields)
    decreases |fields|
  {
    if |fields| > 0 {
      var r := Renders(fields);
      ParseIntToString(fields[0]);
      assert r[0] == IntToString(fields[0]);
      assert r[1..] == Renders(fields[1..]);
      ParseAllRenders(fields[1..]);
      assert ParseAll(r) == Some([fields[0]] + fields[1..]);
      assert fields == [fields[0]] + fields[1..];
    }
  }

  function TerminatorOf(c: char): Option<Terminator> {
    if c == '\r' then Some(Cr) else if c == '\n' then Some(Lf) else None
  }

  /** The fields of an argument text; the empty text has none. */
  function ParseArgs(args: string, sep: string): Option<seq<int>>
    requires |sep| > 0
  {
    if args == "" then Some([]) else ParseAll(Split(args, sep))
  }

  /** Reads back the fields and terminator of a read command. */
  function ParseReadCommand(cmd: string): Option<(seq<int>, Terminator)> {
    var head := "omi_read(";
    if |cmd| < |head| + 2 || cmd[..|head|] != head || cmd[|cmd| - 2] != ')' then None
    else
      match (TerminatorOf(cmd[|cmd| - 1]), ParseArgs(cmd[|head|..|cmd| - 2], ", "))
      case (Some(t), Some(fields)) => Some((fields, t))
      case _ => None
  }

  /** Reads back the five fields and terminator of a write command. */
  function ParseWriteCommand(cmd: string): Option<(seq<int>, Terminator)> {
    var head := "omi_write(";
    if |cmd| < |head| + 2 || cmd[..|head|] != head || cmd[|cmd| - 2] != ')' then None
    else
      match (TerminatorOf(cmd[|cmd| - 1]), ParseArgs(cmd[|head|..|cmd| - 2], ","))
      case (Some(t), Some(fields)) => if |fields| == 5 then Some((fields, t)) else None
      case _ => None
  }

  /** The argument text parses back to the fields. */
  lemma {:induction false} ArgsRoundTrip(fields: seq<int>, sep: string)
    requires |sep| > 0 && !IsDigit(sep[0]) && sep[0] != '-'
    ensures ParseArgs(Join(Renders(fields), sep), sep) == Some(fields)
  {
    if |fields| == 0 {
    } else {
      RendersAvoid(fields, sep[0]);
      SplitJoin(Renders(fields), sep);
      ParseAllRenders(fields);
      assert |Join(Renders(fields), sep)| >= |IntToString(fields[0])| > 0 by {
        JoinHead(Renders(fields), sep);
      }
    }
  }

  lemma {:induction false} JoinHead(parts: seq<string>, sep: string)
    requires |parts| >= 1
    ensures |Join(parts, sep)| >= |parts[0]|
  {
  }

  /** The parts of a command the parsers take apart. */
  lemma {:induction false} FramedParts(head: string, args: string, c: char)
    ensures var cmd := head + args + ")" + [c];
            && |cmd| == |head| + |args| + 2
            && cmd[..|head|] == head
            && cmd[|cmd| - 2] == ')' && cmd[|cmd| - 1] == c
            && cmd[|head|..|cmd| - 2] == args
  {
    var cmd := head + args + ")" + [c];
    assert cmd == head + (args + (")" + [c]));
    assert cmd[|head|..] == args + (")" + [c]);
    assert cmd[|head|..|cmd| - 2] == cmd[|head|..][..|args|];
  }

  /** A read command determines its fields and its terminator. */
  lemma {:induction false} ReadCommandRoundTrip(fields: seq<int>, t: Terminator)
    ensures ParseReadCommand(ReadCommand(fields, t)) == Some((fields, t))
  {
    FramedParts("omi_read(", ArgText(fields), TerminatorChar(t));
    ArgsRoundTrip(fields, ", ");
  }

  /** A write command determines its five fields and its terminator. */
  lemma {:induction false} WriteCommandRoundTrip(f0: int, f1: int, f2: int, f3: int, value: int, t: Terminator)
    ensures ParseWriteCommand(WriteCommand(f0, f1, f2, f3, value, t)) == Some(([f0, f1, f2, f3, value], t))
  {
    FramedParts("omi_write(", Join(Renders([f0, f1, f2, f3, value]), ","), TerminatorChar(t));
    ArgsRoundTrip([f0, f1, f2, f3, value], ",");
  }

  /** Distinct reads, writes or terminators give distinct commands, and no
      read command is a write command. */
  lemma {:induction false} CommandsDistinct(fields: seq<int>, t: Terminator, g: seq<int>, u: Terminator,
                         f0: int, f1: int, f2: int, f3: int, value: int, w: Terminator)
    ensures ReadCommand(fields, t) == ReadCommand(g, u) ==> fields == g && t == u
    ensures ReadCommand(fields, t) != WriteCommand(f0, f1, f2, f3, value, w)
  {
    ReadCommandRoundTrip(fields, t);
    ReadCommandRoundTrip(g, u);
    assert ReadCommand(fields, t)[4] == 'r';
    assert WriteCommand(f0, f1, f2, f3, value, w)[4] == 'w';
  }

  /** The WXC session frames a command exactly like the amplifier socket,
      up to the last character. */
  lemma {:induction false} WxcFraming(fields: seq<int>, f0: int, f1: int, f2: int, f3: int, value: int)
    ensures |ReadCommand(fields, Lf)| == |ReadCommand(fields, Cr)|
    ensures ReadCommand(fields, Lf)[..|ReadCommand(fields, Cr)| - 1] ==
            ReadCommand(fields, Cr)[..|ReadCommand(fields, Cr)| - 1]
    ensures ReadCommand(fields, Lf)[|ReadCommand(fields, Cr)| - 1] == '\n'
    ensures ReadCommand(fields, Cr)[|ReadCommand(fields, Cr)| - 1] == '\r'
    ensures |WriteCommand(f0, f1, f2, f3, value, Lf)| == |WriteCommand(f0, f1, f2, f3, value, Cr)|
    ensures WriteCommand(f0, f1, f2, f3, value, Lf)[..|WriteCommand(f0, f1, f2, f3, value, Cr)| - 1] ==
            WriteCommand(f0, f1, f2, f3, value, Cr)[..|WriteCommand(f0, f1, f2, f3, value, Cr)| - 1]
    ensures WriteCommand(f0, f1, f2, f3, value, Lf)[|WriteCommand(f0, f1, f2, f3, value, Cr)| - 1] == '\n'
  {
    var e := ReadEcho(fields);
    assert ReadCommand(fields, Lf)[..|e|] == e == ReadCommand(fields, Cr)[..|e|];
    var w := "omi_write(" + Join(Renders([f0, f1, f2, f3, value]), ",") + ")";
    assert WriteCommand(f0, f1, f2, f3, value, Lf)[..|w|] == w == WriteCommand(f0, f1, f2, f3, value, Cr)[..|w|];
  }

  /** The start anchor is the read command with its terminator replaced by
      the value marker. */
  lemma {:induction false} StartAnchorOfCommand(fields: seq<int>, t: Terminator)
    ensures StartAnchor(fields) ==
            ReadCommand(fields, t)[..|ReadCommand(fields, t)| - 1] + "\n\rI32-Value is:"
  {
    assert ReadCommand(fields, t)[..|ReadCommand(fields, t)| - 1] == ReadEcho(fields);
  }

  /** Only the first character of a start anchor is an `o`. */
  lemma {:induction false} StartAnchorTail(fields: seq<int>)
    ensures StartAnchor(fields)[0] == 'o'
    ensures forall k :: 0 < k < |StartAnchor(fields)| ==> StartAnchor(fields)[k] != 'o'
    ensures |StartAnchor(fields)| > |CompletedMarker| + 2
  {
    RendersAvoid(fields, 'o');
    JoinAvoids(Renders(fields), ", ", 'o');
    OnlyLeadingO(ArgText(fields));
  }

  lemma {:induction false} OnlyLeadingO(a: string)
    requires Avoids(a, 'o')
    ensures var s := "omi_read(" + a + ")" + ValueMarker;
            s[0] == 'o' && forall k :: 0 < k < |s| ==> s[k] != 'o'
  {
    var s := "omi_read(" + a + ")" + ValueMarker;
    forall k | 0 < k < |s| ensures s[k] != 'o' {
      if k < 9 {
        assert s[k] == "omi_read("[k];
      } else if k < 9 + |a| {
        assert s[k] == a[k - 9];
      } else if k == 9 + |a| {
        assert s[k] == ')';
      } else {
        assert s[k] == ValueMarker[k - 10 - |a|];
      }
    }
  }

  /** In an echo, no further start anchor begins before the end marker is through. */
  lemma {:induction false} EchoNoRestart(fields: seq<int>, value: int, post: string)
    ensures var e := StartAnchor(fields) + IntToString(value) + CompletedMarker + post;
            forall k :: 0 < k < |StartAnchor(fields)| + |IntToString(value)| + |CompletedMarker| ==>
              !OccursAt(e, StartAnchor(fields), k)
  {
    var a := StartAnchor(fields);
    var v := IntToString(value);
    var e := a + v + CompletedMarker + post;
    StartAnchorTail(fields);
    forall k | 0 < k < |a| + |v| + |CompletedMarker| ensures !OccursAt(e, a, k) {
      if k < |a| {
        assert e[k] == a[k];
        NotOccursAt(e, a, k);
      } else if k < |a| + |v| {
        assert e[k] == v[k - |a|];
        NotOccursAt(e, a, k);
      } else if k == |a| + |v| + 3 {
        assert e[k + 2] == 'p';
        assert a[2] == 'i';
        NotOccursAtOffset(e, a, k, 2);
      } else {
        assert e[k] == CompletedMarker[k - |a| - |v|];
        NotOccursAt(e, a, k);
      }
    }
  }

  /** Stale bytes in which no start anchor begins do not let one begin
      before the echo behind them. */
  lemma {:induction false} NoRestartBehind(stale: string, e: string, a: string, n: nat)
    requires |a| <= |e| && e[..|a|] == a
    requires forall k :: 0 <= k < |stale| ==> !OccursAt(stale + a, a, k)
    requires forall k :: 0 < k < n ==> !OccursAt(e, a, k)
    ensures forall k :: 0 <= k < |stale| + n && k != |stale| ==> !OccursAt(stale + e, a, k)
  {
    var s := stale + e;
    assert s[..|stale| + |a|] == stale + a;
    assert s[|stale|..] == e;
    forall k | 0 <= k < |stale| + n && k != |stale| ensures !OccursAt(s, a, k) {
      if k < |stale| {
        OccursInPrefix(s, a, |stale| + |a|, k);
      } else {
        OccursInSuffix(s, a, |stale|, k - |stale|);
      }
    }
  }

  lemma {:induction false} Regroup(p: string, a: string, v: string, c: string, q: string)
    ensures p + (a + v + c + q) == p + a + v + c + q
    ensures p + (a + v + c) + q == p + a + v + c + q
  {
  }

  /** No end marker begins inside a rendered value. */
  lemma {:induction false} ValueNoEnd(value: int)
    ensures forall k :: 0 <= k < |IntToString(value)| ==>
              !OccursAt(IntToString(value) + CompletedMarker, CompletedMarker, k)
  {
    var v := IntToString(value);
    forall k | 0 <= k < |v| ensures !OccursAt(v + CompletedMarker, CompletedMarker, k) {
      assert (v + CompletedMarker)[k] == v[k];
      NotOccursAt(v + CompletedMarker, CompletedMarker, k);
    }
  }

  /** Cutting an echo between the start anchor and the end marker yields
      the rendered value, whatever follows it and whatever stale bytes
      precede it, provided no start anchor begins inside those. */
  lemma {:induction false} EchoValueBetween(stale: string, fields: seq<int>, value: int, post: string)
    requires forall k :: 0 <= k < |stale| ==> !OccursAt(stale + StartAnchor(fields), StartAnchor(fields), k)
    ensures GetStringBetween(stale + EchoReply(fields, value) + post, StartAnchor(fields), CompletedMarker)
            == Ok(IntToString(value))
  {
    var a := StartAnchor(fields);
    var v := IntToString(value);
    var e := a + v + CompletedMarker + post;
    EchoNoRestart(fields, value, post);
    assert e[..|a|] == a;
    NoRestartBehind(stale, e, a, |a| + |v| + |CompletedMarker|);
    Regroup(stale, a, v, CompletedMarker, post);
    ValueNoEnd(value);
    GetStringBetweenRoundTrip(stale, a, v, CompletedMarker, post);
  }

  /** The same with nothing stale in front. */
  lemma {:induction false} EchoValue(fields: seq<int>, value: int, post: string)
    ensures GetStringBetween(EchoReply(fields, value) + post, StartAnchor(fields), CompletedMarker)
            == Ok(IntToString(value))
  {
    assert "" + EchoReply(fields, value) == EchoReply(fields, value);
    EchoValueBetween("", fields, value, post);
  }

  /** The same with nothing behind. */
  lemma {:induction false} EchoValueAfter(stale: string, fields: seq<int>, value: int)
    requires forall k :: 0 <= k < |stale| ==> !OccursAt(stale + StartAnchor(fields), StartAnchor(fields), k)
    ensures GetStringBetween(stale + EchoReply(fields, value), StartAnchor(fields), CompletedMarker)
            == Ok(IntToString(value))
  {
    assert stale + EchoReply(fields, value) + "" == stale + EchoReply(fields, value);
    EchoValueBetween(stale, fields, value, "");
  }

  /** Behind a complete stale echo of the same read, the stale value is
      what comes out: a reply left on the socket shadows the fresh one. */
  lemma {:induction false} StaleEchoShadows(fields: seq<int>, stale: int, current: int)
    ensures GetStringBetween(EchoReply(fields, stale) + EchoReply(fields, current), StartAnchor(fields), CompletedMarker)
            == Ok(IntToString(stale))
  {
    EchoValue(fields, stale, EchoReply(fields, current));
  }
}

=== FILE: text.dfy ===
/** Python string primitives the drivers rely on: substring search,
    `str.split` with an explicit separator, `sep.join`, `str.lower` and
    `str.replace(c, "")`, stated over `string` (= `seq<char>`). */
module Text {
  import opened Wrappers

  /** `pat` occurs in `s` starting at index `i`. */
  predicate OccursAt(s: string, pat: string, i: int) {
    0 <= i && i + |pat| <= |s| && s[i..i + |pat|] == pat
  }

  /** Python's `pat in s`. */
  predicate Contains(s: string, pat: string) {
    exists i :: 0 <= i <= |s| && OccursAt(s, pat, i)
  }

  /** Every character of `s` differs from `c`. */
  predicate Avoids(s: string, c: char) {
    forall i :: 0 <= i < |s| ==> s[i] != c
  }

  /** The least index at or after `from` where `pat` occurs in `s`. */
  function Find(s: string, pat: string, from: nat): (r: Option<nat>)
    ensures r.Some? ==> from <= r.value && OccursAt(s, pat, r.value)
    ensures forall k :: from <= k && (r.None? || k < r.value) ==> !OccursAt(s, pat, k)
    decreases |s| - from
  {
    if from + |pat| > |s| then None
    else if s[from..from + |pat|] == pat then Some(from)
    else Find(s, pat, from + 1)
  }

  /** `Find` is determined by where the occurrences are. */
  lemma {:induction false} FindUnique(s: string, pat: string, from: nat, r: Option<nat>)
    requires r.Some? ==> from <= r.value && OccursAt(s, pat, r.value)
    requires forall k :: from <= k && (r.None? || k < r.value) ==> !OccursAt(s, pat, k)
    ensures Find(s, pat, from) == r
  {
  }

  lemma {:induction false} ContainsIffFound(s: string, pat: string)
    ensures Contains(s, pat) <==> Find(s, pat, 0).Some?
  {
    if Contains(s, pat) {
      var i :| OccursAt(s, pat, i);
    }
  }

  /** An occurrence inside `s[m..]` is an occurrence inside `s`, shifted by `m`. */
  lemma {:induction false} OccursInSuffix(s: string, pat: string, m: nat, k: int)
    requires m <= |s|
    ensures OccursAt(s[m..], pat, k) <==> k >= 0 && OccursAt(s, pat, m + k)
  {
    if k >= 0 && m + k + |pat| <= |s| {
      assert s[m..][k..k + |pat|] == s[m + k..m + k + |pat|];
    }
  }

  /** An occurrence inside `s[..n]` is an occurrence inside `s` that ends by `n`. */
  lemma {:induction false} OccursInPrefix(s: string, pat: string, n: nat, k: int)
    requires n <= |s|
    ensures OccursAt(s[..n], pat, k) <==> OccursAt(s, pat, k) && k + |pat| <= n
  {
    if k >= 0 && k + |pat| <= n {
      assert s[..n][k..k + |pat|] == s[k..k + |pat|];
    }
  }

  /** An occurrence inside `s[a..b]` is an occurrence inside `s` that lies
      between `a` and `b`. */
  lemma {:induction false} OccursInSlice(s: string, pat: string, a: nat, b: nat, j: int)
    requires a <= b <= |s|
    ensures OccursAt(s[a..b], pat, j) <==> j >= 0 && OccursAt(s, pat, a + j) && a + j + |pat| <= b
  {
    assert s[a..b] == s[..b][a..];
    OccursInSuffix(s[..b], pat, a, j);
    OccursInPrefix(s, pat, b, a + j);
  }

  /** Searching a suffix is searching the whole string from the suffix's start. */
  lemma {:induction false} FindInSuffix(s: string, pat: string, m: nat, r: Option<nat>)
    requires m <= |s|
    requires Find(s, pat, m) == r
    ensures Find(s[m..], pat, 0) == (if r.Some? then Some(r.value - m) else None)
  {
    var r': Option<nat> := if r.Some? then Some(r.value - m) else None;
    if r'.Some? {
      OccursInSuffix(s, pat, m, r'.value);
    }
    forall k | 0 <= k && (r'.None? || k < r'.value)
      ensures !OccursAt(s[m..], pat, k)
    {
      OccursInSuffix(s, pat, m, k);
    }
    FindUnique(s[m..], pat, 0, r');
  }

  /** Python's `sep.join(parts)`. */
  function Join(parts: seq<string>, sep: string): string
    decreases |parts|
  {
    if |parts| == 0 then ""
    else if |parts| == 1 then parts[0]
    else parts[0] + sep + Join(parts[1..], sep)
  }

  /** Python's `s.split(sep)` for a non-empty separator: the pieces between
      the non-overlapping occurrences of `sep`, scanned left to right. */
  function Split(s: string, sep: string): (r: seq<string>)
    requires |sep| > 0
    ensures |r| >= 1
    decreases |s|
  {
    match Find(s, sep, 0)
    case None => [s]
    case Some(i) => [s[..i]] + Split(s[i + |sep|..], sep)
  }

  /** Joining the pieces of a split with the separator gives the string back. */
  lemma {:induction false} JoinSplit(s: string, sep: string)
    requires |sep| > 0
    ensures Join(Split(s, sep), sep) == s
    decreases |s|
  {
    match Find(s, sep, 0)
    case None =>
    case Some(i) =>
      var rest := s[i + |sep|..];
      JoinSplit(rest, sep);
      SplitStep(s, sep, i);
      JoinCons(s[..i], Split(rest, sep), sep);
      Rejoin(s, sep, i);
  }

  lemma {:induction false} JoinCons(x: string, rest: seq<string>, sep: string)
    requires |rest| >= 1
    ensures Join([x] + rest, sep) == x + sep + Join(rest, sep)
  {
    assert ([x] + rest)[1..] == rest;
  }

  /** Cutting out an occurrence and gluing the parts back around it. */
  lemma {:induction false} Rejoin(s: string, sep: string, i: nat)
    requires OccursAt(s, sep, i)
    ensures s[..i] + sep + s[i + |sep|..] == s
  {
    assert s == s[..i] + s[i..i + |sep|] + s[i + |sep|..];
  }

  /** No piece of a split contains the separator. */
  lemma {:induction false} SplitPiecesClean(s: string, sep: string)
    requires |sep| > 0
    ensures forall i :: 0 <= i < |Split(s, sep)| ==> !Contains(Split(s, sep)[i], sep)
    decreases |s|
  {
    match Find(s, sep, 0)
    case None =>
      ContainsIffFound(s, sep);
    case Some(i) =>
      SplitPiecesClean(s[i + |sep|..], sep);
      forall k ensures !OccursAt(s[..i], sep, k) {
        OccursInPrefix(s, sep, i, k);
      }
      assert Split(s, sep) == [s[..i]] + Split(s[i + |sep|..], sep);
  }

  /** The first piece of a split is the text before the first separator. */
  lemma {:induction false} SplitHeadCut(s: string, sep: string, j: nat)
    requires |sep| > 0
    requires Find(s, sep, 0) == Some(j)
    ensures Split(s, sep)[0] == s[..j]
  {
  }

  /** Without a separator the split is the whole string. */
  lemma {:induction false} SplitWhole(s: string, sep: string)
    requires |sep| > 0
    requires !Contains(s, sep)
    ensures Split(s, sep) == [s]
  {
    ContainsIffFound(s, sep);
  }

  /** One step of a split: the text before the first separator, then the
      split of the text after it. */
  lemma {:induction false} SplitStep(s: string, sep: string, i: nat)
    requires |sep| > 0
    requires Find(s, sep, 0) == Some(i)
    ensures Split(s, sep) == [s[..i]] + Split(s[i + |sep|..], sep)
  {
  }

  /** A split has a second piece exactly when the separator occurs. */
  lemma {:induction false} SplitHasSecond(s: string, sep: string)
    requires |sep| > 0
    ensures |Split(s, sep)| >= 2 <==> Contains(s, sep)
  {
    ContainsIffFound(s, sep);
  }

  /** The second piece of a split runs from the first separator to the next. */
  lemma {:induction false} SplitSecondCut(s: string, sep: string, i: nat, q: nat)
    requires |sep| > 0
    requires Find(s, sep, 0) == Some(i)
    requires Find(s, sep, i + |sep|) == Some(q)
    ensures |Split(s, sep)| >= 2
    ensures Split(s, sep)[1] == s[i + |sep|..q]
  {
    SplitRestHead(s, sep, i + |sep|, q);
    SplitStep(s, sep, i);
    SecondOfStep(s, sep, i, q);
  }

  /** The split of a suffix starts with the text up to the next separator. */
  lemma {:induction false} SplitRestHead(s: string, sep: string, p: nat, q: nat)
    requires |sep| > 0 && p <= |s|
    requires Find(s, sep, p) == Some(q)
    ensures p <= q <= |s|
    ensures Split(s[p..], sep)[0] == s[p..q]
  {
    FindInSuffix(s, sep, p, Some(q));
    SplitHeadCut(s[p..], sep, q - p);
    assert s[p..][..q - p] == s[p..q];
  }

  lemma {:induction false} SecondOfStep(s: string, sep: string, i: nat, q: nat)
    requires |sep| > 0
    requires i + |sep| <= q <= |s|
    requires Split(s, sep) == [s[..i]] + Split(s[i + |sep|..], sep)
    requires Split(s[i + |sep|..], sep)[0] == s[i + |sep|..q]
    ensures |Split(s, sep)| >= 2
    ensures Split(s, sep)[1] == s[i + |sep|..q]
  {
  }

  /** With a single separator, the second piece is everything after it. */
  lemma {:induction false} SplitSecondToEnd(s: string, sep: string, i: nat)
    requires |sep| > 0
    requires Find(s, sep, 0) == Some(i)
    requires Find(s, sep, i + |sep|).None?
    ensures |Split(s, sep)| >= 2
    ensures Split(s, sep)[1] == s[i + |sep|..]
  {
    RestIsWhole(s, sep, i);
    SecondOfLastStep(s, sep, i);
  }

  lemma {:induction false} RestIsWhole(s: string, sep: string, i: nat)
    requires |sep| > 0
    requires Find(s, sep, 0) == Some(i)
    requires Find(s, sep, i + |sep|).None?
    ensures Split(s[i + |sep|..], sep) == [s[i + |sep|..]]
  {
    var p := i + |sep|;
    FindInSuffix(s, sep, p, None);
    ContainsIffFound(s[p..], sep);
    SplitWhole(s[p..], sep);
  }

  lemma {:induction false} SecondOfLastStep(s: string, sep: string, i: nat)
    requires |sep| > 0
    requires Find(s, sep, 0) == Some(i)
    requires Split(s[i + |sep|..], sep) == [s[i + |sep|..]]
    ensures |Split(s, sep)| >= 2
    ensures Split(s, sep)[1] == s[i + |sep|..]
  {
    SplitStep(s, sep, i);
  }

  /** A position holding a character other than the pattern's first is no occurrence. */
  lemma {:induction false} NotOccursAt(s: string, pat: string, k: int)
    requires |pat| > 0 && 0 <= k < |s| && s[k] != pat[0]
    ensures !OccursAt(s, pat, k)
  {
    if k + |pat| <= |s| {
      assert s[k..k + |pat|][0] == s[k];
    }
  }

  /** A string without the character `c` does not contain it. */
  lemma {:induction false} AvoidsNoOccurrence(s: string, c: char)
    requires Avoids(s, c)
    ensures !Contains(s, [c])
  {
    forall k | 0 <= k < |s| ensures !OccursAt(s, [c], k) {
      NotOccursAt(s, [c], k);
    }
  }

  /** Splitting a join gives the parts back when no part holds the
      separator's first character. */
  lemma {:induction false} SplitJoin(parts: seq<string>, sep: string)
    requires |sep| > 0 && |parts| >= 1
    requires forall i :: 0 <= i < |parts| ==> Avoids(parts[i], sep[0])
    ensures Split(Join(parts, sep), sep) == parts
    decreases |parts|
  {
    var s := Join(parts, sep);
    var p0 := parts[0];
    if |parts| > 1 {
      assert s == p0 + (sep + Join(parts[1..], sep));
    }
    forall k | 0 <= k < |p0| ensures !OccursAt(s, sep, k) {
      assert s[k] == p0[k];
      NotOccursAt(s, sep, k);
    }
    if |parts| == 1 {
      forall k | 0 <= k ensures !OccursAt(s, sep, k) {
        if k < |s| {
          NotOccursAt(s, sep, k);
        }
      }
      FindUnique(s, sep, 0, None);
    } else {
      var rest := Join(parts[1..], sep);
      assert s == p0 + sep + rest;
      assert s[|p0|..|p0| + |sep|] == sep;
      FindUnique(s, sep, 0, Some(|p0|));
      assert s[..|p0|] == p0;
      assert s[|p0| + |sep|..] == rest;
      SplitJoin(parts[1..], sep);
      assert parts == [p0] + parts[1..];
    }
  }

  /** The first occurrence of a two-character separator with distinct
      characters in `a + sep + b` is the one right after `a`, when `a` does
      not contain the separator. */
  lemma {:induction false} FindAfterPrefix(a: string, sep: string, b: string)
    requires |sep| == 2 && sep[0] != sep[1] && !Contains(a, sep)
    ensures Find(a + sep + b, sep, 0) == Some(|a|)
  {
    var s := a + sep + b;
    assert s[|a|..|a| + 2] == sep;
    forall k | 0 <= k < |a| ensures !OccursAt(s, sep, k) {
      if k + 2 <= |a| {
        assert a[k..k + 2] == s[k..k + 2];
        assert !OccursAt(a, sep, k);
      } else {
        assert s[k + 1] == sep[0];
      }
    }
    FindUnique(s, sep, 0, Some(|a|));
  }

  /** Text without the separator's second character does not contain it. */
  lemma {:induction false} AvoidsSecond(s: string, sep: string)
    requires |sep| >= 2 && Avoids(s, sep[1])
    ensures !Contains(s, sep)
  {
    forall k | 0 <= k <= |s| ensures !OccursAt(s, sep, k) {
      if k + |sep| <= |s| {
        assert s[k..k + |sep|][1] == s[k + 1];
      }
    }
  }

  /** A join avoids a character that neither the parts nor the separator hold. */
  lemma {:induction false} JoinAvoids(parts: seq<string>, sep: string, c: char)
    requires Avoids(sep, c)
    requires forall i :: 0 <= i < |parts| ==> Avoids(parts[i], c)
    ensures Avoids(Join(parts, sep), c)
    decreases |parts|
  {
    if |parts| > 1 {
      JoinAvoids(parts[1..], sep, c);
    }
  }

  /** A position where some character differs from the pattern's is no occurrence. */
  lemma {:induction false} NotOccursAtOffset(s: string, pat: string, k: int, j: nat)
    requires 0 <= k && j < |pat| && k + j < |s| && s[k + j] != pat[j]
    ensures !OccursAt(s, pat, k)
  {
    if k + |pat| <= |s| {
      assert s[k..k + |pat|][j] == s[k + j];
    }
  }

  lemma {:induction false} JoinOf3(x: string, y: string, z: string, sep: string)
    ensures Join([x, y, z], sep) == x + sep + (y + sep + z)
  {
    assert [y, z][1..] == [z];
    assert Join([y, z], sep) == y + sep + z;
    assert [x, y, z][1..] == [y, z];
  }

  lemma {:induction false} JoinOf4(w: string, x: string, y: string, z: string, sep: string)
    ensures Join([w, x, y, z], sep) == w + sep + (x + sep + (y + sep + z))
  {
    JoinOf3(x, y, z, sep);
    assert [w, x, y, z][1..] == [x, y, z];
  }

  lemma {:induction false} AppendAssoc<T>(a: seq<T>, b: seq<T>, c: seq<T>)
    ensures (a + b) + c == a + (b + c)
  {
  }

  /** The two parts of a concatenation, sliced back out. */
  lemma {:induction false} ConcatHalves<T>(a: seq<T>, b: seq<T>)
    ensures (a + b)[0..|a|] == a && (a + b)[|a|..|a + b|] == b
  {
  }

  /** The last two parts of a three-way concatenation, sliced back out. */
  lemma {:induction false} ConcatThirds<T>(a: seq<T>, b: seq<T>, c: seq<T>)
    ensures (a + b + c)[|a|..|a| + |b|] == b && (a + b + c)[|a| + |b|..|a + b + c|] == c
  {
  }

  /** ASCII lower-casing of one character. */
  function LowerChar(c: char): char {
    if 'A' <= c <= 'Z' then (c as int + 32) as char else c
  }

  /** Python's `s.lower()` restricted to ASCII letters. */
  function Lower(s: string): string {
    seq(|s|, i requires 0 <= i < |s| => LowerChar(s[i]))
  }

  /** Python's `s.replace(c, "")`: every `c` removed, the rest kept in order. */
  function Remove(s: string, c: char): (r: string)
    ensures Avoids(r, c)
    ensures |r| <= |s|
    ensures Avoids(s, c) ==> r == s
    ensures forall x :: x != c ==> multiset(r)[x] == multiset(s)[x]
    decreases |s|
  {
    if |s| == 0 then ""
    else
      assert s == [s[0]] + s[1..];
      if s[0] == c then Remove(s[1..], c)
      else [s[0]] + Remove(s[1..], c)
  }

  /** Removal works piece by piece: the kept characters of `a + b` are those
      of `a` followed by those of `b`, so their order is preserved. */
  lemma {:induction false} RemoveAppend(a: string, b: string, c: char)
    ensures Remove(a + b, c) == Remove(a, c) + Remove(b, c)
    decreases |a|
  {
    if |a| > 0 {
      assert (a + b)[0] == a[0];
      assert (a + b)[1..] == a[1..] + b;
      RemoveAppend(a[1..], b, c);
    } else {
      assert a + b == b;
    }
  }

  /** On one character, removal drops it exactly when it is `c`. */
  lemma {:induction false} RemoveOne(x: char, c: char)
    ensures Remove([x], c) == if x == c then "" else [x]
  {
    assert [x][1..] == "";
  }
}

=== FILE: wrappers.dfy ===
/** Failure-compatible result types shared by every module of the model.
    The modelled Python code reports failures by raising exceptions; the
    model returns them as values of `Result`, naming the exception class. */
module Wrappers {

  datatype Option<+T> = None | Some(value: T)

  /** The Python exception classes the modelled code can raise. */
  datatype Exception =
    | ValueError         // bad separator, unparsable numeral, invalid switch name
    | IndexError         // `split(...)[k]` or list indexing out of range
    | KeyError           // missing dictionary key
    | IOError            // rejected argument in the Juniper driver
    | UnboundLocalError  // a local variable left unassigned by an if/elif chain
    | AttributeError     // an attribute that was never set

  datatype Result<+T> = Ok(value: T) | Err(error: Exception) {

    predicate IsFailure() {
      Err?
    }

    function PropagateFailure<U>(): Result<U>
      requires Err?
    {
      Err(error)
    }

    function Extract(): T
      requires Ok?
    {
      value
    }
  }
}

=== FILE: wss.dfy ===
/** `CiscoWSS` (cisco/driver.py): the wavelength selective switch. Its
    optical channel monitor is read per port and side, and a channel is
    provisioned, switched on and switched off by writes to per-side
    registers addressed by channel number. A side is named by the string
    `switch`: `"MUX"` or `"DMX"`. */
module Wss {
  import opened Wrappers
  import opened Text
  import opened Numerals
  import opened OmiFraming
  import opened OmiDevice

  // ---------------------------------------------------------------------
  // Optical channel monitor

  /** Python's `range(start, stop, step)` for a positive step. */
  function Range(start: int, stop: int, step: nat): seq<int>
    requires step > 0
  {
    var n := if stop <= start then 0 else (stop - start + step - 1) / step;
    seq(n, i requires 0 <= i < n => start + i * step)
  }

  /** The OCM registers of a side: `range(1, 36, 2)` for `"MUX"`,
      `range(0, 35, 2)` for anything else. */
  function OcmRegisters(switch: string): (r: seq<int>)
    ensures |r| == 18
    ensures forall i :: 0 <= i < 18 ==> r[i] == (if switch == "MUX" then 2 * i + 1 else 2 * i)
  {
    if switch == "MUX" then Range(1, 36, 2) else Range(0, 35, 2)
  }

  /** Python's `s[i]`: a negative index counts from the end. */
  function PyIndex(s: seq<int>, i: int): Result<int> {
    if 0 <= i < |s| then Ok(s[i])
    else if -|s| <= i < 0 then Ok(s[|s| + i])
    else Err(IndexError)
  }

  datatype Port = Com | Numbered(n: int)

  /** The register `get_ocm` reads: the last one for the common port,
      entry `port - 1` otherwise. */
  function OcmRegister(port: Port, switch: string): Result<int> {
    var regs := OcmRegisters(switch);
    match port
    case Com => PyIndex(regs, -1)
    case Numbered(p) => PyIndex(regs, p - 1)
  }

  /** One `"ch"` chunk of the monitor's reply: `"<slice>, power <tenths>"`
      with white space around the numbers; the slice is an int, the power
      is in tenths. */
  function ParseChunk(ch: string): Result<(int, real)> {
    var values := Split(ch, ",");
    match ParseInt(values[0])
    case Err(e) => Err(e)
    case Ok(slice) =>
      if |values| < 2 then Err(IndexError)
      else
        var parts := Split(values[1], "power");
        if |parts| < 2 then Err(IndexError)
        else
          match ParseFloat(parts[1])
          case Err(e) => Err(e)
          case Ok(p) => Ok((slice, p / 10.0))
  }

  /** The chunks in order, into two lists; the first chunk that does not
      parse ends the whole parse with its error. */
  function ParseChunks(chunks: seq<string>): (r: Result<(seq<int>, seq<real>)>)
    ensures r.Ok? ==> |r.value.0| == |chunks| && |r.value.1| == |chunks|
    ensures r.Ok? ==> forall i :: 0 <= i < |chunks| ==> ParseChunk(chunks[i]) == Ok((r.value.0[i], r.value.1[i]))
    ensures r.Err? ==> exists i :: 0 <= i < |chunks| && ParseChunk(chunks[i]) == Err(r.error) &&
                                 forall j :: 0 <= j < i ==> ParseChunk(chunks[j]).Ok?
    decreases |chunks|
  {
    if |chunks| == 0 then Ok(([], []))
    else
      match ParseChunk(chunks[0])
      case Err(e) => Err(e)
      case Ok((slice, power)) =>
        match ParseChunks(chunks[1..])
        case Err(e) =>
          assert forall i :: 0 <= i < |chunks| - 1 ==> chunks[1..][i] == chunks[i + 1];
          Err(e)
        case Ok((slices, powers)) => Ok(([slice] + slices, [power] + powers))
  }

  /** `get_ocm`'s parse: split the reply at `"ch"` and parse every piece
      after the first. */
  function ParseOcm(reply: string): Result<(seq<int>, seq<real>)> {
    ParseChunks(Split(reply, "ch")[1..])
  }

  /** `get_ocm`: select the register, send one OCM read of it, parse what
      the monitor sent back (`reply`, everything up to the last channel). */
  function GetOcm(d: Device, port: Port, switch: string, reply: string): Step<(seq<int>, seq<real>)> {
    match OcmRegister(port, switch)
    case Err(e) => Step(d, Err(e))
    case Ok(r) => Step(d.(trace := d.trace + [OcmReadCommand([r])], pending := ""), ParseOcm(reply))
  }

  /** Register selection: the common port is the last register of the
      side; port `p` in 1..18 is `2p - 1` on the multiplexer and `2(p - 1)`
      on the demultiplexer; ports -17..0 count from the end, as Python's
      negative indices do; any other port number is an IndexError. */
  lemma {:induction false} OcmRegisterSelection(port: Port, switch: string)
    ensures port == Com ==> OcmRegister(port, switch) == Ok(if switch == "MUX" then 35 else 34)
    ensures port.Numbered? && 1 <= port.n <= 18 ==>
              OcmRegister(port, switch) == Ok(if switch == "MUX" then 2 * port.n - 1 else 2 * (port.n - 1))
    ensures port.Numbered? && -17 <= port.n <= 0 ==>
              OcmRegister(port, switch) == Ok(if switch == "MUX" then 2 * port.n + 35 else 2 * port.n + 34)
    ensures port.Numbered? && (port.n < -17 || port.n > 18) ==> OcmRegister(port, switch) == Err(IndexError)
  {
  }

  /** A port with no register sends nothing; otherwise exactly one OCM
      read of the selected register is sent. */
  lemma {:induction false} GetOcmSends(d: Device, port: Port, switch: string, reply: string)
    ensures OcmRegister(port, switch).Err? ==> GetOcm(d, port, switch, reply) == Step(d, Err(IndexError))
    ensures OcmRegister(port, switch).Ok? ==>
              GetOcm(d, port, switch, reply).dev.trace == d.trace + [OcmReadCommand([OcmRegister(port, switch).value])]
  {
    if OcmRegister(port, switch).Err? {
      OcmRegisterSelection(port, switch);
    }
  }

  /** A monitor chunk as the card prints it. */
  function Chunk(slice: int, power: int): string {
    " " + IntToString(slice) + "," + " power " + IntToString(power)
  }

  /** A monitor reply: a banner, then one `"ch"` chunk per channel. */
  function OcmReply(banner: string, entries: seq<(int, int)>): string {
    Join([banner] + Chunks(entries), "ch")
  }

  function Chunks(entries: seq<(int, int)>): seq<string> {
    seq(|entries|, i requires 0 <= i < |entries| => Chunk(entries[i].0, entries[i].1))
  }

  /** A rendered numeral contains no letter and no comma. */
  lemma {:induction false} NumeralAvoids(n: int, c: char)
    requires c != '-' && !IsDigit(c)
    ensures Avoids(IntToString(n), c)
  {
  }

  /** Each printed chunk parses back to its slice and its power in tenths. */
  lemma {:induction false} ChunkRoundTrip(slice: int, power: int)
    ensures ParseChunk(Chunk(slice, power)) == Ok((slice, power as real / 10.0))
  {
    ChunkPieces(slice, power);
    PowerPieces(power);
    ParseIntPadded(slice);
    ParseFloatPadded(power);
    ParseChunkOf(Chunk(slice, power), " " + IntToString(slice), " power " + IntToString(power),
                 " " + IntToString(power), slice, power as real);
  }

  lemma {:induction false} ChunkPieces(slice: int, power: int)
    ensures Split(Chunk(slice, power), ",") == [" " + IntToString(slice), " power " + IntToString(power)]
  {
    var a, b := " " + IntToString(slice), " power " + IntToString(power);
    NumeralAvoids(slice, ',');
    NumeralAvoids(power, ',');
    assert Join([a, b], ",") == Chunk(slice, power);
    SplitJoin([a, b], ",");
  }

  lemma {:induction false} PowerPieces(power: int)
    ensures Split(" power " + IntToString(power), "power") == [" ", " " + IntToString(power)]
  {
    NumeralAvoids(power, 'p');
    assert Join([" ", " " + IntToString(power)], "power") == " power " + IntToString(power);
    SplitJoin([" ", " " + IntToString(power)], "power");
  }

  lemma {:induction false} ParseChunkOf(ch: string, a: string, b: string, c: string, slice: int, x: real)
    requires Split(ch, ",") == [a, b] && Split(b, "power") == [" ", c]
    requires ParseInt(a) == Ok(slice) && ParseFloat(c) == Ok(x)
    ensures ParseChunk(ch) == Ok((slice, x / 10.0))
  {
  }

  /** The slices of the entries, in order. */
  function Slices(entries: seq<(int, int)>): seq<int> {
    seq(|entries|, i requires 0 <= i < |entries| => entries[i].0)
  }

  /** The powers of the entries, as the parse scales them. */
  function Powers(entries: seq<(int, int)>): seq<real> {
    seq(|entries|, i requires 0 <= i < |entries| => entries[i].1 as real / 10.0)
  }

  /** Chunks that all parse are parsed into exactly their values. */
  lemma {:induction false} ParseChunksAll(chunks: seq<string>, slices: seq<int>, powers: seq<real>)
    requires |slices| == |chunks| && |powers| == |chunks|
    requires forall i :: 0 <= i < |chunks| ==> ParseChunk(chunks[i]) == Ok((slices[i], powers[i]))
    ensures ParseChunks(chunks) == Ok((slices, powers))
  {
    var r := ParseChunks(chunks);
    assert r.value.0 == slices;
    assert r.value.1 == powers;
  }

  /** The parse of a printed reply gives back every channel's slice and
      power, in order, and ignores the banner, whatever it holds short of
      the separator "ch" itself. */
  lemma {:induction false} OcmRoundTrip(banner: string, entries: seq<(int, int)>)
    requires !Contains(banner, "ch")
    ensures ParseOcm(OcmReply(banner, entries)) == Ok((Slices(entries), Powers(entries)))
  {
    var chunks := Chunks(entries);
    OcmPieces(banner, entries);
    forall i | 0 <= i < |chunks| ensures ParseChunk(chunks[i]) == Ok((Slices(entries)[i], Powers(entries)[i])) {
      ChunkRoundTrip(entries[i].0, entries[i].1);
    }
    ParseChunksAll(chunks, Slices(entries), Powers(entries));
  }

  /** The pieces of a printed reply after the banner are its chunks. */
  lemma {:induction false} OcmPieces(banner: string, entries: seq<(int, int)>)
    requires !Contains(banner, "ch")
    ensures Split(OcmReply(banner, entries), "ch")[1..] == Chunks(entries)
  {
    var chunks := Chunks(entries);
    if |chunks| == 0 {
      assert [banner] + chunks == [banner];
      SplitWhole(banner, "ch");
    } else {
      forall i | 0 <= i < |chunks| ensures Avoids(chunks[i], "ch"[0]) {
        NumeralAvoids(entries[i].0, 'c');
        NumeralAvoids(entries[i].1, 'c');
      }
      var rest := Join(chunks, "ch");
      JoinCons(banner, chunks, "ch");
      FindAfterPrefix(banner, "ch", rest);
      SplitStep(OcmReply(banner, entries), "ch", |banner|);
      assert (banner + "ch" + rest)[|banner| + 2..] == rest;
      SplitJoin(chunks, "ch");
    }
  }

  /** The card echoes the command before the channels; the echo holds a 'c'
      but not "ch", so the round trip covers it. */
  lemma {:induction false} EchoedBanner(entries: seq<(int, int)>)
    ensures ParseOcm(OcmReply("ocm_raw_read 35\r\n", entries)) == Ok((Slices(entries), Powers(entries)))
  {
    AvoidsSecond("ocm_raw_read 35\r\n", "ch");
    OcmRoundTrip("ocm_raw_read 35\r\n", entries);
  }

  // ---------------------------------------------------------------------
  // Channel provisioning

  /** A side's per-channel registers; each is written in sub-field
      `channel`. */
  datatype Bank = Bank(onOff: int, frequency: int, bandwidth: int, port: int, voaMode: int, attenuation: int)

  /** The register bank of a side, if `switch` names one. */
  function BankOf(switch: string): Option<Bank> {
    if switch == "DMX" then Some(Bank(80, 28, 29, 27, 26, 30))
    else if switch == "MUX" then Some(Bank(82, 34, 35, 33, 32, 36))
    else None
  }

  /** `_omi_write(register, channel, 1, 1, value)`. */
  function Put(d: Device, register: int, channel: int, value: int): Device {
    Write(d, register, channel, 1, 1, value)
  }

  /** The channel code lies in 30612..31380 (191.325 to 196.125 THz in
      6.25 GHz steps) and the bandwidth code in 4..40 (50 to 500 GHz in
      12.5 GHz slots). */
  predicate InRange(fc: int, bwc: int) {
    30612 <= fc <= 31380 && 4 <= bwc <= 40
  }

  /** `init_channel_WXC` from the integer codes on: out-of-range codes
      return before anything is sent, an unknown side raises before
      anything is sent, and otherwise the channel is switched off, tuned,
      given its port and attenuation, and switched back on. */
  function InitChannel(d: Device, channel: int, fc: int, bwc: int, att: real, expPort: int, switch: string): Step<()> {
    if fc < 30612 || fc > 31380 then Step(d, Ok(()))
    else if bwc < 4 || bwc > 40 then Step(d, Ok(()))
    else
      match BankOf(switch)
      case None => Step(d, Err(ValueError))
      case Some(b) => Step(Provision(d, b, channel, fc, bwc, Trunc(att * 10.0), expPort), Ok(()))
  }

  /** The eight writes of provisioning through a bank: off, frequency,
      bandwidth, port, VOA mode, attenuation, VOA mode again, on. */
  function Provision(d: Device, b: Bank, channel: int, fc: int, bwc: int, a: int, expPort: int): Device {
    var d1 := Put(d, b.onOff, channel, 0);
    var d2 := Put(d1, b.frequency, channel, fc);
    var d3 := Put(d2, b.bandwidth, channel, bwc);
    var d4 := Put(d3, b.port, channel, expPort);
    var d5 := Put(d4, b.voaMode, channel, 1);
    var d6 := Put(d5, b.attenuation, channel, a);
    var d7 := Put(d6, b.voaMode, channel, 1);
    Put(d7, b.onOff, channel, 1)
  }

  /** `set_ch_on`: the VOA mode of a known side, then the on/off register;
      a side that is neither `"DMX"` nor `"MUX"` gets only the multiplexer's
      on/off write. */
  function SetChOn(d: Device, channel: int, switch: string): Device {
    var d1 := if switch == "DMX" then Put(d, 26, channel, 1)
              else if switch == "MUX" then Put(d, 32, channel, 1)
              else d;
    Put(d1, if switch == "DMX" then 80 else 82, channel, 1)
  }

  /** `set_ch_off`: the on/off register of the side, 82 unless `"DMX"`. */
  function SetChOff(d: Device, channel: int, switch: string): Device {
    Put(d, if switch == "DMX" then 80 else 82, channel, 0)
  }

  /** The command a provisioning write puts on the wire. */
  function PutCommand(register: int, channel: int, value: int): string {
    WriteCommand(register, channel, 1, 1, value, Cr)
  }

  /** Provisioning sends nothing, and succeeds, exactly when a code is out
      of range; it sends nothing and raises ValueError exactly when the
      codes are in range and the side is unknown. */
  lemma {:induction false} InitChannelGuards(d: Device, channel: int, fc: int, bwc: int, att: real, expPort: int, switch: string)
    ensures !InRange(fc, bwc) ==> InitChannel(d, channel, fc, bwc, att, expPort, switch) == Step(d, Ok(()))
    ensures InitChannel(d, channel, fc, bwc, att, expPort, switch).out.Err? <==>
              InRange(fc, bwc) && switch != "DMX" && switch != "MUX"
    ensures InitChannel(d, channel, fc, bwc, att, expPort, switch).out.Err? ==>
              InitChannel(d, channel, fc, bwc, att, expPort, switch) == Step(d, Err(ValueError))
    ensures InRange(fc, bwc) && (switch == "DMX" || switch == "MUX") ==>
              |InitChannel(d, channel, fc, bwc, att, expPort, switch).dev.trace| == |d.trace| + 8
  {
  }

  /** With codes in range, the demultiplexer side gets exactly these eight
      writes, in this order. */
  lemma {:induction false} InitChannelDmx(d: Device, channel: int, fc: int, bwc: int, att: real, expPort: int)
    requires InRange(fc, bwc)
    ensures InitChannel(d, channel, fc, bwc, att, expPort, "DMX").dev.trace ==
            d.trace + [PutCommand(80, channel, 0), PutCommand(28, channel, fc), PutCommand(29, channel, bwc),
                       PutCommand(27, channel, expPort), PutCommand(26, channel, 1),
                       PutCommand(30, channel, Trunc(att * 10.0)), PutCommand(26, channel, 1),
                       PutCommand(80, channel, 1)]
  {
    TraceOfEight(d, Bank(80, 28, 29, 27, 26, 30), channel, fc, bwc, Trunc(att * 10.0), expPort);
  }

  /** The multiplexer side likewise, on its own registers. */
  lemma {:induction false} InitChannelMux(d: Device, channel: int, fc: int, bwc: int, att: real, expPort: int)
    requires InRange(fc, bwc)
    ensures InitChannel(d, channel, fc, bwc, att, expPort, "MUX").dev.trace ==
            d.trace + [PutCommand(82, channel, 0), PutCommand(34, channel, fc), PutCommand(35, channel, bwc),
                       PutCommand(33, channel, expPort), PutCommand(32, channel, 1),
                       PutCommand(36, channel, Trunc(att * 10.0)), PutCommand(32, channel, 1),
                       PutCommand(82, channel, 1)]
  {
    TraceOfEight(d, Bank(82, 34, 35, 33, 32, 36), channel, fc, bwc, Trunc(att * 10.0), expPort);
  }

  lemma {:induction false} TraceOfEight(d: Device, b: Bank, channel: int, fc: int, bwc: int, a: int, expPort: int)
    ensures Provision(d, b, channel, fc, bwc, a, expPort).trace ==
            d.trace + [PutCommand(b.onOff, channel, 0), PutCommand(b.frequency, channel, fc),
                       PutCommand(b.bandwidth, channel, bwc), PutCommand(b.port, channel, expPort),
                       PutCommand(b.voaMode, channel, 1), PutCommand(b.attenuation, channel, a),
                       PutCommand(b.voaMode, channel, 1), PutCommand(b.onOff, channel, 1)]
  {
  }

  /** The registers of a bank for one channel. */
  function BankKeys(b: Bank, channel: int): set<(int, int)> {
    {(b.onOff, channel), (b.frequency, channel), (b.bandwidth, channel),
     (b.port, channel), (b.voaMode, channel), (b.attenuation, channel)}
  }

  /** After provisioning, the channel is on, tuned to its codes, routed to
      its port, in attenuation mode with the attenuation in tenths; every
      other register, including every other channel's, is as it was. */
  lemma {:induction false} InitChannelState(d: Device, channel: int, fc: int, bwc: int, att: real, expPort: int, switch: string)
    requires InRange(fc, bwc) && BankOf(switch).Some?
    ensures var b := BankOf(switch).value;
            var r := InitChannel(d, channel, fc, bwc, att, expPort, switch).dev.regs;
            && r[(b.onOff, channel)] == 1 && r[(b.frequency, channel)] == fc
            && r[(b.bandwidth, channel)] == bwc && r[(b.port, channel)] == expPort
            && r[(b.voaMode, channel)] == 1 && r[(b.attenuation, channel)] == Trunc(att * 10.0)
            && forall key :: key in d.regs && key !in BankKeys(b, channel) ==> key in r && r[key] == d.regs[key]
  {
    ProvisionState(d, BankOf(switch).value, channel, fc, bwc, Trunc(att * 10.0), expPort);
  }

  lemma {:induction false} ProvisionState(d: Device, b: Bank, channel: int, fc: int, bwc: int, a: int, expPort: int)
    requires b.onOff !in {b.frequency, b.bandwidth, b.port, b.voaMode, b.attenuation}
    requires b.frequency !in {b.bandwidth, b.port, b.voaMode, b.attenuation}
    requires b.bandwidth !in {b.port, b.voaMode, b.attenuation}
    requires b.port !in {b.voaMode, b.attenuation} && b.voaMode != b.attenuation
    ensures var r := Provision(d, b, channel, fc, bwc, a, expPort).regs;
            && r[(b.onOff, channel)] == 1 && r[(b.frequency, channel)] == fc
            && r[(b.bandwidth, channel)] == bwc && r[(b.port, channel)] == expPort
            && r[(b.voaMode, channel)] == 1 && r[(b.attenuation, channel)] == a
            && forall key :: key in d.regs && key !in BankKeys(b, channel) ==> key in r && r[key] == d.regs[key]
  {
  }

  /** `set_ch_on` on a known side sets its VOA mode and then switches the
      channel on; on any other side it sends only the multiplexer's
      switch-on. */
  lemma {:induction false} SetChOnWrites(d: Device, channel: int, switch: string)
    ensures switch == "DMX" ==>
              SetChOn(d, channel, switch).trace == d.trace + [PutCommand(26, channel, 1), PutCommand(80, channel, 1)]
    ensures switch == "MUX" ==>
              SetChOn(d, channel, switch).trace == d.trace + [PutCommand(32, channel, 1), PutCommand(82, channel, 1)]
    ensures switch != "DMX" && switch != "MUX" ==>
              SetChOn(d, channel, switch).trace == d.trace + [PutCommand(82, channel, 1)]
  {
  }

  /** On a known side, switching a channel on or off leaves it as
      provisioning does, or the opposite: on/off register 1 with the VOA
      mode set, or on/off register 0. */
  lemma {:induction false} OnOffAgree(d: Device, channel: int, switch: string)
    requires BankOf(switch).Some?
    ensures var b := BankOf(switch).value;
            && SetChOn(d, channel, switch).regs[(b.onOff, channel)] == 1
            && SetChOn(d, channel, switch).regs[(b.voaMode, channel)] == 1
            && SetChOff(d, channel, switch).regs[(b.onOff, channel)] == 0
            && SetChOff(d, channel, switch).trace == d.trace + [PutCommand(b.onOff, channel, 0)]
  {
  }
}
